=== FILE: README.md ===
# Super Dungeon Remake: level generation, items, inventory, entities and spawning in Dafny

This project models the gameplay core of Super Dungeon Remake, a Godot/C# dungeon crawler.
It covers the following parts:

- **Level generation.** A binary space partition (BSP) tree over a square map. One room is carved into each leaf, and L-shaped corridors join sibling subtrees. The generator renders room floors with a wall pass around them and punches 2x2 pillar holes into large rooms (`BSPNode`, `Room`, `LevelGenerator`).
- **The game map.** It reads the generator's tiles and punches its own pillars. It rolls a treasure and decoration trial for every cell of a room, then runs a second wall pass that also closes one-cell gaps between floors (`Map`). As written, the generator it creates has no random generator and throws as soon as a room exists; the model states that, and then states what the map does with a working generator, with the tiles read as written and as intended.
- **Items and their stacks** (`BaseItem`). The inventory's slots hold them. Adding tops up matching stacks first, then fills empty slots with clones, then sorts stably by type, rarity and name. Removing, using, counting and clearing are also modelled (`InventorySystem`).
- **Game entities.** Health, damage with an invulnerability window, healing and death (`GameEntity`).
- **The enemy spawner.** It picks the enemy count and kinds by depth and places each enemy at a random room's centre (`EnemySpawner`).
- **Run progression counters** (`GameData`).

Each Dafny module follows one source file:

| module | models |
|---|---|
| `Mathf` | Godot's integer `Mathf.Min`, `Max` and `Clamp` |
| `Geometry` | `Room`, plus the C# truncating `/ 2` and `(int)` casts |
| `Random` | Godot's `RandiRange`, as a raw draw clamped into its range |
| `Bsp` | `BSPNode` |
| `LevelWalls` | `LevelGenerator.AddWalls` and `IsAdjacentToFloor` |
| `LevelGen` | the rest of `LevelGenerator` |
| `DungeonMap` | `Map` |
| `Items` | `BaseItem` |
| `ItemOrder` | the sort key of `InventorySystem.SortInventory` |
| `Inventory` | `InventorySystem` and `InventorySlot` |
| `Entity` | `GameEntity` |
| `GameData` | `GameData` |
| `Spawner` | `EnemySpawner` |

Several decisions shape the model:

- **Randomness.** Every random draw is an explicit argument. A `RandiRange(lo, hi)` becomes a raw integer clamped into `[lo, hi]`, so the lemmas can say that every outcome is reachable. A `Randf()` becomes a `real`. Whether a packed scene loads or instantiates becomes a `bool`.
- **Tile maps.** `LevelGenerator`'s tile map is the set of cells that hold a tile, because every tile it places has source id 0 and every test it makes is `!= -1`. `Map` reads tiles by source id: -1 is unset, 0 is wall and 1 is floor. So its grid is a finite map from cells to `Wall` or `Floor`, and absence means unset.
- **Constants.** `BSPNode` and `LevelGenerator` name `GlobalConstants.MapSize`, `MaxDepth` and `SplitPercentage`. Two classes carry that name:
  - `Scripts/GlobalConstants.cs` in the global namespace: 64, 8 and 0.5.
  - `Scripts/Utils/GlobalConstants.cs`: 150, 5 and 0.3.

  C# name lookup finds the global one first, so those values apply. The model takes them as a `Config` with the percentage in hundredths.
- **Known behaviour of the source, kept as written:**
  - `LevelGenerator.RenderMap` clears the tile map after `GenerateCorridors` has laid the corridors, so the floors are exactly the room cells. `LevelGen.GenerateLevel` states this.
  - The wall pass reads the live map, so each new wall counts as a floor for the cells after it and the pass floods the window from the first room onward. `LevelGen.RenderMap` and `LevelGen.GenerateLevel` state this; the `Intended` members state the ring of walls the pass is meant to draw.
  - A corridor leg toward smaller coordinates has a negative length and draws nothing.
  - The inventory stores each clone without adding it to the scene tree, so the clone never runs `InitializeItem` and keeps its scene's exported `IsStackable` and `MaxStackSize`. A non-stackable item whose scene exports a maximum of 5 fills one empty slot with up to 5 (`Items.CloneSkipsInitialization`, `Inventory.EmptySlotsTakeSceneMaximum`).
  - A room with an odd side has a centre on a half cell. Truncating the centres and the run length separately can leave the two legs of a corridor one cell apart, as `LevelGen.CorridorLegsCanMiss` shows.

## Model

| member | source | states |
|---|---|---|
| Geometry.IntersectsSymmetric | super-dungeon-remake/Scripts/Level/Room.cs:33-37 | overlap of two rooms is symmetric |
| Geometry.IntersectsIffCommonCell | super-dungeon-remake/Scripts/Level/Room.cs:28-37 | two non-empty rooms intersect exactly when some cell is contained in both |
| Geometry.CenterCellInside | super-dungeon-remake/Scripts/Level/Room.cs:15-18 | for a non-empty room at non-negative coordinates the centre, cast to a cell, lies in the room and is (left + width/2, top + height/2) |
| Geometry.CenterCellOutsideAtNegativeOddOrigin | super-dungeon-remake/Scripts/Level/LevelGenerator.cs:75-82 | the `(int)` cast truncates toward zero, so a 1x1 room at x = -3 has its corridor endpoint outside itself |
| Bsp.SplitOffset | super-dungeon-remake/Scripts/Level/BSPNode.cs:63-65 | the truncated offset lies within one of side*percentage, and is at most half the side for a percentage up to 0.5 |
| Bsp.Split | super-dungeon-remake/Scripts/Level/BSPNode.cs:37-81 | refuses (and changes nothing) exactly when the node has children, is at maximum depth or has a side below 12; otherwise two fresh children one level deeper tile the node's rectangle with non-negative sides |
| Bsp.SplitAxisAndSize | super-dungeon-remake/Scripts/Level/BSPNode.cs:46-78 | a node at least 5/4 as wide as high is cut vertically, one at least 5/4 as high as wide horizontally, and the first child's size lies within the offset of half the divided side |
| Bsp.SplitSize | super-dungeon-remake/Scripts/Level/BSPNode.cs:61-77 | the first child's size is within the offset of half the side, and between 0 and the side |
| Bsp.SplitWithPointThreeLeavesPositiveChildren | super-dungeon-remake/Scripts/Utils/GlobalConstants.cs:11 | with the 0.3 percentage a side of at least 12 always splits into two sides of at least 1 |
| Bsp.SplitWithOneHalfAllowsEmptyChild | super-dungeon-remake/Scripts/GlobalConstants.cs:10-12 | with the 0.5 percentage in force, a 12x12 node can be split into a child of width 0 |
| Bsp.CreateRoom | super-dungeon-remake/Scripts/Level/BSPNode.cs:83-111 | a node with children or a side below 12 is unchanged; otherwise it receives a room with sides at least 10, a left/top margin of at least 2, inside the leaf, and nothing else changes |
| Bsp.GetRoom | super-dungeon-remake/Scripts/Level/BSPNode.cs:113-129 | no room exactly when no leaf of the subtree has one; otherwise one of the subtree's leaf rooms; a leaf returns its own |
| Bsp.GetRoomCanReachEveryRoom | super-dungeon-remake/Scripts/Level/BSPNode.cs:119-128 | every leaf room of a subtree is the representative for some choice of coins |
| Bsp.LeafRoomsInside | super-dungeon-remake/Scripts/Level/BSPNode.cs:100-110 | in a tree built by splitting and carving, every leaf room lies inside the subtree's rectangle and has sides of at least 10 |
| Bsp.LeafRoomsDisjoint | super-dungeon-remake/Scripts/Level/BSPNode.cs:61-78 | in such a tree no two leaf rooms intersect |
| LevelWalls.AddWalls | super-dungeon-remake/Scripts/Level/LevelGenerator.cs:131-149 | the pass only adds cells, only in [-2, MapSize+2)^2, and sets an empty cell exactly when a neighbour is set in the map as it stands when the row-major pass reaches that cell |
| LevelWalls.AddWallsCascades | super-dungeon-remake/Scripts/Level/LevelGenerator.cs:133-164 | a set cell makes its right-hand neighbour in the window set too, so the pass fills the rest of the row |
| LevelWalls.AddWallsSetsCellAwayFromFloor | super-dungeon-remake/Scripts/Level/LevelGenerator.cs:151-168 | a single floor at (0,0) yields a wall at (5,-1), five cells away from any floor |
| LevelWalls.AddWallsCascadesDown | super-dungeon-remake/Scripts/Level/LevelGenerator.cs:133-164 | a set cell makes the three window cells below it set too |
| LevelWalls.AddWallsFillsRow | super-dungeon-remake/Scripts/Level/LevelGenerator.cs:133-164 | a set window cell makes every window cell to its right in the same row set |
| LevelWalls.AddWallsFloods | super-dungeon-remake/Scripts/Level/LevelGenerator.cs:131-168 | a set window cell (x, y) makes every window cell of a row y' >= y from column x - (y' - y) rightward set |
| LevelWalls.AddWallsEmpty | super-dungeon-remake/Scripts/Level/LevelGenerator.cs:131-168 | an empty map stays empty |
| LevelWalls.AddWallsAroundFloors | super-dungeon-remake/Scripts/Level/LevelGenerator.cs:131-168 | corrected pass: the result is exactly the floors plus the window cells with a floor among their eight neighbours |
| LevelGen.FillCells | super-dungeon-remake/Scripts/Level/LevelGenerator.cs:108-117 | exactly the rectangle's cells are added, and nothing else changes |
| LevelGen.CorridorCells | super-dungeon-remake/Scripts/Level/LevelGenerator.cs:73-91 | a cell is drawn exactly when it lies on a leg: horizontal first, A's centre row from A's centre x for the truncated x run, then B's centre column from A's centre y for the truncated y run; vertical first, the mirror image; a leg with a non-positive run draws nothing |
| LevelGen.CorridorJoinsWholeCentres | super-dungeon-remake/Scripts/Level/LevelGenerator.cs:73-91 | with whole-cell centres and B to the lower right, the corridor is an unbroken L from A's centre to the corner and on to the cell above B's centre, inside the box the centres span |
| LevelGen.CorridorLegsCanMiss | super-dungeon-remake/Scripts/Level/LevelGenerator.cs:82-83 | for two disjoint rooms, truncating the centre deltas separately can leave a one-cell gap between the two legs |
| LevelGen.GenerateCorridors | super-dungeon-remake/Scripts/Level/LevelGenerator.cs:56-71 | one corridor per internal node whose two children both have a room, from the left representative to the right, in pre-order; the map gains exactly those corridors' cells |
| LevelGen.GenerateRooms | super-dungeon-remake/Scripts/Level/LevelGenerator.cs:39-54 | the tree keeps its rectangle and depth and is well formed (children tile their parent, leaf rooms fit their leaves), and the list gains exactly its leaf rooms, left to right |
| LevelGen.FillRooms | super-dungeon-remake/Scripts/Level/LevelGenerator.cs:96-102 | after clearing, the floors are exactly the rooms' cells |
| LevelGen.RenderMap | super-dungeon-remake/Scripts/Level/LevelGenerator.cs:93-106 | the floors are exactly the rooms' cells and all of them stay; every other tile is in the window; every window cell from a room's top-left cell rightward and along the diagonal below it holds a tile; no rooms leaves the map empty |
| LevelGen.RenderMapIntended | super-dungeon-remake/Scripts/Level/LevelGenerator.cs:93-106 | corrected pass: the map is exactly the floors plus the window cells adjacent to a floor |
| LevelGen.PillarOffsets | super-dungeon-remake/Scripts/Level/LevelGenerator.cs:190-196 | an undecorated room gets no pillar; a decorated one gets 3 to 8, each offset within [1, side-3] |
| LevelGen.PillarCellsInside | super-dungeon-remake/Scripts/Level/LevelGenerator.cs:195-205 | every erased pillar cell lies strictly inside a decorated room, off its border rows and columns |
| LevelGen.AddDecorations | super-dungeon-remake/Scripts/Level/LevelGenerator.cs:185-209 | a cell survives exactly when it was set and is in no room's pillar block; every erased cell is strictly inside a decorated room |
| LevelGen.GetRandomFloorCell | super-dungeon-remake/Scripts/Level/LevelGenerator.cs:211-229 | a cell of a non-empty room; the top-left corner for an empty one |
| LevelGen.GetRandomFloorCellReachesEveryCell | super-dungeon-remake/Scripts/Level/LevelGenerator.cs:215-226 | every cell of the room is returned for some draw |
| LevelGen.PlanLevel | super-dungeon-remake/Scripts/Level/LevelGenerator.cs:19-30 | the rooms are pairwise disjoint, inside the map, with sides of at least 10 |
| LevelGen.GenerateLevel | super-dungeon-remake/Scripts/Level/LevelGenerator.cs:19-37 | the rooms are pairwise disjoint, inside the map, with sides of at least 10; the floors are exactly the room cells, each kept unless a pillar erased it; every pillar cell is a hole; every other tile is in the window, which is flooded from each room's top-left cell except at pillars; no rooms gives an empty map |
| LevelGen.GenerateLevelIntended | super-dungeon-remake/Scripts/Level/LevelGenerator.cs:19-37 | with the corrected pass, the tiles are exactly the room cells and the window cells adjacent to one, less the pillar holes, so no corridor survives the clear |
| DungeonMap.FillCells | super-dungeon-remake/Scripts/Level/Map.cs:219-228 | the rectangle's cells take the kind (unset erases) and every other cell keeps its own |
| DungeonMap.FillCellsFloor | super-dungeon-remake/Scripts/Level/Map.cs:237-250 | the rectangle's cells become Floor and every other cell keeps its own |
| DungeonMap.AddPillars | super-dungeon-remake/Scripts/Level/Map.cs:256-274 | exactly the pillar blocks are unset, and every other cell keeps its kind |
| DungeonMap.AddPillarsStaysInside | super-dungeon-remake/Scripts/Level/Map.cs:258-271 | any cell the pillars change lies strictly inside a decorated room |
| DungeonMap.VisitKind | super-dungeon-remake/Scripts/Level/Map.cs:286-365 | an unset cell becomes Floor exactly when floors flank it horizontally or vertically, Wall exactly when it is no such gap but touches a floor in one of eight directions, and stays unset otherwise |
| DungeonMap.AddWalls | super-dungeon-remake/Scripts/Level/Map.cs:280-369 | set cells keep their kind, cells outside [-2, 50)^2 are untouched, and each unset cell in the window takes the kind its neighbourhood gives when the row-major pass reaches it |
| DungeonMap.AddWallsFillsGap | super-dungeon-remake/Scripts/Level/Map.cs:289-300 | an unset cell between two floors becomes Floor |
| DungeonMap.AddWallsEnclosesFloor | super-dungeon-remake/Scripts/Level/Map.cs:302-365 | an unset window cell next to a floor is set after the pass |
| DungeonMap.AddWallsCloses | super-dungeon-remake/Scripts/Level/Map.cs:289-365 | for any grid, the pass closes its floors: every unset window cell between two floors becomes Floor and every one next to a floor is set |
| DungeonMap.AddWallsWithoutFloors | super-dungeon-remake/Scripts/Level/Map.cs:280-369 | a map with no Floor tile is left unchanged, since every test asks for source id 1 |
| DungeonMap.FloorCellsOf | super-dungeon-remake/Scripts/Level/Map.cs:400-410 | the collected cells are exactly the rectangle's cells that hold Floor |
| DungeonMap.GetRandomFloorCell | super-dungeon-remake/Scripts/Level/Map.cs:397-420 | a Floor cell of the rectangle when it has one, otherwise the rectangle's middle cell |
| DungeonMap.GetRandomFloorCellReachesEveryFloor | super-dungeon-remake/Scripts/Level/Map.cs:413-416 | every Floor cell of the rectangle is returned for some draw |
| DungeonMap.ImportAsWritten | super-dungeon-remake/Scripts/Level/Map.cs:30-32 | every tile the level generator places, having source id 0, reads as Wall |
| DungeonMap.ImportIntended | super-dungeon-remake/Scripts/Level/Map.cs:30-32 | room floors read as Floor, the generator's other tiles as Wall, and empty cells as unset |
| DungeonMap.GenerateTilesIntended | super-dungeon-remake/Scripts/Level/Map.cs:78-82 | the intended generator's level read into the map: disjoint rooms of at least the minimum size inside the map, Floor exactly on the room cells the generator's pillars left, and nothing set outside the generator's window |
| DungeonMap.AsWrittenSamplesHole | super-dungeon-remake/Scripts/Level/Map.cs:397-420 | read as written, a floor area with a pillar hole at its middle yields the hole as the "floor" cell; read as intended it yields a Floor cell |
| DungeonMap.TrialCount | super-dungeon-remake/Scripts/Level/Map.cs:110 | a non-empty room gets width*height trials |
| DungeonMap.Trial | super-dungeon-remake/Scripts/Level/Map.cs:112-179 | an object is placed exactly when the treasure roll hits and that treasure's scene is set, or the roll misses and the 5% decoration roll hits; a hit places the coin's chest or potion (always a chest in a super room), a miss a decoration with variant 0..3; the object sits on a cell the floor picker may return, at that cell's pixel (+8 for decorations) |
| DungeonMap.TrialObjectIndependentOfGrid | super-dungeon-remake/Scripts/Level/Map.cs:112-179 | whether a trial places an object, and which, does not depend on the grid; only the cell does |
| DungeonMap.DecorateRoom | super-dungeon-remake/Scripts/Level/Map.cs:94-180 | the room's pillar blocks are erased, and every trial outcome is a sound placement in the decorated grid |
| DungeonMap.DecorateRooms | super-dungeon-remake/Scripts/Level/Map.cs:94-181 | one outcome list per room; every grid's floors are floors of the imported map; the final grid is the import minus all pillar blocks |
| DungeonMap.Decorate | super-dungeon-remake/Scripts/Level/Map.cs:84-185 | no rooms leaves the map untouched; otherwise width*height trials per room, each placing an object exactly when its draws allow, every object inside its room or at its middle, no potion in a super room, then the wall pass; a map without Floor tiles gets no walls and every object at the room's middle |
| DungeonMap.GenerateLevel | super-dungeon-remake/Scripts/Level/Map.cs:75-89 | as written the generator's random generator is null, so the call throws exactly when the generator produced a room; otherwise the guard returns with an empty grid and no objects |
| DungeonMap.GenerateLevelSeeded | super-dungeon-remake/Scripts/Level/Map.cs:75-185 | with a working generator and tiles read as written: disjoint rooms, width*height trials each, objects placed exactly when the draws allow, every one at its room's middle cell, no Floor anywhere and no change from the wall pass |
| DungeonMap.GenerateLevelIntended | super-dungeon-remake/Scripts/Level/Map.cs:75-185 | with a working generator, the intended wall pass and floors read as Floor: disjoint rooms; no rooms means no objects and no floor; width*height trials each, objects placed exactly when the draws allow, each inside its room at its pixel position, and super rooms hold no potion; before walls, a cell is Floor exactly when it lies in a room and neither the generator's pillars nor the decoration's pillars erased it, and every set cell lies in the generator's window; with rooms the final grid is the wall pass of that grid, keeps its cells, closes its floors as `DungeonMap.AddWallsCloses` states |
| Mathf.Clamp | super-dungeon-remake/Scripts/Core/Abstract/BaseItem.cs:65 | the clamped value lies within the bounds and an in-range value is unchanged |
| Items.InitializeItem | super-dungeon-remake/Scripts/Core/Abstract/BaseItem.cs:60-71 | a non-stackable item gets count and maximum 1; a stackable one keeps its maximum and has its count brought into [1, max]; a valid stack is unchanged; nothing else changes |
| Items.InitializeItemIdempotent | super-dungeon-remake/Scripts/Core/Abstract/BaseItem.cs:60-71 | initialising twice is initialising once |
| Items.AddToStack | super-dungeon-remake/Scripts/Core/Abstract/BaseItem.cs:226-235 | a non-stackable item takes nothing; otherwise the count rises by, and the result is, min(amount, max - count), and a count within the maximum stays within it |
| Items.RemoveFromStack | super-dungeon-remake/Scripts/Core/Abstract/BaseItem.cs:242-248 | the count drops by, and the result is, min(amount, count), never below zero for non-negative inputs |
| Items.RemoveUndoesAdd | super-dungeon-remake/Scripts/Core/Abstract/BaseItem.cs:226-248 | removing what was just added restores the item |
| Items.CanStackWithAcceptsOne | super-dungeon-remake/Scripts/Core/Abstract/BaseItem.cs:255-261 | a stack that accepts another stacks at least one more of a positive amount and never passes its maximum |
| Items.Pickup | super-dungeon-remake/Scripts/Core/Abstract/BaseItem.cs:189-205 | succeeds exactly when the item is not yet picked up and there is a picker, and then marks it picked up |
| Items.PickupAtMostOnce | super-dungeon-remake/Scripts/Core/Abstract/BaseItem.cs:191-193 | after a successful pickup every later pickup is refused |
| Items.Use | super-dungeon-remake/Scripts/Core/Abstract/BaseItem.cs:131-142 | succeeds exactly when there is a user |
| Items.Fresh | super-dungeon-remake/Scripts/Core/Abstract/BaseItem.cs:20-21 | a fresh scene instance, whose `_Ready` never runs, has the scene's exported stackability and maximum, is not picked up, and otherwise equals the item |
| Items.Clone | super-dungeon-remake/Scripts/Core/Abstract/BaseItem.cs:168-180 | a copy exactly when the scene loads, with the live stack count, the scene's exported stackability and maximum rather than the item's own, not picked up, and otherwise the same fields |
| Items.CloneSkipsInitialization | super-dungeon-remake/Scripts/Core/Abstract/BaseItem.cs:60-71 | a non-stackable item whose scene exports a maximum of 5 is initialised to a maximum of 1, while its clone keeps 5 |
| Items.RarityColorHexDistinct | super-dungeon-remake/Scripts/Core/Abstract/BaseItem.cs:297-308 | every rarity has its own seven-character `#RRGGBB` colour |
| Items.TypeDisplayNameDistinct | super-dungeon-remake/Scripts/Core/Abstract/BaseItem.cs:382-395 | every type has its own non-empty display name, never the "unknown" fallback |
| ItemOrder.BeforeOrder | super-dungeon-remake/Scripts/Gameplay/Systems/InventorySystem.cs:302-304 | ordering by (type, rarity, name) is a strict order whose incomparable pairs are exactly the pairs with equal keys |
| ItemOrder.SortPermutes | super-dungeon-remake/Scripts/Gameplay/Systems/InventorySystem.cs:300-305 | the sort's output is a permutation of its input |
| ItemOrder.SortSorted | super-dungeon-remake/Scripts/Gameplay/Systems/InventorySystem.cs:300-305 | no item of the output sorts before an earlier one |
| ItemOrder.SortStable | super-dungeon-remake/Scripts/Gameplay/Systems/InventorySystem.cs:300-305 | items with equal keys keep their input order |
| Inventory.FullSlotRefusesStacking | super-dungeon-remake/Scripts/Gameplay/Systems/InventorySystem.cs:374-379 | a full slot's item accepts no further stacking, and an empty slot is not full |
| Inventory.IsFullIffNoFreeSlots | super-dungeon-remake/Scripts/Gameplay/Systems/InventorySystem.cs:52-62 | the inventory is full exactly when no free slot is left |
| Inventory.UsedSlotsAllIffNoneEmpty | super-dungeon-remake/Scripts/Gameplay/Systems/InventorySystem.cs:52 | every slot is used exactly when none is empty |
| Inventory.InitialSlots | super-dungeon-remake/Scripts/Gameplay/Systems/InventorySystem.cs:74-83 | MaxSlots slots (none for a non-positive maximum), all empty |
| Inventory.ClearInventory | super-dungeon-remake/Scripts/Gameplay/Systems/InventorySystem.cs:323-329 | the same number of slots, all empty |
| Inventory.ClearInventoryEmpties | super-dungeon-remake/Scripts/Gameplay/Systems/InventorySystem.cs:323-329 | after clearing, no slot is used, every count is 0 and every slot is free |
| Inventory.TryStackItemCount | super-dungeon-remake/Scripts/Gameplay/Systems/InventorySystem.cs:243-264 | what remains is between 0 and the amount, stacks stay valid, and the item's count rises by exactly what was stacked while other ids are unchanged |
| Inventory.TryStackItemShape | super-dungeon-remake/Scripts/Gameplay/Systems/InventorySystem.cs:247-261 | no slot changes emptiness; a changed slot held a stack that could take the item, and only its count changed, upward and within its maximum |
| Inventory.TryAddToEmptySlotsCount | super-dungeon-remake/Scripts/Gameplay/Systems/InventorySystem.cs:272-293 | what remains is between 0 and the amount, stacks stay valid, and the item's count rises by exactly what was placed while other ids are unchanged |
| Inventory.TryAddToEmptySlotsShape | super-dungeon-remake/Scripts/Gameplay/Systems/InventorySystem.cs:276-290 | occupied slots are untouched; a changed slot holds a fresh instance of the item's scene, with the scene's stack settings, as `slot.Item = newItem` stores it without adding it to the tree; if something remains and clones load, no slot is empty |
| Inventory.EmptySlotsTakeSceneMaximum | super-dungeon-remake/Scripts/Gameplay/Systems/InventorySystem.cs:282-288 | three of a non-stackable item whose scene exports a maximum of 5 all go into the first of three empty slots, and nothing remains |
| Inventory.SortInventory | super-dungeon-remake/Scripts/Gameplay/Systems/InventorySystem.cs:298-318 | the same number of slots, the items packed into the leading ones, in sorted order of the original items |
| Inventory.SortInventorySpec | super-dungeon-remake/Scripts/Gameplay/Systems/InventorySystem.cs:298-318 | the slots hold the same items, ordered and stable, with the same counts, used-slot count and stack validity |
| Inventory.AddItem | super-dungeon-remake/Scripts/Gameplay/Systems/InventorySystem.cs:93-129 | nothing for a missing item or non-positive amount; only the slots change; the result is between 0 and the amount, exactly the rise of the item's count, other ids unchanged, stacks valid; when less than the amount fits (and clones load) no slot is empty; with auto-sort on and something added, the occupied slots come first and their items are in sort order |
| Inventory.RemoveItem | super-dungeon-remake/Scripts/Gameplay/Systems/InventorySystem.cs:137-139 | the slot count is kept, and a missing item or non-positive amount changes nothing and removes 0 |
| Inventory.RemoveFromSlotsSpec | super-dungeon-remake/Scripts/Gameplay/Systems/InventorySystem.cs:141-158 | the slot loop takes min(amount, count) of the id, keeps stacks valid, and changes no other id's count |
| Inventory.RemoveItemSpec | super-dungeon-remake/Scripts/Gameplay/Systems/InventorySystem.cs:137-166 | removes min(amount, count held) of the item, exactly that much from its count, other ids unchanged, stacks valid |
| Inventory.HasItemIffRemovesAll | super-dungeon-remake/Scripts/Gameplay/Systems/InventorySystem.cs:206-221 | removing n of an item removes all n exactly when `HasItem` says at least n are held |
| Inventory.UseItem | super-dungeon-remake/Scripts/Gameplay/Systems/InventorySystem.cs:174-199 | succeeds exactly for an in-range occupied slot and a user; nothing changes on failure or for a non-consumable; a consumable loses one and its slot empties at zero |
| Inventory.UseItemConsumes | super-dungeon-remake/Scripts/Gameplay/Systems/InventorySystem.cs:188-195 | using a consumable lowers its id's count by exactly one and keeps stacks valid |
| Entity.InitializeEntity | super-dungeon-remake/Scripts/Core/Abstract/GameEntity.cs:62-67 | health becomes the maximum and nothing else changes |
| Entity.Die | super-dungeon-remake/Scripts/Core/Abstract/GameEntity.cs:142-148 | the entity is dead and cannot move afterwards, and nothing else changes |
| Entity.DieIdempotent | super-dungeon-remake/Scripts/Core/Abstract/GameEntity.cs:142-148 | dying twice is dying once |
| Entity.TakeDamage | super-dungeon-remake/Scripts/Core/Abstract/GameEntity.cs:115-130 | no effect while dead or invulnerable; otherwise health becomes max(0, health - damage), the timer restarts, and the entity dies exactly when health reaches 0 |
| Entity.Heal | super-dungeon-remake/Scripts/Core/Abstract/GameEntity.cs:132-140 | no effect while dead; otherwise health becomes min(max, health + amount) |
| Entity.UpdateTimers | super-dungeon-remake/Scripts/Core/Abstract/GameEntity.cs:201-207 | a running timer counts down by the frame time; a stopped one stays |
| Entity.DamageGrantsInvulnerability | super-dungeon-remake/Scripts/Core/Abstract/GameEntity.cs:27 | after a hit with a positive invulnerability time the entity cannot move and a second hit has no effect |
| Entity.DeathIsFinal | super-dungeon-remake/Scripts/Core/Abstract/GameEntity.cs:115-148 | whatever events follow, a dead entity stays dead with unchanged health |
| Entity.ConsistentPreserved | super-dungeon-remake/Scripts/Core/Abstract/GameEntity.cs:62-148 | from initialisation, any sequence of non-negative hits, heals, kills and frames keeps health in [0, max] with zero health only when dead |
| Entity.NegativeAmountsBreakBounds | super-dungeon-remake/Scripts/Core/Abstract/GameEntity.cs:119-136 | a negative hit can raise health above the maximum and a negative heal can push it below zero |
| GameData.AddGold | super-dungeon-remake/Scripts/Utils/GameData.cs:34-38 | gold changes by the amount, nothing else changes |
| GameData.AddGoldInverse | super-dungeon-remake/Scripts/Utils/GameData.cs:34-38 | taking back the same amount restores the state |
| GameData.SetDepth | super-dungeon-remake/Scripts/Utils/GameData.cs:40-44 | only the depth changes |
| GameData.AddKill | super-dungeon-remake/Scripts/Utils/GameData.cs:46-49 | one more kill, nothing else changes |
| GameData.AddKillsCounts | super-dungeon-remake/Scripts/Utils/GameData.cs:46-49 | n kills raise the counter by n and leave gold and depth alone |
| GameData.ResetGame | super-dungeon-remake/Scripts/Utils/GameData.cs:51-58 | any state resets to gold 0, depth 1, kills 0 |
| GameData.ResetGameIdempotent | super-dungeon-remake/Scripts/Utils/GameData.cs:51-58 | resetting twice is resetting once, and a reset forgets every earlier change |
| GameData.ApplyAllTallies | super-dungeon-remake/Scripts/Utils/GameData.cs:34-49 | after any run of gold, depth and kill changes, gold has grown by the total handed out, kills by the number of kills, and depth is the one last set |
| Spawner.SpawnEnemy | super-dungeon-remake/Scripts/Core/EnemySpawner.cs:57-88 | an enemy of the kind at the position exactly when the scene instantiates |
| Spawner.RoomCenterPixelInside | super-dungeon-remake/Scripts/Core/EnemySpawner.cs:107-110 | a non-empty room's centre pixel lies inside the room's pixel rectangle |
| Spawner.SpawnEnemyInRandomRoom | super-dungeon-remake/Scripts/Core/EnemySpawner.cs:95-113 | an enemy exactly when there are rooms and the scene loads; it has the kind and sits at some room's centre pixel |
| Spawner.SpawnEnemyInRandomRoomReachesEveryRoom | super-dungeon-remake/Scripts/Core/EnemySpawner.cs:104-112 | every room's centre is the spawn point for some draw |
| Spawner.SpawnFromConfig | super-dungeon-remake/Scripts/Core/EnemySpawner.cs:126-135 | a config spawns at its position or in a random room, with its kind |
| Spawner.SpawnEnemies | super-dungeon-remake/Scripts/Core/EnemySpawner.cs:120-144 | the enemies are, in config order, exactly the successful configs' outcomes, at most one per config: all configs succeeding gives one enemy each, none succeeding gives none |
| Spawner.EnemyTypeForLevel | super-dungeon-remake/Scripts/Core/EnemySpawner.cs:180-205 | depth up to 2 gives Goblin or Slime, up to 5 never Orc, Orc only past depth 5 with a roll of at least 0.7, and Goblin exactly when the roll is below the band's threshold |
| Spawner.EnemyTypeForLevelBands | super-dungeon-remake/Scripts/Core/EnemySpawner.cs:185-204 | each band can produce each of its kinds |
| Spawner.EnemyCount | super-dungeon-remake/Scripts/Core/EnemySpawner.cs:155-158 | a given count is kept; -1 gives min(2 + depth, 8), between 2 and 8 for a non-negative depth |
| Spawner.LevelConfigs | super-dungeon-remake/Scripts/Core/EnemySpawner.cs:160-170 | one random-room config per enemy, with the kind its roll picks |
| Spawner.SpawnRandomEnemiesForLevel | super-dungeon-remake/Scripts/Core/EnemySpawner.cs:152-173 | the rolls are used in order and roll i yields an enemy exactly when there are rooms and its scene loads, so with rooms and loading scenes there are exactly count enemies (at most 8 by default) and none without rooms; each enemy has the kind its own roll picks, within the depth band, and sits at a room centre |

## Left out

- Godot plumbing is not modelled. That covers nodes, the scene tree, groups, signals, `HealthChanged`, sounds, sprites, tweens and animations, because none of it affects the modelled state.
- Tile atlas coordinates are not modelled. That includes `LevelGenerator.GetWallTileCoords` (LevelGenerator.cs:170-183), the random floor atlas in `FillCellsFloor`, and the wall-shape atlas choices of `Map.AddWalls`. Only whether a cell is set, and as what kind, is modelled.
- `Map.AddTorch` and the torch, chest, potion and decoration scene instances are not modelled: they are presentation. Placement is kept as the cell and pixel position, and scene loading is a `bool`.
- `Map.LoadDefaultScenes` is not modelled: it is file loading.
- Random number generator seeding is not modelled. Each draw is a parameter, and no claim is made about distributions or reproducibility. The one consequence of ownership that matters, the null generator of the `LevelGenerator` that `Map` creates, is modelled by `DungeonMap.GenerateLevel`.
- DungeonMap.GenerateLevel: the tiles the generator has drawn before it throws are not modelled; the run is reported only as crashed, because nothing after the throw reads them.
- Whole-map connectivity is not stated. Corridors do not survive `RenderMap`'s clear, so the source gives no such promise.
- Floating-point rounding of `Randf()` comparisons and of the 0.3/0.5/0.6 constants is not modelled. Rolls are reals compared exactly.
- 32-bit integer overflow is not modelled. This applies to gold, kills, stack counts, health and pixel arithmetic; integers are unbounded.
- Item names are compared ordinally, character by character. The default C# string comparer is culture-sensitive.
- The `_ => "未知"` / `#FFFFFF` default arms are not modelled: they are unreachable with the closed enumerations.
- `BaseItem.GetRarityColor` and `GetRarityDisplayName` are not modelled: they are presentation.
- `GetItemInfo`, `GetInventoryInfo` and `GetSlotInfo` are not modelled: they build strings.
- `InventorySystem.GetItemsByType` is not modelled: it is a read-only filter.
- `EnemySpawner.ClearAllEnemies` is not modelled: it is scene-tree traversal.
- `GameEntity` movement is not modelled (`MoveTo`, `HandleMovement`, `Direction`): it is engine physics.
- Subclass overrides of `Use`, `TakeDamage` and `OnDeath` are not modelled: the base behaviour is the one modelled.
- Inventory.TryAddToEmptySlotsCount: requires the scene's exported `MaxStackSize >= 1`. The clones never run `InitializeItem`, so with an exported maximum of 0 a clone with a stack of 0 would occupy a slot. The exported default is 1.
- Inventory.AddItem: the count and validity clauses assume valid stacks and an exported `MaxStackSize >= 1` for the same reason.
- Entity.ConsistentPreserved: covers non-negative amounts only. Negative ones break the bounds, as `Entity.NegativeAmountsBreakBounds` shows.
- Bsp.LeafRoomsInside: the right and bottom margin of a room can be 0 (a 12-wide leaf). Only the left and top margins of 2 are stated.

## Findings

| source | as written | input that shows it | evidently intended | confidence | as-written member | corrected member |
|---|---|---|---|---|---|---|
| super-dungeon-remake/Scripts/Level/LevelGenerator.cs:131-168 | the wall pass tests neighbours with `!= -1` on the live map, so walls placed earlier in the same pass count as neighbours and walls cascade across the rest of each row | a single floor at (0,0) with map size 4: the cell (5,-1), five cells from any floor, becomes a wall | walls only on empty cells adjacent to a floor, judged against the floors before the pass | high (not executed) | LevelWalls.AddWallsSetsCellAwayFromFloor | LevelWalls.AddWallsAroundFloors |
| super-dungeon-remake/Scripts/Level/Map.cs:30-32 | the level generator writes every tile, floors included, with source id 0, which `Map` reads as `TILE_IDX_WALL`, so `Map` sees no floor: its wall pass changes nothing and its floor picker always returns the middle cell | a 4x4 room whose middle cell (2,2) is a pillar hole: `GetRandomFloorCell` returns (2,2), an unset cell | room floor tiles read as Floor, so the picker returns a floor cell and the wall pass encloses the rooms | high (not executed) | DungeonMap.AsWrittenSamplesHole | DungeonMap.ImportIntended |
| super-dungeon-remake/Scripts/Level/Map.cs:78-79 | `Map` creates its level generator with `new` and never adds it to the scene tree, so `_Ready` (LevelGenerator.cs:13-17) never runs and `_rng` stays null; the first `_rng` call throws: `CreateCorridor`'s `_rng.Randf()` (LevelGenerator.cs:79) when two sibling subtrees hold rooms, otherwise `FillCellsFloor`'s `_rng.RandiRange` (LevelGenerator.cs:125) | any run whose BSP tree yields at least one room | the generator draws from an initialised random generator and the level is built | high (not executed) | DungeonMap.GenerateLevel | DungeonMap.GenerateLevelSeeded |

=== FILE: bsp.dfy ===
/**
 * The binary space partition of the level (Scripts/Level/BSPNode.cs).  A node
 * owns a rectangle and a depth; `Split` gives a leaf two children that tile it,
 * `CreateRoom` carves at most one room into a leaf, and `GetRoom` picks the
 * representative room of a subtree.  Every node of the source draws from its
 * own random generator; here each draw is an argument.
 */
module Bsp {
  import opened Wrappers
  import opened Mathf
  import opened Geometry
  import Random

  /**
   * The generator's constants: map size, maximum depth and split percentage,
   * the last in hundredths (`0.5f` is 50, `0.3f` is 30).
   */
  datatype Config = Config(mapSize: int, maxDepth: int, splitPercent: int)

  predicate ValidConfig(cfg: Config) {
    0 <= cfg.splitPercent <= 50
  }

  /** Neither a split nor a room is attempted when a side is shorter than this. */
  const MinSplitSize := 12

  /** The smallest room side. */
  const MinRoomSize := 10

  datatype Node = Node(area: Room, depth: int, room: Option<Room>, children: Children)

  /** `LeftChild` and `RightChild`: the source sets both or neither. */
  datatype Children = NoChildren | Children(leftChild: Node, rightChild: Node)

  predicate IsLeaf(n: Node) { n.children.NoChildren? }

  /** A fresh node as the constructor builds it. */
  function NewNode(left: int, top: int, width: int, height: int, depth: int): Node {
    Node(Room(left, top, width, height), depth, None, NoChildren)
  }

  /** The draws a split may consume: the coin for near-square nodes and the raw split size. */
  datatype SplitDraw = SplitDraw(horizontalCoin: bool, sizeRaw: int)

  /** The draws `CreateRoom` consumes: width, height, left offset and top offset. */
  datatype RoomDraw = RoomDraw(widthRaw: int, heightRaw: int, leftRaw: int, topRaw: int)

  /** `Mathf.CeilToInt(d / 2.0f)` for a non-negative side. */
  function HalfCeil(d: int): int
    requires d >= 0
  {
    (d + 1) / 2
  }

  /** `(int)(d * SplitPercentage)` for a non-negative side, the percentage given in hundredths. */
  function SplitOffset(d: int, percent: int): (r: int)
    requires d >= 0 && 0 <= percent
    ensures 0 <= r && 100 * r <= d * percent < 100 * r + 100
    ensures percent <= 50 ==> 2 * r <= d
  {
    ProductBounds(d, percent);
    (d * percent) / 100
  }

  lemma ProductBounds(d: int, percent: int)
    requires d >= 0 && 0 <= percent
    ensures 0 <= d * percent
    ensures percent <= 50 ==> d * percent <= 50 * d
  {
    if percent <= 50 {
      assert d * percent + d * (50 - percent) == 50 * d;
      assert 0 <= d * (50 - percent);
    }
  }

  /** The axis choice: true means the height is divided (children stacked top and bottom). */
  function SplitsHorizontally(area: Room, coin: bool): bool {
    if 4 * area.width >= 5 * area.height then false
    else if 4 * area.height >= 5 * area.width then true
    else coin
  }

  /** The conditions under which `Split` refuses. */
  predicate RefusesSplit(n: Node, cfg: Config) {
    !IsLeaf(n) || n.depth >= cfg.maxDepth || n.area.width < MinSplitSize || n.area.height < MinSplitSize
  }

  /** `a` and `b` tile `p` exactly, side by side (vertical cut) or one above the other (horizontal cut). */
  predicate Tiles(p: Room, a: Room, b: Room) {
    VerticalCut(p, a, b) || HorizontalCut(p, a, b)
  }

  predicate VerticalCut(p: Room, a: Room, b: Room) {
    && a.left == p.left && a.top == p.top && a.height == p.height
    && b.left == p.left + a.width && b.top == p.top && b.height == p.height
    && a.width + b.width == p.width
  }

  predicate HorizontalCut(p: Room, a: Room, b: Room) {
    && a.left == p.left && a.top == p.top && a.width == p.width
    && b.left == p.left && b.top == p.top + a.height && b.width == p.width
    && a.height + b.height == p.height
  }

  /** The size of the first child along the divided axis. */
  function CutSize(n: Node): int
    requires n.children.Children?
  {
    var a := n.children.leftChild.area;
    if VerticalCut(n.area, a, n.children.rightChild.area) then a.width else a.height
  }

  /** The side length the split divides. */
  function DividedSide(n: Node, horizontal: bool): int {
    if horizontal then n.area.height else n.area.width
  }

  /**
   * `Split`: returns false and the node unchanged when it already has children,
   * has reached the maximum depth or has a side below 12; otherwise gives it two
   * fresh children one level deeper that tile its rectangle.
   */
  function Split(n: Node, cfg: Config, d: SplitDraw): (r: (bool, Node))
    requires ValidConfig(cfg)
    ensures !r.0 <==> RefusesSplit(n, cfg)
    ensures !r.0 ==> r.1 == n
    ensures r.0 ==> r.1.area == n.area && r.1.depth == n.depth && r.1.room == n.room && r.1.children.Children?
    ensures r.0 ==> var a := r.1.children.leftChild; var b := r.1.children.rightChild;
                    && Tiles(n.area, a.area, b.area)
                    && a == NewNode(a.area.left, a.area.top, a.area.width, a.area.height, n.depth + 1)
                    && b == NewNode(b.area.left, b.area.top, b.area.width, b.area.height, n.depth + 1)
                    && a.area.width >= 0 && a.area.height >= 0 && b.area.width >= 0 && b.area.height >= 0
  {
    if RefusesSplit(n, cfg) then (false, n)
    else
      var horizontal := SplitsHorizontally(n.area, d.horizontalCoin);
      (true, Cut(n, horizontal, SplitSize(DividedSide(n, horizontal), cfg.splitPercent, d.sizeRaw)))
  }

  /**
   * The axis and the size of a split: a node at least 5/4 as wide as high is
   * cut vertically, one at least 5/4 as high as wide horizontally, and the
   * first child's size lies within the offset of half the divided side.
   */
  lemma SplitAxisAndSize(n: Node, cfg: Config, d: SplitDraw)
    requires ValidConfig(cfg) && !RefusesSplit(n, cfg)
    ensures var p := Split(n, cfg, d).1;
            4 * n.area.width >= 5 * n.area.height ==>
              VerticalCut(n.area, p.children.leftChild.area, p.children.rightChild.area)
    ensures var p := Split(n, cfg, d).1;
            4 * n.area.width < 5 * n.area.height && 4 * n.area.height >= 5 * n.area.width ==>
              HorizontalCut(n.area, p.children.leftChild.area, p.children.rightChild.area)
    ensures var side := DividedSide(n, SplitsHorizontally(n.area, d.horizontalCoin));
            HalfCeil(side) - SplitOffset(side, cfg.splitPercent) <= CutSize(Split(n, cfg, d).1)
            <= HalfCeil(side) + SplitOffset(side, cfg.splitPercent)
  {
  }

  /**
   * The size of the first child, `RandiRange(half - offset, half + offset)`;
   * with a percentage of at most one half both children are non-negative.
   */
  function SplitSize(side: int, percent: int, raw: int): (s: int)
    requires side >= 0 && 0 <= percent <= 50
    ensures HalfCeil(side) - SplitOffset(side, percent) <= s <= HalfCeil(side) + SplitOffset(side, percent)
    ensures 0 <= s <= side
  {
    var half := HalfCeil(side);
    var offset := SplitOffset(side, percent);
    Random.RandiRange(half - offset, half + offset, raw)

  }

  /** The node with two fresh children, the first of size `s` along the divided axis. */
  function Cut(n: Node, horizontal: bool, s: int): Node {
    var a := n.area;
    var kids :=
      if horizontal then
        Children(NewNode(a.left, a.top, a.width, s, n.depth + 1),
                 NewNode(a.left, a.top + s, a.width, a.height - s, n.depth + 1))
      else
        Children(NewNode(a.left, a.top, s, a.height, n.depth + 1),
                 NewNode(a.left + s, a.top, a.width - s, a.height, n.depth + 1));
    n.(children := kids)
  }

  /** With the 0.3 percentage, a side of at least 12 always yields two children of size at least 1. */
  lemma SplitWithPointThreeLeavesPositiveChildren(side: int, s: int)
    requires side >= MinSplitSize
    requires HalfCeil(side) - SplitOffset(side, 30) <= s <= HalfCeil(side) + SplitOffset(side, 30)
    ensures s >= 1 && side - s >= 1
  {
    var off := SplitOffset(side, 30);
    assert 10 * off <= 3 * side;
    assert 2 * HalfCeil(side) >= side;
    assert 2 * HalfCeil(side) <= side + 1;
  }

  /** With the 0.5 percentage a child may have size 0: a 12-wide node can be cut at 0. */
  lemma SplitWithOneHalfAllowsEmptyChild(n: Node, cfg: Config)
    requires n == NewNode(0, 0, 12, 12, 0) && cfg == Config(64, 8, 50)
    ensures Split(n, cfg, SplitDraw(false, 0)).0
    ensures Split(n, cfg, SplitDraw(false, 0)).1.children.leftChild.area.width == 0
  {
    assert DividedSide(n, false) == 12;
    assert SplitSize(12, 50, 0) == 0;
  }

  /** The room `CreateRoom` may carve into `area`: side at least 10, left and top margin at least 2, inside the leaf. */
  predicate RoomFits(r: Room, area: Room) {
    && MinRoomSize <= r.width <= Max(MinRoomSize, area.width - 4)
    && MinRoomSize <= r.height <= Max(MinRoomSize, area.height - 4)
    && r.left >= area.left + 2 && r.top >= area.top + 2
    && r.Right() <= area.Right() && r.Bottom() <= area.Bottom()
  }

  /**
   * `CreateRoom`: nothing on a node with children or with a side below 12;
   * otherwise a room of random size placed with a margin inside the leaf.
   */
  function CreateRoom(n: Node, d: RoomDraw): (r: Node)
    ensures (!IsLeaf(n) || n.area.width < MinSplitSize || n.area.height < MinSplitSize) ==> r == n
    ensures (IsLeaf(n) && n.area.width >= MinSplitSize && n.area.height >= MinSplitSize) ==>
              r == n.(room := r.room) && r.room.Some? && RoomFits(r.room.value, n.area)
  {
    if !IsLeaf(n) then n
    else if n.area.width < MinSplitSize || n.area.height < MinSplitSize then n
    else
      var maxW := Max(MinRoomSize, n.area.width - 4);
      var maxH := Max(MinRoomSize, n.area.height - 4);
      if maxW < MinRoomSize || maxH < MinRoomSize then n
      else
        var w := Random.RandiRange(MinRoomSize, maxW, d.widthRaw);
        var h := Random.RandiRange(MinRoomSize, maxH, d.heightRaw);
        var maxLeft := Max(0, n.area.width - w - 2);
        var maxTop := Max(0, n.area.height - h - 2);
        var left := n.area.left + Random.RandiRange(2, Max(2, maxLeft + 2), d.leftRaw);
        var top := n.area.top + Random.RandiRange(2, Max(2, maxTop + 2), d.topRaw);
        n.(room := Some(Room(left, top, w, h)))
  }

  /** The rooms of the leaves of a subtree, left to right (an internal node's own `Room` is never read). */
  function LeafRooms(n: Node): seq<Room>
    decreases n
  {
    match n.children
    case NoChildren => if n.room.Some? then [n.room.value] else []
    case Children(a, b) => LeafRooms(a) + LeafRooms(b)
  }

  /**
   * `GetRoom`: a leaf's own room; for an internal node the room of whichever
   * subtree has one, and a coin flip (`pick`, drawn at that node) when both do.
   */
  function GetRoom(n: Node, pick: Node -> bool): (r: Option<Room>)
    ensures r.None? <==> LeafRooms(n) == []
    ensures r.Some? ==> r.value in LeafRooms(n)
    ensures IsLeaf(n) ==> r == n.room
    decreases n
  {
    match n.children
    case NoChildren => n.room
    case Children(a, b) =>
      var ra := GetRoom(a, pick);
      var rb := GetRoom(b, pick);
      if ra.None? then rb
      else if rb.None? then ra
      else if pick(n) then ra
      else rb
  }

  /** Every leaf room can be chosen as the representative, for a suitable choice of coins. */
  lemma {:induction false} GetRoomCanReachEveryRoom(n: Node, r: Room)
    requires r in LeafRooms(n)
    ensures exists pick: Node -> bool :: GetRoom(n, pick) == Some(r)
    decreases n
  {
    match n.children
    case NoChildren =>
      var pick := (m: Node) => true;
      assert GetRoom(n, pick) == Some(r);
    case Children(a, b) =>
      if r in LeafRooms(a) {
        GetRoomCanReachEveryRoom(a, r);
        var p :| GetRoom(a, p) == Some(r);
        var pick := (m: Node) => if m == n then true else p(m);
        GetRoomIgnoresOtherCoins(a, p, pick, n);
        assert GetRoom(n, pick) == Some(r);
      } else {
        assert r in LeafRooms(b);
        GetRoomCanReachEveryRoom(b, r);
        var p :| GetRoom(b, p) == Some(r);
        var pick := (m: Node) => if m == n then false else p(m);
        GetRoomIgnoresOtherCoins(b, p, pick, n);
        assert GetRoom(n, pick) == Some(r);
      }
  }

  /** Coins drawn outside a subtree do not affect its representative. */
  lemma {:induction false} GetRoomIgnoresOtherCoins(t: Node, p: Node -> bool, q: Node -> bool, outside: Node)
    requires t < outside
    requires forall m :: m != outside ==> p(m) == q(m)
    ensures GetRoom(t, p) == GetRoom(t, q)
    decreases t
  {
    match t.children
    case NoChildren =>
    case Children(a, b) =>
      GetRoomIgnoresOtherCoins(a, p, q, outside);
      GetRoomIgnoresOtherCoins(b, p, q, outside);
      assert t != outside;
  }

  /**
   * The shape every generated tree has: children tile their parent one level
   * deeper, and every leaf room fits its leaf.
   */
  ghost predicate WellFormed(n: Node)
    decreases n
  {
    match n.children
    case NoChildren => n.room.Some? ==> RoomFits(n.room.value, n.area)
    case Children(a, b) =>
      && Tiles(n.area, a.area, b.area)
      && a.area.width >= 0 && a.area.height >= 0 && b.area.width >= 0 && b.area.height >= 0
      && a.depth == n.depth + 1 && b.depth == n.depth + 1
      && WellFormed(a) && WellFormed(b)
  }

  /** In a well-formed tree each leaf room lies inside the subtree's rectangle and has sides of at least 10. */
  lemma {:induction false} LeafRoomsInside(n: Node)
    requires WellFormed(n)
    ensures forall r :: r in LeafRooms(n) ==> Within(r, n.area) && r.width >= MinRoomSize && r.height >= MinRoomSize
    decreases n
  {
    match n.children
    case NoChildren =>
    case Children(a, b) =>
      LeafRoomsInside(a);
      LeafRoomsInside(b);
      assert Within(a.area, n.area) && Within(b.area, n.area);
      forall r | r in LeafRooms(n)
        ensures Within(r, n.area)
      {
        assert r in LeafRooms(a) || r in LeafRooms(b);
      }
  }

  /** In a well-formed tree no two leaf rooms intersect. */
  lemma {:induction false} LeafRoomsDisjoint(n: Node)
    requires WellFormed(n)
    ensures forall i, j :: 0 <= i < j < |LeafRooms(n)| ==> !LeafRooms(n)[i].Intersects(LeafRooms(n)[j])
    decreases n
  {
    match n.children
    case NoChildren =>
    case Children(a, b) =>
      LeafRoomsDisjoint(a);
      LeafRoomsDisjoint(b);
      LeafRoomsInside(a);
      LeafRoomsInside(b);
      var ra: seq<Room>, rb: seq<Room> := LeafRooms(a), LeafRooms(b);
      assert LeafRooms(n) == ra + rb;
      forall i: int, j: int | 0 <= i < j < |ra + rb|
        ensures !(ra + rb)[i].Intersects((ra + rb)[j])
      {
        if j < |ra| {
          assert (ra + rb)[i] == ra[i] && (ra + rb)[j] == ra[j];
        } else if i >= |ra| {
          assert (ra + rb)[i] == rb[i - |ra|] && (ra + rb)[j] == rb[j - |ra|];
        } else {
          assert (ra + rb)[i] == ra[i] && (ra + rb)[j] == rb[j - |ra|];
          assert ra[i] in ra && rb[j - |ra|] in rb;
          SeparatedRoomsDisjoint(ra[i], rb[j - |ra|], a.area, b.area);
        }
      }
  }
}

=== FILE: dungeon_map.dfy ===
/**
 * Scripts/Level/Map.cs: the game map.  It runs the level generator, then for
 * every room punches 2x2 pillar holes, rolls the treasure and decoration
 * trials, and finally runs its own wall pass.
 *
 * Map reads tiles by source id: -1 is Unset, 0 is Wall, 1 is Floor.  The grid
 * is a finite map from cells to Wall or Floor; a cell that is not in the map is
 * Unset, and setting a cell to Unset erases it, as Godot's `SetCell` with
 * source -1 does.  Atlas coordinates, torches and scene instancing are
 * presentation and are left out; an object's placement is kept as its cell
 * and its pixel position.
 */
module DungeonMap {
  import opened Wrappers
  import opened Geometry
  import opened Bsp
  import LevelWalls
  import LevelGen
  import Random

  /** `MAP_SIZE`: the wall pass visits [-2, MapSize + 2)^2. */
  const MapSize: int := 48

  /** `GlobalConstants.GridSize`: pixels per cell. */
  const GridSize: int := 16

  datatype Kind = Unset | Wall | Floor

  type Grid = map<Cell, Kind>

  /** `GetCellSourceId`, read as a kind. */
  function Get(m: Grid, c: Cell): Kind {
    if c in m then m[c] else Unset
  }

  predicate FloorAt(m: Grid, x: int, y: int) {
    Get(m, (x, y)) == Floor
  }

  /** `SetCell`: the cell takes the kind, every other cell keeps its own. */
  function Put(m: Grid, c: Cell, k: Kind): (r: Grid)
    ensures Get(r, c) == k
    ensures forall d :: d != c ==> Get(r, d) == Get(m, d)
  {
    if k == Unset then m - {c} else m[c := k]
  }

  predicate InRect(left: int, top: int, width: int, height: int, c: Cell) {
    left <= c.0 < left + width && top <= c.1 < top + height
  }

  // ----- FillCells / FillCellsFloor -----

  /** `FillCells`: the cells of [left, left + width) x [top, top + height) take kind `k`; nothing else changes. */
  method FillCells(m: Grid, left: int, top: int, width: int, height: int, k: Kind) returns (r: Grid)
    ensures forall c :: Get(r, c) == if InRect(left, top, width, height, c) then k else Get(m, c)
  {
    r := m;
    var y := top;
    while y < top + height
      invariant top <= y && (y <= top + height || y == top)
      invariant forall c :: Get(r, c) == if InRect(left, top, width, y - top, c) then k else Get(m, c)
    {
      var x := left;
      while x < left + width
        invariant left <= x && (x <= left + width || x == left)
        invariant forall c :: Get(r, c) ==
                    if InRect(left, top, width, y - top, c) || (c.1 == y && left <= c.0 < x) then k else Get(m, c)
      {
        r := Put(r, (x, y), k);
        x := x + 1;
      }
      y := y + 1;
    }
  }

  /** `FillCellsFloor`: the rectangle becomes Floor (the random atlas variant is presentation only). */
  method FillCellsFloor(m: Grid, left: int, top: int, width: int, height: int) returns (r: Grid)
    ensures forall c :: Get(r, c) == if InRect(left, top, width, height, c) then Floor else Get(m, c)
  {
    r := FillCells(m, left, top, width, height, Floor);
  }

  // ----- AddPillars -----

  /**
   * `AddPillars`: a decorated room gets 3 to 8 Unset 2x2 blocks drawn by the
   * same rule as the level generator's pillars.  A cell becomes Unset exactly
   * when it lies in one of the blocks; every other cell keeps its kind.
   */
  method AddPillars(m: Grid, room: Room, d: LevelGen.PillarDraws) returns (r: Grid)
    ensures forall c :: Get(r, c) == if c in LevelGen.PillarCells(room, d) then Unset else Get(m, c)
  {
    var offs := LevelGen.PillarOffsets(room, d);
    r := m;
    var p := 0;
    while p < |offs|
      invariant 0 <= p <= |offs|
      invariant forall c :: Get(r, c) ==
                  if exists k :: 0 <= k < p && LevelGen.InBlock(room, offs[k], c) then Unset else Get(m, c)
    {
      r := FillCells(r, room.left + offs[p].0, room.top + offs[p].1, 2, 2, Unset);
      p := p + 1;
    }
    forall c ensures Get(r, c) == if c in LevelGen.PillarCells(room, d) then Unset else Get(m, c) {
      LevelGen.BlockCellsMember(room, offs, c);
    }
  }

  /** Only a decorated room loses cells, and only cells off its border. */
  lemma AddPillarsStaysInside(m: Grid, r: Grid, room: Room, d: LevelGen.PillarDraws, c: Cell)
    requires forall c :: Get(r, c) == if c in LevelGen.PillarCells(room, d) then Unset else Get(m, c)
    requires Get(r, c) != Get(m, c)
    ensures LevelGen.Decorated(room) && LevelGen.StrictlyInside(room, c)
  {
    LevelGen.PillarCellsInside(room, d, c);
  }

  // ----- AddWalls -----

  /** One of the eight neighbours is Floor (the neighbours in the order the source tests them). */
  predicate FloorNeighbour(m: Grid, x: int, y: int) {
    || FloorAt(m, x, y + 1) || FloorAt(m, x, y - 1) || FloorAt(m, x + 1, y) || FloorAt(m, x - 1, y)
    || FloorAt(m, x + 1, y - 1) || FloorAt(m, x - 1, y - 1) || FloorAt(m, x + 1, y + 1) || FloorAt(m, x - 1, y + 1)
  }

  /** A one-cell gap between two floors, horizontally or vertically. */
  predicate FloorGap(m: Grid, x: int, y: int) {
    (FloorAt(m, x - 1, y) && FloorAt(m, x + 1, y)) || (FloorAt(m, x, y - 1) && FloorAt(m, x, y + 1))
  }

  /** What the pass writes into an Unset cell: Floor into a gap, Wall next to a floor, nothing otherwise. */
  function VisitKind(m: Grid, x: int, y: int): (k: Kind)
    ensures k == Floor <==> FloorGap(m, x, y)
    ensures k == Wall <==> !FloorGap(m, x, y) && FloorNeighbour(m, x, y)
    ensures k == Unset <==> !FloorNeighbour(m, x, y)
  {
    if FloorGap(m, x, y) then Floor
    else if FloorNeighbour(m, x, y) then Wall
    else Unset
  }

  /** One visit of the pass: only an Unset cell is rewritten. */
  function Visit(m: Grid, x: int, y: int): Grid {
    if Get(m, (x, y)) == Unset && VisitKind(m, x, y) != Unset then m[(x, y) := VisitKind(m, x, y)] else m
  }

  /** The grid after visiting (-2, y) .. (x - 1, y). */
  function RowPrefix(m: Grid, y: int, x: int): Grid
    decreases x + 2
  {
    if x <= -2 then m else Visit(RowPrefix(m, y, x - 1), x - 1, y)
  }

  /** The grid after visiting whole rows -2 .. y - 1 of the window [-2, size + 2)^2. */
  function RowsBefore(m: Grid, size: int, y: int): Grid
    decreases y + 2
  {
    if y <= -2 then m else RowPrefix(RowsBefore(m, size, y - 1), y - 1, size + 2)
  }

  /** The grid as the pass finds it when it reaches (x, y). */
  function BeforeVisit(m: Grid, size: int, x: int, y: int): Grid {
    RowPrefix(RowsBefore(m, size, y), y, x)
  }

  function Pass(m: Grid, size: int): Grid {
    RowsBefore(m, size, size + 2)
  }

  /** `b` agrees with `a` on every cell that `a` sets. */
  ghost predicate Keeps(a: Grid, b: Grid) {
    forall c :: Get(a, c) != Unset ==> Get(b, c) == Get(a, c)
  }

  lemma {:induction false} RowPrefixFrame(m: Grid, y: int, x1: int, x2: int)
    requires -2 <= x1 <= x2
    ensures Keeps(RowPrefix(m, y, x1), RowPrefix(m, y, x2))
    ensures forall c :: Get(RowPrefix(m, y, x2), c) != Get(RowPrefix(m, y, x1), c) ==> c.1 == y && x1 <= c.0 < x2
    decreases x2 - x1
  {
    if x2 > x1 {
      RowPrefixFrame(m, y, x1, x2 - 1);
    }
  }

  lemma {:induction false} RowsBeforeFrame(m: Grid, size: int, y1: int, y2: int)
    requires -2 <= y1 <= y2
    ensures Keeps(RowsBefore(m, size, y1), RowsBefore(m, size, y2))
    ensures forall c :: Get(RowsBefore(m, size, y2), c) != Get(RowsBefore(m, size, y1), c) ==>
              y1 <= c.1 < y2 && -2 <= c.0 < size + 2
    decreases y2 - y1
  {
    if y2 > y1 {
      RowsBeforeFrame(m, size, y1, y2 - 1);
      if size + 2 >= -2 {
        RowPrefixFrame(RowsBefore(m, size, y2 - 1), y2 - 1, -2, size + 2);
      }
    }
  }

  lemma KeepsTransitive(a: Grid, b: Grid, c: Grid)
    requires Keeps(a, b) && Keeps(b, c)
    ensures Keeps(a, c)
  {
  }

  /** The pass reaches (x, y) with that cell as it started and every set cell kept. */
  lemma BeforeVisitFrame(m: Grid, size: int, x: int, y: int)
    requires LevelWalls.InWindow(size, (x, y))
    ensures Get(BeforeVisit(m, size, x, y), (x, y)) == Get(m, (x, y))
    ensures Keeps(m, BeforeVisit(m, size, x, y))
  {
    var h := RowsBefore(m, size, y);
    RowsBeforeFrame(m, size, -2, y);
    RowPrefixFrame(h, y, -2, x);
    assert Get(h, (x, y)) == Get(m, (x, y));
    KeepsTransitive(m, h, BeforeVisit(m, size, x, y));
  }

  /** A window cell keeps, to the end of the pass, the kind its own visit gave it. */
  lemma SettledAtVisit(m: Grid, size: int, x: int, y: int)
    requires LevelWalls.InWindow(size, (x, y))
    ensures Get(Pass(m, size), (x, y)) == Get(Visit(BeforeVisit(m, size, x, y), x, y), (x, y))
  {
    var h := RowsBefore(m, size, y);
    var row := RowsBefore(m, size, y + 1);
    assert Get(Pass(m, size), (x, y)) == Get(row, (x, y)) by {
      RowsBeforeFrame(m, size, y + 1, size + 2);
    }
    assert row == RowPrefix(h, y, size + 2);
    assert Get(row, (x, y)) == Get(RowPrefix(h, y, x + 1), (x, y)) by {
      RowPrefixFrame(h, y, x + 1, size + 2);
    }
    assert RowPrefix(h, y, x + 1) == Visit(BeforeVisit(m, size, x, y), x, y);
  }

  lemma PassFrame(m: Grid, size: int)
    ensures Keeps(m, Pass(m, size))
    ensures forall c :: !LevelWalls.InWindow(size, c) ==> Get(Pass(m, size), c) == Get(m, c)
  {
    if size + 2 >= -2 {
      RowsBeforeFrame(m, size, -2, size + 2);
    }
  }

  /**
   * `AddWalls` (kinds only): Wall and Floor cells never change, nothing outside
   * [-2, MapSize + 2)^2 changes, and an Unset window cell takes the kind the
   * rule gives for the grid as the row-major pass finds it.
   */
  function AddWalls(m: Grid): (r: Grid)
    ensures Keeps(m, r)
    ensures forall c :: !LevelWalls.InWindow(MapSize, c) ==> Get(r, c) == Get(m, c)
    ensures forall x, y {:trigger BeforeVisit(m, MapSize, x, y)} :: LevelWalls.InWindow(MapSize, (x, y)) && Get(m, (x, y)) == Unset ==>
              Get(r, (x, y)) == VisitKind(BeforeVisit(m, MapSize, x, y), x, y)
  {
    PassFrame(m, MapSize);
    forall x, y | LevelWalls.InWindow(MapSize, (x, y)) && Get(m, (x, y)) == Unset
      ensures Get(Pass(m, MapSize), (x, y)) == VisitKind(BeforeVisit(m, MapSize, x, y), x, y)
    {
      SettledAtVisit(m, MapSize, x, y);
      BeforeVisitFrame(m, MapSize, x, y);
    }
    Pass(m, MapSize)
  }

  /** An Unset window cell between two floors of the original grid becomes Floor. */
  lemma AddWallsFillsGap(m: Grid, x: int, y: int)
    requires LevelWalls.InWindow(MapSize, (x, y)) && Get(m, (x, y)) == Unset
    requires FloorGap(m, x, y)
    ensures Get(AddWalls(m), (x, y)) == Floor
  {
    SettledAtVisit(m, MapSize, x, y);
    BeforeVisitFrame(m, MapSize, x, y);
    var b := BeforeVisit(m, MapSize, x, y);
    assert FloorGap(b, x, y);
  }

  /** An Unset window cell next to a floor of the original grid ends up Wall or Floor. */
  lemma AddWallsEnclosesFloor(m: Grid, x: int, y: int)
    requires LevelWalls.InWindow(MapSize, (x, y)) && Get(m, (x, y)) == Unset
    requires FloorNeighbour(m, x, y)
    ensures Get(AddWalls(m), (x, y)) != Unset
  {
    SettledAtVisit(m, MapSize, x, y);
    BeforeVisitFrame(m, MapSize, x, y);
    var b := BeforeVisit(m, MapSize, x, y);
    assert FloorNeighbour(b, x, y);
  }

  /**
   * `after` closes the floors of `before`: every Unset window cell of `before`
   * that lies between two floors is Floor in `after`, and every one next to a
   * floor is set in `after`.
   */
  ghost predicate Encloses(before: Grid, after: Grid) {
    forall x, y {:trigger Get(after, (x, y))} :: LevelWalls.InWindow(MapSize, (x, y)) && Get(before, (x, y)) == Unset ==>
      (FloorGap(before, x, y) ==> Get(after, (x, y)) == Floor) &&
      (FloorNeighbour(before, x, y) ==> Get(after, (x, y)) != Unset)
  }

  /** The pass closes every floor of the grid it starts from. */
  lemma AddWallsCloses(m: Grid)
    ensures Encloses(m, AddWalls(m))
  {
    forall x, y | LevelWalls.InWindow(MapSize, (x, y)) && Get(m, (x, y)) == Unset
      ensures (FloorGap(m, x, y) ==> Get(AddWalls(m), (x, y)) == Floor) &&
              (FloorNeighbour(m, x, y) ==> Get(AddWalls(m), (x, y)) != Unset)
    {
      if FloorGap(m, x, y) {
        AddWallsFillsGap(m, x, y);
      }
      if FloorNeighbour(m, x, y) {
        AddWallsEnclosesFloor(m, x, y);
      }
    }
  }

  /** Without Floor cells no visit rewrites anything. */
  lemma {:induction false} RowPrefixWithoutFloors(m: Grid, y: int, x: int)
    requires forall c :: Get(m, c) != Floor
    ensures RowPrefix(m, y, x) == m
    decreases x + 2
  {
    if x > -2 {
      RowPrefixWithoutFloors(m, y, x - 1);
      assert !FloorNeighbour(m, x - 1, y);
    }
  }

  lemma {:induction false} RowsBeforeWithoutFloors(m: Grid, size: int, y: int)
    requires forall c :: Get(m, c) != Floor
    ensures RowsBefore(m, size, y) == m
    decreases y + 2
  {
    if y > -2 {
      RowsBeforeWithoutFloors(m, size, y - 1);
      RowPrefixWithoutFloors(m, y - 1, size + 2);
    }
  }

  /** A grid with no Floor cell is left exactly as it is by the wall pass. */
  lemma AddWallsWithoutFloors(m: Grid)
    requires forall c :: Get(m, c) != Floor
    ensures AddWalls(m) == m
  {
    RowsBeforeWithoutFloors(m, MapSize, MapSize + 2);
  }

  // ----- GetRandomFloorCell -----

  /** The Floor cells of `s`, in order. */
  function FloorCellsOf(m: Grid, s: seq<Cell>): (r: seq<Cell>)
    ensures forall c :: c in r <==> c in s && Get(m, c) == Floor
  {
    if s == [] then []
    else FloorCellsOf(m, s[..|s| - 1]) + (if Get(m, s[|s| - 1]) == Floor then [s[|s| - 1]] else [])
  }

  ghost predicate HasFloorIn(m: Grid, left: int, top: int, width: int, height: int) {
    exists c :: InRect(left, top, width, height, c) && Get(m, c) == Floor
  }

  /** `left + width / 2, top + height / 2` with C#'s truncating integer division. */
  function MidCell(left: int, top: int, width: int, height: int): Cell {
    (left + TruncHalf(width), top + TruncHalf(height))
  }

  /**
   * `GetRandomFloorCell`: a Floor cell of the rectangle when it has one, and
   * otherwise the cell at its middle, whatever that cell holds.
   */
  function GetRandomFloorCell(m: Grid, left: int, top: int, width: int, height: int, raw: int): (c: Cell)
    ensures HasFloorIn(m, left, top, width, height) ==> InRect(left, top, width, height, c) && Get(m, c) == Floor
    ensures !HasFloorIn(m, left, top, width, height) ==> c == MidCell(left, top, width, height)
  {
    var cells := FloorCellsOf(m, RectCells(left, top, width, height));
    if |cells| > 0 then
      var c := cells[Random.RandiRange(0, |cells| - 1, raw)];
      assert c in cells;
      c
    else
      MidCell(left, top, width, height)
  }

  /** Every Floor cell of the rectangle is a possible result. */
  lemma GetRandomFloorCellReachesEveryFloor(m: Grid, left: int, top: int, width: int, height: int, c: Cell)
    requires InRect(left, top, width, height, c) && Get(m, c) == Floor
    ensures exists raw :: GetRandomFloorCell(m, left, top, width, height, raw) == c
  {
    var cells := FloorCellsOf(m, RectCells(left, top, width, height));
    assert c in cells;
    var i :| 0 <= i < |cells| && cells[i] == c;
    assert GetRandomFloorCell(m, left, top, width, height, i) == c;
  }

  // ----- Importing the level generator's tiles -----

  /**
   * The grid `Map` finds after the level generator ran: every tile the
   * generator placed has source id 0, which `Map` reads as Wall.
   */
  function ImportAsWritten(cells: LevelWalls.Cells): (m: Grid)
    ensures forall c :: Get(m, c) == if c in cells then Wall else Unset
  {
    map c | c in cells :: Wall
  }

  /** The grid as evidently intended: floor tiles read as Floor, the other placed tiles as Wall. */
  function ImportIntended(floors: LevelWalls.Cells, cells: LevelWalls.Cells): (m: Grid)
    ensures forall c :: Get(m, c) == if c !in cells then Unset else if c in floors then Floor else Wall
  {
    map c | c in cells :: if c in floors then Floor else Wall
  }

  /**
   * As written: a room of side 4 whose middle cell (2, 2) a pillar erased.  The
   * imported grid has no Floor, so the sampler returns the middle cell, which
   * is a hole; read as intended, the sampler returns a Floor cell of the room.
   */
  lemma AsWrittenSamplesHole(cells: LevelWalls.Cells, raw: int)
    requires cells == RectSet(0, 0, 4, 4) - {(2, 2)}
    ensures GetRandomFloorCell(ImportAsWritten(cells), 0, 0, 4, 4, raw) == (2, 2)
    ensures Get(ImportAsWritten(cells), (2, 2)) == Unset
    ensures Get(ImportIntended(cells, cells), GetRandomFloorCell(ImportIntended(cells, cells), 0, 0, 4, 4, raw)) == Floor
  {
    var written := ImportAsWritten(cells);
    assert !HasFloorIn(written, 0, 0, 4, 4);
    var intended := ImportIntended(cells, cells);
    assert InRect(0, 0, 4, 4, (0, 0)) && Get(intended, (0, 0)) == Floor;
  }

  // ----- Treasure and decoration trials -----

  /** Whether `ChestScene` and `PotionScene` are set. */
  datatype Scenes = Scenes(chest: bool, potion: bool)

  /** The four decoration textures are variants 0 (blood) .. 3 (bones). */
  datatype Object = Chest | Potion | Decoration(variant: int, flipped: bool)

  /** A placed object: its cell and its pixel position. */
  datatype Placement = Placement(obj: Object, cell: Cell, x: int, y: int)

  /** The draws of one trial: `Randf` results as reals, `RandiRange` results as raw integers. */
  datatype TrialDraws = TrialDraws(treasureRoll: real, kindRoll: real, decoRoll: real,
                                   variantRaw: int, flipRoll: real, cellRaw: int)

  /** The draws of one room: its pillars, the super-room roll and one set of draws per trial. */
  datatype RoomDraws = RoomDraws(pillars: LevelGen.PillarDraws, superRoll: real, trials: nat -> TrialDraws)

  /** A super-treasure room: `Randf() * 100 < depth`, with depth 1 when there is no GameData. */
  predicate IsSuperRoom(depth: Option<int>, superRoll: real) {
    superRoll * 100.0 < depth.GetOr(1) as real
  }

  /** `W * H` trials, none when the product is not positive. */
  function TrialCount(room: Room): (n: nat)
    ensures room.NonEmpty() ==> n == room.width * room.height
  {
    if room.width * room.height > 0 then room.width * room.height else 0
  }

  /** A placement lies on a Floor cell of the room when the room has one, and at its middle otherwise. */
  ghost predicate PlacedIn(m: Grid, room: Room, p: Placement) {
    (HasFloorIn(m, room.left, room.top, room.width, room.height) ==>
       room.Contains(p.cell.0, p.cell.1) && Get(m, p.cell) == Floor) &&
    (!HasFloorIn(m, room.left, room.top, room.width, room.height) ==>
       p.cell == MidCell(room.left, room.top, room.width, room.height))
  }

  /** Treasures sit at the cell's corner pixel, decorations at its centre pixel. */
  predicate AtPixel(p: Placement) {
    var offset := if p.obj.Decoration? then GridSize / 2 else 0;
    p.x == p.cell.0 * GridSize + offset && p.y == p.cell.1 * GridSize + offset
  }

  /** The treasure roll hits: 0.6%, or 25% in a super room. */
  predicate TreasureRolled(superRoom: bool, t: TrialDraws) {
    t.treasureRoll * 100.0 <= (if superRoom then 25.0 else 0.6)
  }

  /** The treasure a hit produces: a chest or a potion on a coin, always a chest in a super room. */
  function TreasureKind(superRoom: bool, t: TrialDraws): Object {
    if superRoom || t.kindRoll * 100.0 < 50.0 then Chest else Potion
  }

  /** The scene for a treasure kind is set, so `Instantiate` yields a node. */
  predicate SceneSet(scenes: Scenes, obj: Object) {
    (obj == Chest && scenes.chest) || (obj == Potion && scenes.potion)
  }

  /** When a trial places an object: a hit whose scene is set, or, after a miss, the 5% decoration roll. */
  predicate Places(superRoom: bool, scenes: Scenes, t: TrialDraws) {
    if TreasureRolled(superRoom, t) then SceneSet(scenes, TreasureKind(superRoom, t)) else t.decoRoll * 100.0 <= 5.0
  }

  /**
   * One trial: a treasure (chance 0.6%, or 25% in a super room) that is a
   * chest or a potion, only chests in a super room, placed only when its scene
   * is set; otherwise a 5% chance of a decoration.  At most one object, placed
   * exactly when `Places` says so, whatever the grid holds.
   */
  function Trial(m: Grid, room: Room, superRoom: bool, scenes: Scenes, t: TrialDraws): (o: Option<Placement>)
    ensures o.Some? <==> Places(superRoom, scenes, t)
    ensures o.Some? && TreasureRolled(superRoom, t) ==> o.value.obj == TreasureKind(superRoom, t)
    ensures o.Some? && !TreasureRolled(superRoom, t) ==> o.value.obj.Decoration? && 0 <= o.value.obj.variant <= 3
    ensures o.Some? ==> PlacedIn(m, room, o.value) && AtPixel(o.value)
    ensures o.Some? && o.value.obj == Potion ==> !superRoom && scenes.potion
    ensures o.Some? && o.value.obj == Chest ==> scenes.chest
  {
    var chance := if superRoom then 25.0 else 0.6;
    var cell := GetRandomFloorCell(m, room.left, room.top, room.width, room.height, t.cellRaw);
    if t.treasureRoll * 100.0 <= chance then
      var obj := if chance >= 25.0 || t.kindRoll * 100.0 < 50.0 then Chest else Potion;
      if (obj == Chest && scenes.chest) || (obj == Potion && scenes.potion) then
        Some(Placement(obj, cell, cell.0 * GridSize, cell.1 * GridSize))
      else
        None
    else if t.decoRoll * 100.0 <= 5.0 then
      var obj := Decoration(Random.RandiRange(0, 3, t.variantRaw), t.flipRoll > 0.5);
      Some(Placement(obj, cell, cell.0 * GridSize + 8, cell.1 * GridSize + 8))
    else
      None
  }

  /**
   * What a trial places does not depend on the grid: on any two grids the same
   * draws place the same object or none, and only its cell can differ.
   */
  lemma TrialObjectIndependentOfGrid(m1: Grid, m2: Grid, room: Room, superRoom: bool, scenes: Scenes, t: TrialDraws)
    ensures Trial(m1, room, superRoom, scenes, t).Some? == Trial(m2, room, superRoom, scenes, t).Some?
    ensures Trial(m1, room, superRoom, scenes, t).Some? ==>
              Trial(m1, room, superRoom, scenes, t).value.obj == Trial(m2, room, superRoom, scenes, t).value.obj
  {
  }

  /** What the trials of one room produced, measured against the grid they ran on. */
  ghost predicate SoundTrials(m: Grid, room: Room, superRoom: bool, scenes: Scenes, d: RoomDraws, os: seq<Option<Placement>>) {
    && |os| == TrialCount(room)
    && (forall k :: 0 <= k < |os| ==> (os[k].Some? <==> Places(superRoom, scenes, d.trials(k))))
    && (forall k :: 0 <= k < |os| && os[k].Some? ==> PlacedIn(m, room, os[k].value) && AtPixel(os[k].value))
    && (forall k :: 0 <= k < |os| && os[k].Some? && superRoom ==> os[k].value.obj != Potion)
  }

  /** The cells the pillars of the first `n` rooms cover. */
  ghost predicate Pillared(rooms: seq<Room>, draws: nat -> RoomDraws, n: int, c: Cell)
    requires n <= |rooms|
  {
    exists j :: 0 <= j < n && c in LevelGen.PillarCells(rooms[j], draws(j).pillars)
  }

  /** One room of the loop: punch its pillars, then run its trials on the grid that results. */
  method DecorateRoom(m: Grid, room: Room, superRoom: bool, scenes: Scenes, d: RoomDraws)
    returns (next: Grid, trials: seq<Option<Placement>>)
    ensures forall c :: Get(next, c) == if c in LevelGen.PillarCells(room, d.pillars) then Unset else Get(m, c)
    ensures SoundTrials(next, room, superRoom, scenes, d, trials)
  {
    next := AddPillars(m, room, d.pillars);
    trials := seq(TrialCount(room), k requires 0 <= k < TrialCount(room) => Trial(next, room, superRoom, scenes, d.trials(k)));
    assert forall k :: 0 <= k < |trials| ==> trials[k] == Trial(next, room, superRoom, scenes, d.trials(k));
  }

  /**
   * The loop over the rooms: `grids[i]` is the grid room i's trials ran on.
   * `pre` is the starting grid with every pillar cell erased, and no grid has
   * a Floor cell the starting grid lacks.
   */
  method DecorateRooms(rooms: seq<Room>, m0: Grid, depth: Option<int>, scenes: Scenes, draws: nat -> RoomDraws)
    returns (pre: Grid, grids: seq<Grid>, outcomes: seq<seq<Option<Placement>>>)
    ensures |outcomes| == |rooms| && |grids| == |rooms|
    ensures forall i :: 0 <= i < |rooms| ==> SoundTrials(grids[i], rooms[i], IsSuperRoom(depth, draws(i).superRoll), scenes, draws(i), outcomes[i])
    ensures forall i, c :: 0 <= i < |rooms| && Get(grids[i], c) == Floor ==> Get(m0, c) == Floor
    ensures forall c :: Get(pre, c) == if Pillared(rooms, draws, |rooms|, c) then Unset else Get(m0, c)
  {
    pre := m0;
    outcomes := [];
    grids := [];
    var i := 0;
    while i < |rooms|
      invariant 0 <= i <= |rooms|
      invariant |outcomes| == i && |grids| == i
      invariant forall j :: 0 <= j < i ==> SoundTrials(grids[j], rooms[j], IsSuperRoom(depth, draws(j).superRoll), scenes, draws(j), outcomes[j])
      invariant forall j, c :: 0 <= j < i && Get(grids[j], c) == Floor ==> Get(m0, c) == Floor
      invariant forall c :: Get(pre, c) == if Pillared(rooms, draws, i, c) then Unset else Get(m0, c)
    {
      var next, trials := DecorateRoom(pre, rooms[i], IsSuperRoom(depth, draws(i).superRoll), scenes, draws(i));
      forall c ensures Get(next, c) == if Pillared(rooms, draws, i + 1, c) then Unset else Get(m0, c) {
        if c in LevelGen.PillarCells(rooms[i], draws(i).pillars) {
          assert Pillared(rooms, draws, i + 1, c);
        } else if Pillared(rooms, draws, i + 1, c) {
          assert Pillared(rooms, draws, i, c);
        }
      }
      pre := next;
      outcomes := outcomes + [trials];
      grids := grids + [next];
      i := i + 1;
    }
  }

  /** A placement that `SoundTrials` admits lies in its room or at its middle, and at the middle when no grid has Floor. */
  lemma PlacedInRoomOrMiddle(m: Grid, m0: Grid, room: Room, p: Placement)
    requires PlacedIn(m, room, p)
    requires forall c :: Get(m, c) == Floor ==> Get(m0, c) == Floor
    ensures room.Contains(p.cell.0, p.cell.1) || p.cell == MidCell(room.left, room.top, room.width, room.height)
    ensures (forall c :: Get(m0, c) != Floor) ==> p.cell == MidCell(room.left, room.top, room.width, room.height)
  {
  }

  /**
   * The per-room loop of `GenerateLevel` and the final wall pass.  With no
   * rooms nothing happens.  Otherwise `pre` is the grid before the wall pass:
   * the starting grid with every pillar cell erased.  Each room runs `W * H`
   * trials, each yielding at most one object in the room or at its middle; a
   * super room yields no potion.  When the starting grid has no Floor, every
   * object lands at its room's middle and the wall pass changes nothing.
   */
  method Decorate(rooms: seq<Room>, m0: Grid, depth: Option<int>, scenes: Scenes, draws: nat -> RoomDraws)
    returns (pre: Grid, m: Grid, outcomes: seq<seq<Option<Placement>>>)
    ensures rooms == [] ==> pre == m0 && m == m0 && outcomes == []
    ensures |outcomes| == |rooms|
    ensures forall i :: 0 <= i < |rooms| ==> |outcomes[i]| == TrialCount(rooms[i])
    ensures forall i, k :: 0 <= i < |rooms| && 0 <= k < |outcomes[i]| ==>
              (outcomes[i][k].Some? <==> Places(IsSuperRoom(depth, draws(i).superRoll), scenes, draws(i).trials(k)))
    ensures forall i, k :: 0 <= i < |rooms| && 0 <= k < |outcomes[i]| && outcomes[i][k].Some? ==>
              AtPixel(outcomes[i][k].value) &&
              (rooms[i].Contains(outcomes[i][k].value.cell.0, outcomes[i][k].value.cell.1) ||
               outcomes[i][k].value.cell == MidCell(rooms[i].left, rooms[i].top, rooms[i].width, rooms[i].height))
    ensures forall i, k :: (0 <= i < |rooms| && 0 <= k < |outcomes[i]| && outcomes[i][k].Some? &&
                            IsSuperRoom(depth, draws(i).superRoll)) ==> outcomes[i][k].value.obj != Potion
    ensures forall c :: Get(pre, c) == if Pillared(rooms, draws, |rooms|, c) then Unset else Get(m0, c)
    ensures rooms != [] ==> m == AddWalls(pre)
    ensures (forall c :: Get(m0, c) != Floor) ==>
              m == pre &&
              forall i, k :: 0 <= i < |rooms| && 0 <= k < |outcomes[i]| && outcomes[i][k].Some? ==>
                outcomes[i][k].value.cell == MidCell(rooms[i].left, rooms[i].top, rooms[i].width, rooms[i].height)
  {
    if |rooms| == 0 {
      pre, m, outcomes := m0, m0, [];
      return;
    }
    var grids;
    pre, grids, outcomes := DecorateRooms(rooms, m0, depth, scenes, draws);
    m := AddWalls(pre);
    forall i, k | 0 <= i < |rooms| && 0 <= k < |outcomes[i]|
      ensures outcomes[i][k].Some? <==> Places(IsSuperRoom(depth, draws(i).superRoll), scenes, draws(i).trials(k))
    {
      assert SoundTrials(grids[i], rooms[i], IsSuperRoom(depth, draws(i).superRoll), scenes, draws(i), outcomes[i]);
    }
    forall i, k | 0 <= i < |rooms| && 0 <= k < |outcomes[i]| && outcomes[i][k].Some?
      ensures AtPixel(outcomes[i][k].value)
      ensures rooms[i].Contains(outcomes[i][k].value.cell.0, outcomes[i][k].value.cell.1) ||
              outcomes[i][k].value.cell == MidCell(rooms[i].left, rooms[i].top, rooms[i].width, rooms[i].height)
      ensures (forall c :: Get(m0, c) != Floor) ==>
              outcomes[i][k].value.cell == MidCell(rooms[i].left, rooms[i].top, rooms[i].width, rooms[i].height)
    {
      assert SoundTrials(grids[i], rooms[i], IsSuperRoom(depth, draws(i).superRoll), scenes, draws(i), outcomes[i]);
      PlacedInRoomOrMiddle(grids[i], m0, rooms[i], outcomes[i][k].value);
    }
    if forall c :: Get(m0, c) != Floor {
      AddWallsWithoutFloors(pre);
    }
  }

  /** One finished level: the rooms, the grid before and after the wall pass, and every trial's outcome. */
  datatype Level = Level(rooms: seq<Room>, pre: Grid, m: Grid, outcomes: seq<seq<Option<Placement>>>)

  /** How `GenerateLevel` ends: by throwing, or with a level. */
  datatype Run = Crashed | Finished(level: Level)

  /**
   * `GenerateLevel` as written.  The level generator is created with `new`
   * and never enters the scene tree, so its `_Ready` never runs and its random
   * generator stays null.  Joining two sibling rooms with a corridor, or else
   * rendering a room's floor, draws from it first, so the call throws as soon
   * as the tree produced a room; rooms are at least 10 cells a side, so every
   * room's floor would draw.  Without rooms the generator clears the
   * map and finds nothing to wall, and the empty-room guard returns with an
   * empty grid.
   */
  method GenerateLevel(cfg: Config, roomDraws: Node -> LevelGen.NodeDraws, corridorDraws: Node -> LevelGen.CorridorDraw,
                       pillarDraws: nat -> LevelGen.PillarDraws, g: LevelWalls.Cells,
                       depth: Option<int>, scenes: Scenes, draws: nat -> RoomDraws)
    returns (rooms: seq<Room>, run: Run)
    requires ValidConfig(cfg) && cfg.mapSize >= 0
    ensures run.Crashed? <==> rooms != []
    ensures run.Finished? ==> run.level.rooms == [] && run.level.outcomes == [] && forall c :: Get(run.level.m, c) == Unset
  {
    var floors, cells;
    rooms, floors, cells := LevelGen.GenerateLevel(cfg, roomDraws, corridorDraws, pillarDraws, g);
    if rooms != [] {
      run := Crashed;
    } else {
      var m0 := ImportAsWritten(cells);
      var pre, m, outcomes := Decorate(rooms, m0, depth, scenes, draws);
      run := Finished(Level(rooms, pre, m, outcomes));
    }
  }

  /**
   * `GenerateLevel` with a generator that has its random generator, tiles
   * still read as written.  Every tile the generator placed reads as Wall, so
   * no grid has a Floor: each room runs its `W * H` trials and places exactly
   * the objects `Places` allows, but every one lands on the room's middle cell
   * (a pillar may have erased it), and the wall pass changes nothing.
   */
  method GenerateLevelSeeded(cfg: Config, roomDraws: Node -> LevelGen.NodeDraws, corridorDraws: Node -> LevelGen.CorridorDraw,
                             pillarDraws: nat -> LevelGen.PillarDraws, g: LevelWalls.Cells,
                             depth: Option<int>, scenes: Scenes, draws: nat -> RoomDraws)
    returns (level: Level)
    requires ValidConfig(cfg) && cfg.mapSize >= 0
    ensures forall i, j :: 0 <= i < j < |level.rooms| ==> !level.rooms[i].Intersects(level.rooms[j])
    ensures level.rooms == [] ==> level.outcomes == []
    ensures |level.outcomes| == |level.rooms|
    ensures forall i :: 0 <= i < |level.rooms| ==> |level.outcomes[i]| == level.rooms[i].width * level.rooms[i].height
    ensures forall i, k :: 0 <= i < |level.rooms| && 0 <= k < |level.outcomes[i]| ==>
              (level.outcomes[i][k].Some? <==> Places(IsSuperRoom(depth, draws(i).superRoll), scenes, draws(i).trials(k)))
    ensures forall i, k :: 0 <= i < |level.rooms| && 0 <= k < |level.outcomes[i]| && level.outcomes[i][k].Some? ==>
              level.outcomes[i][k].value.cell ==
                MidCell(level.rooms[i].left, level.rooms[i].top, level.rooms[i].width, level.rooms[i].height)
    ensures level.m == level.pre && forall c :: Get(level.m, c) != Floor
  {
    var rooms, floors, cells := LevelGen.GenerateLevel(cfg, roomDraws, corridorDraws, pillarDraws, g);
    var m0 := ImportAsWritten(cells);
    assert forall c :: Get(m0, c) != Floor;
    var pre, m, outcomes := Decorate(rooms, m0, depth, scenes, draws);
    level := Level(rooms, pre, m, outcomes);
    assert m == pre;
    forall i | 0 <= i < |rooms| ensures |outcomes[i]| == rooms[i].width * rooms[i].height {
      assert rooms[i].width >= MinRoomSize && rooms[i].height >= MinRoomSize;
    }
    forall i, k | 0 <= i < |rooms| && 0 <= k < |outcomes[i]| && outcomes[i][k].Some?
      ensures outcomes[i][k].value.cell == MidCell(rooms[i].left, rooms[i].top, rooms[i].width, rooms[i].height)
    {
    }
  }

  /**
   * The generator's half of the intended `GenerateLevel`: the intended
   * generator runs and its tiles are read into the grid, floors as Floor.
   * The rooms are disjoint and inside the map, the Floor cells are exactly
   * the room cells the generator's pillars left, and nothing is set outside
   * the generator's window.
   */
  method GenerateTilesIntended(cfg: Config, roomDraws: Node -> LevelGen.NodeDraws, corridorDraws: Node -> LevelGen.CorridorDraw,
                               pillarDraws: nat -> LevelGen.PillarDraws, g: LevelWalls.Cells)
    returns (rooms: seq<Room>, m0: Grid)
    requires ValidConfig(cfg) && cfg.mapSize >= 0
    ensures forall i, j :: 0 <= i < j < |rooms| ==> !rooms[i].Intersects(rooms[j])
    ensures forall i :: 0 <= i < |rooms| ==>
              Within(rooms[i], Room(0, 0, cfg.mapSize, cfg.mapSize)) &&
              rooms[i].width >= MinRoomSize && rooms[i].height >= MinRoomSize
    ensures forall c :: Get(m0, c) == Floor <==> LevelGen.InSomeRoom(rooms, c) && !LevelGen.Erased(rooms, pillarDraws, c)
    ensures forall c :: Get(m0, c) != Unset ==> LevelWalls.InWindow(cfg.mapSize, c)
  {
    var floors, cells;
    rooms, floors, cells := LevelGen.GenerateLevelIntended(cfg, roomDraws, corridorDraws, pillarDraws, g);
    m0 := ImportIntended(floors, cells);
    forall c | Get(m0, c) != Unset ensures LevelWalls.InWindow(cfg.mapSize, c) {
      assert c in cells;
      if c in floors {
        var i :| 0 <= i < |rooms| && rooms[i].Contains(c.0, c.1);
        assert Within(rooms[i], Room(0, 0, cfg.mapSize, cfg.mapSize));
      }
    }
  }

  /**
   * `GenerateLevel` as intended: a generator with its random generator and
   * the intended wall pass, its floor tiles read as Floor.  Unless it produced
   * no rooms, every room is decorated and the wall pass runs.  The rooms are
   * pairwise disjoint, each runs `W * H` trials placing exactly the objects
   * `Places` allows, and every object lies inside its room.
   */
  method GenerateLevelIntended(cfg: Config, roomDraws: Node -> LevelGen.NodeDraws, corridorDraws: Node -> LevelGen.CorridorDraw,
                               pillarDraws: nat -> LevelGen.PillarDraws, g: LevelWalls.Cells,
                               depth: Option<int>, scenes: Scenes, draws: nat -> RoomDraws)
    returns (level: Level)
    requires ValidConfig(cfg) && cfg.mapSize >= 0
    ensures forall i, j :: 0 <= i < j < |level.rooms| ==> !level.rooms[i].Intersects(level.rooms[j])
    ensures level.rooms == [] ==> level.outcomes == [] && forall c :: Get(level.m, c) != Floor
    ensures |level.outcomes| == |level.rooms|
    ensures forall i :: 0 <= i < |level.rooms| ==> |level.outcomes[i]| == level.rooms[i].width * level.rooms[i].height
    ensures forall i, k :: 0 <= i < |level.rooms| && 0 <= k < |level.outcomes[i]| ==>
              (level.outcomes[i][k].Some? <==> Places(IsSuperRoom(depth, draws(i).superRoll), scenes, draws(i).trials(k)))
    ensures forall i, k :: 0 <= i < |level.rooms| && 0 <= k < |level.outcomes[i]| && level.outcomes[i][k].Some? ==>
              level.rooms[i].Contains(level.outcomes[i][k].value.cell.0, level.outcomes[i][k].value.cell.1) &&
              AtPixel(level.outcomes[i][k].value)
    ensures forall i, k :: (0 <= i < |level.rooms| && 0 <= k < |level.outcomes[i]| && level.outcomes[i][k].Some? &&
                            IsSuperRoom(depth, draws(i).superRoll)) ==> level.outcomes[i][k].value.obj != Potion
    ensures forall c :: Get(level.pre, c) == Floor <==>
              LevelGen.InSomeRoom(level.rooms, c) && !LevelGen.Erased(level.rooms, pillarDraws, c) &&
              !Pillared(level.rooms, draws, |level.rooms|, c)
    ensures forall c :: Get(level.pre, c) != Unset ==> LevelWalls.InWindow(cfg.mapSize, c)
    ensures level.rooms != [] ==> level.m == AddWalls(level.pre) && Keeps(level.pre, level.m)
    ensures level.rooms != [] ==> Encloses(level.pre, level.m)
  {
    var rooms: seq<Room>, m0: Grid := GenerateTilesIntended(cfg, roomDraws, corridorDraws, pillarDraws, g);
    var pre: Grid, m: Grid, outcomes: seq<seq<Option<Placement>>> := Decorate(rooms, m0, depth, scenes, draws);
    level := Level(rooms, pre, m, outcomes);
    if rooms != [] {
      AddWallsCloses(pre);
    }
    forall i | 0 <= i < |rooms| ensures rooms[i].NonEmpty() && rooms[i].left >= 0 && rooms[i].top >= 0 {
      assert Within(rooms[i], Room(0, 0, cfg.mapSize, cfg.mapSize));
    }
    forall i | 0 <= i < |rooms| ensures |outcomes[i]| == rooms[i].width * rooms[i].height {
      assert rooms[i].NonEmpty();
    }
    forall i, k | 0 <= i < |rooms| && 0 <= k < |outcomes[i]| && outcomes[i][k].Some?
      ensures rooms[i].Contains(outcomes[i][k].value.cell.0, outcomes[i][k].value.cell.1)
    {
      var room := rooms[i];
      assert room.NonEmpty() && room.left >= 0 && room.top >= 0;
      assert room.Contains(MidCell(room.left, room.top, room.width, room.height).0,
                           MidCell(room.left, room.top, room.width, room.height).1);
    }
  }
}

=== FILE: entity.dfy ===
/**
 * Scripts/Core/Abstract/GameEntity.cs: the health, death and invulnerability
 * state every game entity shares.  An entity is a value; each operation
 * returns the changed copy.  The invulnerability timer and its length are
 * reals standing for the source's `float`s; movement, sprites, tweens and the
 * `HealthChanged` event are engine side effects and are left out, and so
 * are the hooks subclasses override.
 */
module Entity {
  import opened Mathf

  datatype Entity = Entity(maxHealth: int, invulnerabilityTime: real, health: int, dead: bool, timer: real)

  /** `InitializeEntity`: health starts full; nothing else changes. */
  function InitializeEntity(e: Entity): (r: Entity)
    ensures r.health == r.maxHealth == e.maxHealth
    ensures r == e.(health := r.health)
  {
    e.(health := e.maxHealth)
  }

  /** `CanMove`: alive and not invulnerable. */
  predicate CanMove(e: Entity) {
    !e.dead && e.timer <= 0.0
  }

  /** `Die`: the entity is dead afterwards, and nothing else changes. */
  function Die(e: Entity): (r: Entity)
    ensures r.dead
    ensures r == e.(dead := true)
    ensures !CanMove(r)
  {
    if e.dead then e else e.(dead := true)
  }

  /** Dying twice is dying once. */
  lemma DieIdempotent(e: Entity)
    ensures Die(Die(e)) == Die(e)
  {
  }

  /**
   * `TakeDamage`: nothing while dead or invulnerable.  Otherwise health
   * drops to `max(0, health - damage)`, the invulnerability timer restarts,
   * and the entity dies exactly when its health reaches zero.
   */
  function TakeDamage(e: Entity, damage: int): (r: Entity)
    ensures e.dead || e.timer > 0.0 ==> r == e
    ensures !e.dead && e.timer <= 0.0 ==>
              && r.health == Max(0, e.health - damage)
              && r.timer == e.invulnerabilityTime
              && (r.dead <==> r.health == 0)
              && r == e.(health := r.health, timer := r.timer, dead := r.dead)
    ensures r.health >= 0 || r == e
  {
    if e.dead || e.timer > 0.0 then e
    else
      var hit := e.(health := Max(0, e.health - damage), timer := e.invulnerabilityTime);
      if hit.health <= 0 then Die(hit) else hit
  }

  /** `Heal`: nothing while dead; otherwise health rises to `min(MaxHealth, health + amount)`. */
  function Heal(e: Entity, amount: int): (r: Entity)
    ensures e.dead ==> r == e
    ensures !e.dead ==> r == e.(health := Min(e.maxHealth, e.health + amount))
    ensures r.health <= e.maxHealth || r == e
  {
    if e.dead then e else e.(health := Min(e.maxHealth, e.health + amount))
  }

  /** `UpdateTimers`: a running invulnerability timer counts down by the frame time. */
  function UpdateTimers(e: Entity, delta: real): (r: Entity)
    ensures e.timer > 0.0 ==> r == e.(timer := e.timer - delta)
    ensures e.timer <= 0.0 ==> r == e
  {
    if e.timer > 0.0 then e.(timer := e.timer - delta) else e
  }

  /** After being hit, a living entity can neither move nor be hit again until its timer runs out. */
  lemma DamageGrantsInvulnerability(e: Entity, damage: int, again: int)
    requires !e.dead && e.timer <= 0.0 && e.invulnerabilityTime > 0.0
    ensures !CanMove(TakeDamage(e, damage))
    ensures TakeDamage(TakeDamage(e, damage), again) == TakeDamage(e, damage)
  {
  }

  /** Everything that happens to an entity: a hit, a heal, a kill or a frame. */
  datatype Event = Damage(amount: int) | HealBy(amount: int) | Kill | Frame(delta: real)

  function Step(e: Entity, ev: Event): Entity {
    match ev
    case Damage(d) => TakeDamage(e, d)
    case HealBy(a) => Heal(e, a)
    case Kill => Die(e)
    case Frame(delta) => UpdateTimers(e, delta)
  }

  function Run(e: Entity, evs: seq<Event>): Entity
    decreases |evs|
  {
    if evs == [] then e else Run(Step(e, evs[0]), evs[1..])
  }

  /** Death is final: once dead, an entity stays dead and its health never changes again. */
  lemma {:induction false} DeathIsFinal(e: Entity, evs: seq<Event>)
    requires e.dead
    ensures Run(e, evs).dead && Run(e, evs).health == e.health && Run(e, evs).maxHealth == e.maxHealth
    decreases |evs|
  {
    if evs != [] {
      DeathIsFinal(Step(e, evs[0]), evs[1..]);
    }
  }

  /** Health within `[0, MaxHealth]`, and an entity at zero health is dead. */
  predicate Consistent(e: Entity) {
    0 <= e.health <= e.maxHealth && (e.health == 0 ==> e.dead)
  }

  /** Hits and heals with non-negative amounts. */
  predicate ValidEvent(ev: Event) {
    (ev.Damage? ==> ev.amount >= 0) && (ev.HealBy? ==> ev.amount >= 0)
  }

  /** A fresh entity with positive maximum health is consistent, and every valid event keeps it so. */
  lemma {:induction false} ConsistentPreserved(e: Entity, evs: seq<Event>)
    requires e.maxHealth > 0
    requires forall i :: 0 <= i < |evs| ==> ValidEvent(evs[i])
    ensures Consistent(InitializeEntity(e))
    ensures Consistent(Run(InitializeEntity(e), evs))
  {
    ConsistentRun(InitializeEntity(e), evs);
  }

  lemma {:induction false} ConsistentRun(e: Entity, evs: seq<Event>)
    requires Consistent(e)
    requires forall i :: 0 <= i < |evs| ==> ValidEvent(evs[i])
    ensures Consistent(Run(e, evs))
    decreases |evs|
  {
    if evs != [] {
      assert ValidEvent(evs[0]);
      ConsistentRun(Step(e, evs[0]), evs[1..]);
    }
  }

  /** A negative hit can heal past the maximum, and a negative heal can push health below zero. */
  lemma NegativeAmountsBreakBounds()
    ensures TakeDamage(Entity(100, 0.5, 100, false, 0.0), -10).health == 110
    ensures Heal(Entity(100, 0.5, 5, false, 0.0), -10).health == -5
  {
  }
}

=== FILE: game_data.dfy ===
/**
 * Scripts/Utils/GameData.cs: the run's progression counters.  The singleton
 * and the change signals are engine plumbing and are left out; the state is a
 * value and each operation returns the new one.
 */
module GameData {
  datatype GameData = GameData(gold: int, depth: int, kills: int)

  /** The state a new game starts in. */
  const Initial: GameData := GameData(0, 1, 0)

  /** `AddGold`: gold changes by the amount; depth and kills do not change. */
  function AddGold(g: GameData, amount: int): (r: GameData)
    ensures r.gold - g.gold == amount && r.depth == g.depth && r.kills == g.kills
  {
    g.(gold := g.gold + amount)
  }

  /** `SetDepth`: only the depth changes. */
  function SetDepth(g: GameData, depth: int): (r: GameData)
    ensures r.depth == depth && r.gold == g.gold && r.kills == g.kills
  {
    g.(depth := depth)
  }

  /** `AddKill`: one more kill; gold and depth do not change. */
  function AddKill(g: GameData): (r: GameData)
    ensures r.kills == g.kills + 1 && r.gold == g.gold && r.depth == g.depth
  {
    g.(kills := g.kills + 1)
  }

  /** `ResetGame`: back to the initial state, whatever the state was. */
  function ResetGame(g: GameData): (r: GameData)
    ensures r == Initial
  {
    GameData(0, 1, 0)
  }

  /** Resetting twice is resetting once, and a reset forgets every earlier change. */
  lemma ResetGameIdempotent(g: GameData, amount: int, depth: int)
    ensures ResetGame(ResetGame(g)) == ResetGame(g)
    ensures ResetGame(AddKill(SetDepth(AddGold(g, amount), depth))) == ResetGame(g)
  {
  }

  /** Gold taken back undoes gold given. */
  lemma AddGoldInverse(g: GameData, amount: int)
    ensures AddGold(AddGold(g, amount), -amount) == g
  {
  }

  /** `n` kills in a row. */
  function AddKills(g: GameData, n: nat): GameData
    decreases n
  {
    if n == 0 then g else AddKill(AddKills(g, n - 1))
  }

  /** After `n` kills the counter is `n` higher, and gold and depth are as they were. */
  lemma {:induction false} AddKillsCounts(g: GameData, n: nat)
    ensures AddKills(g, n) == g.(kills := g.kills + n)
    decreases n
  {
    if n > 0 {
      AddKillsCounts(g, n - 1);
    }
  }

  /** One progression change: gold picked up, a new depth, or a kill. */
  datatype Change = Gold(amount: int) | Depth(level: int) | Kill

  function Apply(g: GameData, c: Change): GameData {
    match c
    case Gold(a) => AddGold(g, a)
    case Depth(d) => SetDepth(g, d)
    case Kill => AddKill(g)
  }

  /** The state after a run of changes, applied left to right. */
  function ApplyAll(g: GameData, cs: seq<Change>): GameData
    decreases |cs|
  {
    if cs == [] then g else ApplyAll(Apply(g, cs[0]), cs[1..])
  }

  /** Total gold the changes hand out. */
  function GoldTotal(cs: seq<Change>): int
    decreases |cs|
  {
    if cs == [] then 0 else (if cs[0].Gold? then cs[0].amount else 0) + GoldTotal(cs[1..])
  }

  /** Number of kills among the changes. */
  function KillTotal(cs: seq<Change>): nat
    decreases |cs|
  {
    if cs == [] then 0 else (if cs[0].Kill? then 1 else 0) + KillTotal(cs[1..])
  }

  /** The depth last set by the changes, or `depth` when none sets one. */
  function LastDepth(depth: int, cs: seq<Change>): int
    decreases |cs|
  {
    if cs == [] then depth
    else if cs[|cs| - 1].Depth? then cs[|cs| - 1].level
    else LastDepth(depth, cs[..|cs| - 1])
  }

  lemma {:induction false} LastDepthCons(depth: int, c: Change, cs: seq<Change>)
    ensures LastDepth(depth, [c] + cs) == LastDepth(if c.Depth? then c.level else depth, cs)
    decreases |cs|
  {
    if cs != [] {
      assert ([c] + cs)[..|[c] + cs| - 1] == [c] + cs[..|cs| - 1];
      LastDepthCons(depth, c, cs[..|cs| - 1]);
    }
  }

  /**
   * The counters are independent tallies: after any run of changes the gold
   * has grown by the gold handed out, the kills by the number of kills, and
   * the depth is the one last set.
   */
  lemma {:induction false} ApplyAllTallies(g: GameData, cs: seq<Change>)
    ensures ApplyAll(g, cs) == GameData(g.gold + GoldTotal(cs), LastDepth(g.depth, cs), g.kills + KillTotal(cs))
    decreases |cs|
  {
    if cs != [] {
      ApplyAllTallies(Apply(g, cs[0]), cs[1..]);
      assert [cs[0]] + cs[1..] == cs;
      LastDepthCons(g.depth, cs[0], cs[1..]);
    }
  }
}

=== FILE: geometry.dfy ===
/**
 * Grid rectangles (Scripts/Level/Room.cs).  A room is the half-open rectangle
 * [left, left + width) x [top, top + height) of grid cells.  The C# `Center`
 * is a float vector with `.0` or `.5` parts; the model keeps it doubled, as an
 * integer, and makes the `(int)` truncation toward zero explicit.
 */
module Geometry {

  /** A grid coordinate (x, y). */
  type Cell = (int, int)

  datatype Room = Room(left: int, top: int, width: int, height: int) {

    function Right(): int { left + width }

    function Bottom(): int { top + height }

    /** Twice the x coordinate of the float centre `Left + Width / 2.0`. */
    function CenterX2(): int { 2 * left + width }

    /** Twice the y coordinate of the float centre `Top + Height / 2.0`. */
    function CenterY2(): int { 2 * top + height }

    predicate Contains(x: int, y: int) {
      x >= left && x < Right() && y >= top && y < Bottom()
    }

    predicate Intersects(other: Room) {
      left < other.Right() && Right() > other.left &&
      top < other.Bottom() && Bottom() > other.top
    }

    /** The cell that `((int)Center.X, (int)Center.Y)` denotes. */
    function CenterCell(): Cell {
      (TruncHalf(CenterX2()), TruncHalf(CenterY2()))
    }

    /** The room has at least one cell. */
    predicate NonEmpty() { width > 0 && height > 0 }
  }

  /** `(int)(v / 2.0)`: halving with truncation toward zero, as a C# cast does. */
  function TruncHalf(v: int): (r: int)
    ensures v >= 0 ==> 2 * r <= v < 2 * r + 2
    ensures v < 0 ==> 2 * r - 2 < v <= 2 * r
  {
    if v >= 0 then v / 2 else -((-v) / 2)
  }

  /** `inner` lies inside `outer` (edges may touch). */
  predicate Within(inner: Room, outer: Room) {
    outer.left <= inner.left && inner.Right() <= outer.Right() &&
    outer.top <= inner.top && inner.Bottom() <= outer.Bottom()
  }

  /** The two rectangles lie on opposite sides of a vertical or horizontal line. */
  predicate Separated(a: Room, b: Room) {
    a.Right() <= b.left || b.Right() <= a.left || a.Bottom() <= b.top || b.Bottom() <= a.top
  }

  /** The set of cells of [left, left + width) x [top, top + height); empty when either size is not positive. */
  function RectSet(left: int, top: int, width: int, height: int): (s: set<Cell>)
    ensures forall c :: c in s <==> left <= c.0 < left + width && top <= c.1 < top + height
  {
    set x: int, y: int | left <= x < left + width && top <= y < top + height :: (x, y)
  }

  /** The cells of one row, left to right, as the inner loops of the source enumerate them. */
  function RowCells(left: int, width: int, y: int): (s: seq<Cell>)
    ensures |s| == if width > 0 then width else 0
    ensures forall i :: 0 <= i < |s| ==> s[i] == (left + i, y)
    decreases width
  {
    if width <= 0 then [] else RowCells(left, width - 1, y) + [(left + width - 1, y)]
  }

  /** The cells of a rectangle in row-major order (outer loop over y, inner loop over x). */
  function RectCells(left: int, top: int, width: int, height: int): (s: seq<Cell>)
    ensures |s| == if width > 0 && height > 0 then width * height else 0
    ensures forall c :: c in s <==> (left <= c.0 < left + width && top <= c.1 < top + height)
    decreases height
  {
    if height <= 0 then []
    else
      var prefix := RectCells(left, top, width, height - 1);
      var row := RowCells(left, width, top + height - 1);
      assert forall c :: c in row <==> (left <= c.0 < left + width && c.1 == top + height - 1) by {
        forall c: Cell | c in row ensures left <= c.0 < left + width && c.1 == top + height - 1 {
          var i :| 0 <= i < |row| && row[i] == c;
        }
        forall c: Cell | left <= c.0 < left + width && c.1 == top + height - 1 ensures c in row {
          assert row[c.0 - left] == c;
        }
      }
      assert width > 0 ==> |prefix + row| == (height - 1) * width + width == width * height;
      prefix + row
  }

  /** Intersects is symmetric. */
  lemma IntersectsSymmetric(a: Room, b: Room)
    ensures a.Intersects(b) <==> b.Intersects(a)
  {
  }

  /** For rooms with cells, Intersects holds exactly when some cell lies in both. */
  lemma IntersectsIffCommonCell(a: Room, b: Room)
    requires a.NonEmpty() && b.NonEmpty()
    ensures a.Intersects(b) <==> exists x, y :: a.Contains(x, y) && b.Contains(x, y)
  {
    if a.Intersects(b) {
      var x := if a.left < b.left then b.left else a.left;
      var y := if a.top < b.top then b.top else a.top;
      assert a.Contains(x, y) && b.Contains(x, y);
    }
  }

  /** Rooms inside separated rectangles do not intersect, in either order. */
  lemma SeparatedRoomsDisjoint(a: Room, b: Room, outerA: Room, outerB: Room)
    requires Within(a, outerA) && Within(b, outerB) && Separated(outerA, outerB)
    ensures !a.Intersects(b) && !b.Intersects(a)
  {
  }

  /** For a room with cells at non-negative coordinates the truncated centre is one of its cells. */
  lemma CenterCellInside(r: Room)
    requires r.NonEmpty() && r.left >= 0 && r.top >= 0
    ensures r.Contains(r.CenterCell().0, r.CenterCell().1)
    ensures r.CenterCell() == (r.left + r.width / 2, r.top + r.height / 2)
  {
  }

  /** At negative coordinates the truncation can leave the room: (-3, 0, 1, 1) has centre (-2.5, 0.5), cast to (-2, 0). */
  lemma CenterCellOutsideAtNegativeOddOrigin()
    ensures !Room(-3, 0, 1, 1).Contains(Room(-3, 0, 1, 1).CenterCell().0, Room(-3, 0, 1, 1).CenterCell().1)
  {
  }
}

=== FILE: inventory.dfy ===
/**
 * Scripts/Gameplay/Systems/InventorySystem.cs: a list of slots, each empty or
 * holding one item stack.  Adding tops up matching stacks first and then
 * fills empty slots with clones; removing takes from the matching stacks in
 * slot order; sorting packs the items, ordered, into the leading slots.
 *
 * Slots hold item values, so two slots never share an item.  The property
 * every operation keeps is `ValidSlots`: each stack holds between one and its
 * maximum.  Signals, the user's node and string building are left out.
 */
module Inventory {
  import opened Wrappers
  import opened Mathf
  import opened Items
  import opened ItemOrder

  /** `InventorySlot`: its item, or None when empty. */
  type Slot = Option<Item>

  datatype InventorySystem = InventorySystem(maxSlots: int, autoSort: bool, autoStack: bool, slots: seq<Slot>)

  /** `InventorySlot.IsEmpty`. */
  predicate SlotIsEmpty(s: Slot) {
    s.None?
  }

  /** `InventorySlot.IsFull`: the stack has reached its maximum. */
  predicate SlotIsFull(s: Slot) {
    s.Some? && s.value.stackCount >= s.value.maxStackSize
  }

  /** A full slot accepts nothing, and an empty slot is never full. */
  lemma FullSlotRefusesStacking(s: Slot, other: Item)
    ensures SlotIsFull(s) ==> !CanStackWith(s.value, other)
    ensures SlotIsEmpty(s) ==> !SlotIsFull(s)
  {
  }

  ghost predicate ValidSlots(slots: seq<Slot>) {
    forall i :: 0 <= i < |slots| && slots[i].Some? ==> ValidStack(slots[i].value)
  }

  /** The items in the slots, in slot order. */
  function Occupied(slots: seq<Slot>): (r: seq<Item>)
    ensures |r| <= |slots|
    decreases |slots|
  {
    if slots == [] then [] else (if slots[0].Some? then [slots[0].value] else []) + Occupied(slots[1..])
  }

  /** `UsedSlots`: the number of slots holding an item. */
  function UsedSlots(slots: seq<Slot>): nat {
    |Occupied(slots)|
  }

  /** `FreeSlots = MaxSlots - UsedSlots`. */
  function FreeSlots(inv: InventorySystem): int {
    inv.maxSlots - UsedSlots(inv.slots)
  }

  /** `IsFull`: at least `MaxSlots` slots are used. */
  predicate IsFull(inv: InventorySystem) {
    UsedSlots(inv.slots) >= inv.maxSlots
  }

  /** The inventory is full exactly when no free slot is left. */
  lemma IsFullIffNoFreeSlots(inv: InventorySystem)
    ensures IsFull(inv) <==> FreeSlots(inv) <= 0
  {
  }

  /** Every slot is used exactly when none is empty. */
  lemma {:induction false} UsedSlotsAllIffNoneEmpty(slots: seq<Slot>)
    ensures UsedSlots(slots) == |slots| <==> forall i :: 0 <= i < |slots| ==> slots[i].Some?
    decreases |slots|
  {
    if slots != [] {
      UsedSlotsAllIffNoneEmpty(slots[1..]);
      assert forall i :: 1 <= i < |slots| ==> slots[i] == slots[1..][i - 1];
    }
  }

  /** The number of `id` among the items. */
  function CountItems(items: seq<Item>, id: string): int
    decreases |items|
  {
    if items == [] then 0
    else (if items[0].itemId == id then items[0].stackCount else 0) + CountItems(items[1..], id)
  }

  /** `GetItemCount`: the stack counts of the slots holding `id`, summed. */
  function GetItemCount(slots: seq<Slot>, id: string): int {
    CountItems(Occupied(slots), id)
  }

  /** `HasItem`: at least `amount` of `id`. */
  predicate HasItem(slots: seq<Slot>, id: string, amount: int) {
    GetItemCount(slots, id) >= amount
  }

  lemma {:induction false} CountItemsAppend(a: seq<Item>, b: seq<Item>, id: string)
    ensures CountItems(a + b, id) == CountItems(a, id) + CountItems(b, id)
    decreases |a|
  {
    if a == [] {
      assert a + b == b;
    } else {
      CountItemsAppend(a[1..], b, id);
      assert (a + b)[1..] == a[1..] + b;
    }
  }

  /** Counting the first slot and then the rest. */
  lemma CountCons(s: Slot, rest: seq<Slot>, id: string)
    ensures Occupied([s] + rest) == (if s.Some? then [s.value] else []) + Occupied(rest)
    ensures GetItemCount([s] + rest, id) ==
              (if s.Some? && s.value.itemId == id then s.value.stackCount else 0) + GetItemCount(rest, id)
  {
    assert ([s] + rest)[1..] == rest;
    CountItemsAppend(if s.Some? then [s.value] else [], Occupied(rest), id);
  }

  lemma ValidCons(s: Slot, rest: seq<Slot>)
    ensures ValidSlots([s] + rest) <==> (s.Some? ==> ValidStack(s.value)) && ValidSlots(rest)
  {
    var l := [s] + rest;
    assert forall i :: 1 <= i < |l| ==> l[i] == rest[i - 1];
    if ValidSlots(l) {
      assert l[0] == s;
      forall i | 0 <= i < |rest| && rest[i].Some? ensures ValidStack(rest[i].value) {
        assert rest[i] == l[i + 1];
      }
    }
    if (s.Some? ==> ValidStack(s.value)) && ValidSlots(rest) {
      forall i | 0 <= i < |l| && l[i].Some? ensures ValidStack(l[i].value) {
        if i > 0 {
          assert l[i] == rest[i - 1];
        }
      }
    }
  }

  /** With valid stacks every count is non-negative. */
  lemma {:induction false} CountNonNegative(slots: seq<Slot>, id: string)
    requires ValidSlots(slots)
    ensures GetItemCount(slots, id) >= 0
    decreases |slots|
  {
    if slots != [] {
      ValidCons(slots[0], slots[1..]);
      assert slots == [slots[0]] + slots[1..];
      CountNonNegative(slots[1..], id);
      CountCons(slots[0], slots[1..], id);
    }
  }

  // ----- Initialisation and clearing -----

  /** `InitializeInventory`: `MaxSlots` empty slots. */
  function InitialSlots(maxSlots: int): (slots: seq<Slot>)
    ensures |slots| == if maxSlots > 0 then maxSlots else 0
    ensures forall i :: 0 <= i < |slots| ==> slots[i].None?
  {
    seq(if maxSlots > 0 then maxSlots else 0, i => None)
  }

  /** `ClearInventory`: the same number of slots, all empty. */
  function ClearInventory(slots: seq<Slot>): (r: seq<Slot>)
    ensures |r| == |slots|
    ensures forall i :: 0 <= i < |r| ==> r[i].None?
  {
    seq(|slots|, i => None)
  }

  lemma {:induction false} EmptySlotsHoldNothing(slots: seq<Slot>, id: string)
    requires forall i :: 0 <= i < |slots| ==> slots[i].None?
    ensures Occupied(slots) == []
    ensures UsedSlots(slots) == 0 && GetItemCount(slots, id) == 0 && !HasItem(slots, id, 1)
    decreases |slots|
  {
    if slots != [] {
      EmptySlotsHoldNothing(slots[1..], id);
    }
  }

  /** After clearing, nothing is held and every slot of the inventory is free. */
  lemma ClearInventoryEmpties(inv: InventorySystem, id: string)
    ensures UsedSlots(ClearInventory(inv.slots)) == 0
    ensures GetItemCount(ClearInventory(inv.slots), id) == 0
    ensures FreeSlots(inv.(slots := ClearInventory(inv.slots))) == inv.maxSlots
  {
    EmptySlotsHoldNothing(ClearInventory(inv.slots), id);
  }

  // ----- TryStackItem -----

  /**
   * `TryStackItem`: in slot order, while some of the amount remains, top up
   * each stack that `CanStackWith` the item.  Returns the slots and what
   * remains.
   */
  function TryStackItem(slots: seq<Slot>, item: Item, remaining: int): (r: (seq<Slot>, int))
    ensures |r.0| == |slots|
    decreases |slots|
  {
    if slots == [] || remaining <= 0 then (slots, remaining)
    else if slots[0].Some? && CanStackWith(slots[0].value, item) then
      var add := Min(remaining, slots[0].value.maxStackSize - slots[0].value.stackCount);
      var rest := TryStackItem(slots[1..], item, remaining - add);
      ([Some(slots[0].value.(stackCount := slots[0].value.stackCount + add))] + rest.0, rest.1)
    else
      var rest := TryStackItem(slots[1..], item, remaining);
      ([slots[0]] + rest.0, rest.1)
  }

  /**
   * Stacking places `remaining - r.1` more of the item's id and changes no
   * other id, and the stacks stay valid.
   */
  lemma {:induction false} TryStackItemCount(slots: seq<Slot>, item: Item, remaining: int, id: string)
    requires ValidSlots(slots) && remaining >= 0
    ensures 0 <= TryStackItem(slots, item, remaining).1 <= remaining
    ensures ValidSlots(TryStackItem(slots, item, remaining).0)
    ensures GetItemCount(TryStackItem(slots, item, remaining).0, id) ==
              GetItemCount(slots, id) + (if id == item.itemId then remaining - TryStackItem(slots, item, remaining).1 else 0)
    decreases |slots|
  {
    if slots != [] && remaining > 0 {
      var r := TryStackItem(slots, item, remaining);
      var head := slots[0];
      assert slots == [head] + slots[1..];
      ValidCons(head, slots[1..]);
      var add := if head.Some? && CanStackWith(head.value, item)
                 then Min(remaining, head.value.maxStackSize - head.value.stackCount) else 0;
      var rest := TryStackItem(slots[1..], item, remaining - add);
      TryStackItemCount(slots[1..], item, remaining - add, id);
      var newHead := if add > 0 then Some(head.value.(stackCount := head.value.stackCount + add)) else head;
      assert r.0 == [newHead] + rest.0;
      ValidCons(newHead, rest.0);
      CountCons(head, slots[1..], id);
      CountCons(newHead, rest.0, id);
    }
  }

  /**
   * Stacking only raises stacks that `CanStackWith` the item, never past
   * their maximum, changes nothing else about them, and leaves empty slots
   * empty.
   */
  lemma {:induction false} TryStackItemShape(slots: seq<Slot>, item: Item, remaining: int)
    ensures forall i :: 0 <= i < |slots| ==> (TryStackItem(slots, item, remaining).0[i].None? <==> slots[i].None?)
    ensures forall i :: 0 <= i < |slots| && TryStackItem(slots, item, remaining).0[i] != slots[i] ==>
              CanStackWith(slots[i].value, item) &&
              TryStackItem(slots, item, remaining).0[i].value ==
                slots[i].value.(stackCount := TryStackItem(slots, item, remaining).0[i].value.stackCount) &&
              slots[i].value.stackCount < TryStackItem(slots, item, remaining).0[i].value.stackCount <= slots[i].value.maxStackSize
    decreases |slots|
  {
    if slots != [] && remaining > 0 {
      var r := TryStackItem(slots, item, remaining);
      var head := slots[0];
      var add := if head.Some? && CanStackWith(head.value, item)
                 then Min(remaining, head.value.maxStackSize - head.value.stackCount) else 0;
      var rest := TryStackItem(slots[1..], item, remaining - add);
      TryStackItemShape(slots[1..], item, remaining - add);
      var newHead := if add > 0 then Some(head.value.(stackCount := head.value.stackCount + add)) else head;
      assert r.0 == [newHead] + rest.0;
      assert forall i :: 1 <= i < |slots| ==> r.0[i] == rest.0[i - 1] && slots[i] == slots[1..][i - 1];
    }
  }

  // ----- TryAddToEmptySlots -----

  /**
   * `TryAddToEmptySlots`: in slot order, while some of the amount remains,
   * put into each empty slot a clone holding `min(remaining, MaxStackSize)`.
   * A clone that fails (the scene does not load) leaves the slot empty.
   */
  function TryAddToEmptySlots(slots: seq<Slot>, item: Item, remaining: int, sceneLoads: bool): (r: (seq<Slot>, int))
    ensures |r.0| == |slots|
    decreases |slots|
  {
    if slots == [] || remaining <= 0 then (slots, remaining)
    else
      var clone := Clone(item, sceneLoads);
      if slots[0].None? && clone.Some? then
        var add := Min(remaining, clone.value.maxStackSize);
        var rest := TryAddToEmptySlots(slots[1..], item, remaining - add, sceneLoads);
        ([Some(clone.value.(stackCount := add))] + rest.0, rest.1)
      else
        var rest := TryAddToEmptySlots(slots[1..], item, remaining, sceneLoads);
        ([slots[0]] + rest.0, rest.1)
  }

  lemma {:induction false} TryAddToEmptySlotsRemains(slots: seq<Slot>, item: Item, remaining: int, sceneLoads: bool)
    requires remaining >= 0 && item.scene.maxStackSize >= 1
    ensures 0 <= TryAddToEmptySlots(slots, item, remaining, sceneLoads).1 <= remaining
    decreases |slots|
  {
    if slots != [] && remaining > 0 {
      var add := if slots[0].None? && sceneLoads then Min(remaining, item.scene.maxStackSize) else 0;
      TryAddToEmptySlotsRemains(slots[1..], item, remaining - add, sceneLoads);
    }
  }

  lemma {:induction false} TryAddToEmptySlotsValid(slots: seq<Slot>, item: Item, remaining: int, sceneLoads: bool)
    requires ValidSlots(slots) && remaining >= 0 && item.scene.maxStackSize >= 1
    ensures ValidSlots(TryAddToEmptySlots(slots, item, remaining, sceneLoads).0)
    decreases |slots|
  {
    if slots != [] && remaining > 0 {
      var head := slots[0];
      assert slots == [head] + slots[1..];
      ValidCons(head, slots[1..]);
      var fill := head.None? && sceneLoads;
      var add := if fill then Min(remaining, item.scene.maxStackSize) else 0;
      var rest := TryAddToEmptySlots(slots[1..], item, remaining - add, sceneLoads);
      TryAddToEmptySlotsValid(slots[1..], item, remaining - add, sceneLoads);
      var newHead := if fill then Some(Fresh(item).(stackCount := add)) else head;
      assert TryAddToEmptySlots(slots, item, remaining, sceneLoads).0 == [newHead] + rest.0;
      ValidCons(newHead, rest.0);
    }
  }

  lemma {:induction false} TryAddToEmptySlotsTally(slots: seq<Slot>, item: Item, remaining: int, sceneLoads: bool, id: string)
    requires remaining >= 0 && item.scene.maxStackSize >= 1
    ensures GetItemCount(TryAddToEmptySlots(slots, item, remaining, sceneLoads).0, id) ==
              GetItemCount(slots, id) +
              (if id == item.itemId then remaining - TryAddToEmptySlots(slots, item, remaining, sceneLoads).1 else 0)
    decreases |slots|
  {
    if slots != [] && remaining > 0 {
      var head := slots[0];
      assert slots == [head] + slots[1..];
      var fill := head.None? && sceneLoads;
      var add := if fill then Min(remaining, item.scene.maxStackSize) else 0;
      var rest := TryAddToEmptySlots(slots[1..], item, remaining - add, sceneLoads);
      TryAddToEmptySlotsTally(slots[1..], item, remaining - add, sceneLoads, id);
      var newHead := if fill then Some(Fresh(item).(stackCount := add)) else head;
      assert TryAddToEmptySlots(slots, item, remaining, sceneLoads).0 == [newHead] + rest.0;
      CountCons(head, slots[1..], id);
      CountCons(newHead, rest.0, id);
    }
  }

  /**
   * Filling places `remaining - r.1` more of the item's id and changes no
   * other id, and the stacks stay valid.
   */
  lemma TryAddToEmptySlotsCount(slots: seq<Slot>, item: Item, remaining: int, sceneLoads: bool, id: string)
    requires ValidSlots(slots) && remaining >= 0 && item.scene.maxStackSize >= 1
    ensures 0 <= TryAddToEmptySlots(slots, item, remaining, sceneLoads).1 <= remaining
    ensures ValidSlots(TryAddToEmptySlots(slots, item, remaining, sceneLoads).0)
    ensures GetItemCount(TryAddToEmptySlots(slots, item, remaining, sceneLoads).0, id) ==
              GetItemCount(slots, id) +
              (if id == item.itemId then remaining - TryAddToEmptySlots(slots, item, remaining, sceneLoads).1 else 0)
  {
    TryAddToEmptySlotsRemains(slots, item, remaining, sceneLoads);
    TryAddToEmptySlotsValid(slots, item, remaining, sceneLoads);
    TryAddToEmptySlotsTally(slots, item, remaining, sceneLoads, id);
  }

  /**
   * A non-stackable item whose scene exports a maximum of 5: three of it go
   * into the first of three empty slots, because the clone keeps the scene's
   * maximum.
   */
  lemma EmptySlotsTakeSceneMaximum(item: Item)
    requires !item.stackable && item.scene == ItemScene(false, 5)
    ensures TryAddToEmptySlots([None, None, None], item, 3, true) ==
              ([Some(Fresh(item).(stackCount := 3)), None, None], 0)
  {
    var empty: seq<Slot> := [None, None, None];
    var rest: seq<Slot> := [None, None];
    assert empty[1..] == rest;
    assert Clone(item, true).value.maxStackSize == 5;
    assert TryAddToEmptySlots(rest, item, 0, true) == (rest, 0);
    assert TryAddToEmptySlots(empty, item, 3, true) == ([Some(Clone(item, true).value.(stackCount := 3))] + rest, 0);
    assert Clone(item, true).value.(stackCount := 3) == Fresh(item).(stackCount := 3);
    assert [Some(Fresh(item).(stackCount := 3))] + rest == [Some(Fresh(item).(stackCount := 3)), None, None];
  }

  /**
   * Filling leaves occupied slots untouched and puts into a filled slot a
   * fresh copy of the item; when something remains and clones work, no empty
   * slot is left.
   */
  lemma {:induction false} TryAddToEmptySlotsShape(slots: seq<Slot>, item: Item, remaining: int, sceneLoads: bool)
    requires item.scene.maxStackSize >= 1
    ensures forall i :: 0 <= i < |slots| && slots[i].Some? ==> TryAddToEmptySlots(slots, item, remaining, sceneLoads).0[i] == slots[i]
    ensures forall i :: 0 <= i < |slots| && TryAddToEmptySlots(slots, item, remaining, sceneLoads).0[i] != slots[i] ==>
              TryAddToEmptySlots(slots, item, remaining, sceneLoads).0[i].Some? &&
              TryAddToEmptySlots(slots, item, remaining, sceneLoads).0[i].value ==
                Fresh(item).(stackCount := TryAddToEmptySlots(slots, item, remaining, sceneLoads).0[i].value.stackCount)
    ensures TryAddToEmptySlots(slots, item, remaining, sceneLoads).1 > 0 && sceneLoads ==>
              forall i :: 0 <= i < |slots| ==> TryAddToEmptySlots(slots, item, remaining, sceneLoads).0[i].Some?
    decreases |slots|
  {
    if slots != [] && remaining > 0 {
      var r := TryAddToEmptySlots(slots, item, remaining, sceneLoads);
      var head := slots[0];
      var fill := head.None? && sceneLoads;
      var add := if fill then Min(remaining, item.scene.maxStackSize) else 0;
      var rest := TryAddToEmptySlots(slots[1..], item, remaining - add, sceneLoads);
      TryAddToEmptySlotsShape(slots[1..], item, remaining - add, sceneLoads);
      var newHead := if fill then Some(Fresh(item).(stackCount := add)) else head;
      assert r.0 == [newHead] + rest.0;
      assert forall i :: 1 <= i < |slots| ==> r.0[i] == rest.0[i - 1] && slots[i] == slots[1..][i - 1];
    }
  }

  // ----- SortInventory -----

  /** The items placed into the leading slots, the rest left empty. */
  function Packed(items: seq<Item>, n: nat): (r: seq<Slot>)
    requires |items| <= n
    ensures |r| == n
    ensures forall i :: 0 <= i < n ==> (r[i].Some? <==> i < |items|) && (i < |items| ==> r[i] == Some(items[i]))
    decreases n
  {
    if n == 0 then []
    else if items == [] then [None] + Packed([], n - 1)
    else [Some(items[0])] + Packed(items[1..], n - 1)
  }

  lemma {:induction false} OccupiedPacked(items: seq<Item>, n: nat)
    requires |items| <= n
    ensures Occupied(Packed(items, n)) == items
    decreases n
  {
    if n > 0 {
      if items == [] {
        var tail := Packed([], n - 1);
        OccupiedPacked([], n - 1);
        assert ([None] + tail)[1..] == tail;
      } else {
        var tail := Packed(items[1..], n - 1);
        OccupiedPacked(items[1..], n - 1);
        assert ([Some(items[0])] + tail)[1..] == tail;
        assert items == [items[0]] + items[1..];
      }
    }
  }

  /**
   * `SortInventory`: the occupied slots' items, sorted stably by
   * (Type, Rarity, ItemName), packed into the leading slots with the empty
   * slots after them; the number of slots is kept.
   */
  function SortInventory(slots: seq<Slot>): (r: seq<Slot>)
    ensures |r| == |slots|
    ensures forall i :: 0 <= i < |r| ==> (r[i].Some? <==> i < UsedSlots(slots))
    ensures Occupied(r) == Sort(Occupied(slots))
  {
    var items := Sort(Occupied(slots));
    OccupiedPacked(items, |slots|);
    Packed(items, |slots|)
  }

  lemma {:induction false} InsertCount(t: seq<Item>, x: Item, id: string)
    ensures CountItems(Insert(t, x), id) == CountItems(t, id) + (if x.itemId == id then x.stackCount else 0)
    decreases |t|
  {
    if t != [] {
      if Before(x, t[0]) {
        assert ([x] + t)[1..] == t;
      } else {
        InsertCount(t[1..], x, id);
        assert ([t[0]] + Insert(t[1..], x))[1..] == Insert(t[1..], x);
      }
    }
  }

  lemma {:induction false} SortCount(s: seq<Item>, id: string)
    ensures CountItems(Sort(s), id) == CountItems(s, id)
    decreases |s|
  {
    if s != [] {
      var init := s[..|s| - 1];
      SortCount(init, id);
      InsertCount(Sort(init), s[|s| - 1], id);
      CountItemsAppend(init, [s[|s| - 1]], id);
      assert s == init + [s[|s| - 1]];
    }
  }

  /**
   * Sorting holds the same items as before (a permutation), in sorted and
   * stable order, with every id's count and the valid stacks kept.
   */
  lemma SortInventorySpec(slots: seq<Slot>, id: string, k: Item)
    ensures multiset(Occupied(SortInventory(slots))) == multiset(Occupied(slots))
    ensures Sorted(Occupied(SortInventory(slots)))
    ensures WithKey(Occupied(SortInventory(slots)), k) == WithKey(Occupied(slots), k)
    ensures GetItemCount(SortInventory(slots), id) == GetItemCount(slots, id)
    ensures UsedSlots(SortInventory(slots)) == UsedSlots(slots)
    ensures ValidSlots(slots) ==> ValidSlots(SortInventory(slots))
  {
    var items := Occupied(slots);
    SortPermutes(items);
    SortSorted(items);
    SortStable(items, k);
    SortCount(items, id);
    if ValidSlots(slots) {
      OccupiedItemsValid(slots);
      var r := SortInventory(slots);
      forall i | 0 <= i < |r| && r[i].Some? ensures ValidStack(r[i].value) {
        assert r[i].value == Sort(items)[i];
        assert r[i].value in multiset(items);
      }
    }
  }

  lemma {:induction false} OccupiedItemsValid(slots: seq<Slot>)
    requires ValidSlots(slots)
    ensures forall x :: x in Occupied(slots) ==> ValidStack(x)
    decreases |slots|
  {
    if slots != [] {
      ValidCons(slots[0], slots[1..]);
      assert slots == [slots[0]] + slots[1..];
      OccupiedItemsValid(slots[1..]);
    }
  }

  // ----- AddItem -----

  /**
   * `AddItem`: nothing for a missing item or a non-positive amount.
   * Otherwise stack (when auto-stacking a stackable item), then fill empty
   * slots, then sort (when auto-sorting and something was added).  The result
   * is what was added: between 0 and the amount, exactly the rise of the
   * item's count, with every other id unchanged.  When less than the amount
   * was added (and clones work) no slot is left empty.
   */
  method AddItem(inv: InventorySystem, item: Option<Item>, amount: int, sceneLoads: bool)
    returns (r: InventorySystem, added: int)
    ensures item.None? || amount <= 0 ==> r == inv && added == 0
    ensures r == inv.(slots := r.slots) && |r.slots| == |inv.slots|
    ensures ValidSlots(inv.slots) && item.Some? && item.value.scene.maxStackSize >= 1 ==>
              && ValidSlots(r.slots)
              && (amount > 0 ==> 0 <= added <= amount)
              && (forall id :: GetItemCount(r.slots, id) ==
                                GetItemCount(inv.slots, id) + (if id == item.value.itemId then added else 0))
              && (added < amount && sceneLoads ==> forall i :: 0 <= i < |r.slots| ==> r.slots[i].Some?)
    ensures inv.autoSort && added > 0 ==>
              && Sorted(Occupied(r.slots))
              && (forall i :: 0 <= i < |r.slots| ==> (r.slots[i].Some? <==> i < UsedSlots(r.slots)))
  {
    if item.None? || amount <= 0 {
      return inv, 0;
    }
    var it := item.value;
    var slots := inv.slots;
    var remaining := amount;
    ghost var valid := ValidSlots(inv.slots) && it.scene.maxStackSize >= 1;
    ghost var counts := GetItemCount(slots, it.itemId);
    if inv.autoStack && it.stackable {
      var s := TryStackItem(slots, it, remaining);
      if valid {
        forall id ensures GetItemCount(s.0, id) == GetItemCount(slots, id) + (if id == it.itemId then remaining - s.1 else 0) {
          TryStackItemCount(slots, it, remaining, id);
        }
        TryStackItemCount(slots, it, remaining, it.itemId);
      }
      slots, remaining := s.0, s.1;
    }
    ghost var mid := slots;
    ghost var midRemaining := remaining;
    if remaining > 0 {
      var s := TryAddToEmptySlots(slots, it, remaining, sceneLoads);
      if valid {
        forall id ensures GetItemCount(s.0, id) == GetItemCount(slots, id) + (if id == it.itemId then remaining - s.1 else 0) {
          TryAddToEmptySlotsCount(slots, it, remaining, sceneLoads, id);
        }
        TryAddToEmptySlotsCount(slots, it, remaining, sceneLoads, it.itemId);
        TryAddToEmptySlotsShape(slots, it, remaining, sceneLoads);
      }
      slots, remaining := s.0, s.1;
    }
    added := amount - remaining;
    if added > 0 && inv.autoSort {
      var sorted := SortInventory(slots);
      if valid {
        forall id ensures GetItemCount(sorted, id) == GetItemCount(slots, id) {
          SortInventorySpec(slots, id, it);
        }
        SortInventorySpec(slots, it.itemId, it);
        if remaining > 0 && sceneLoads {
          UsedSlotsAllIffNoneEmpty(slots);
          UsedSlotsAllIffNoneEmpty(sorted);
        }
      }
      SortSorted(Occupied(slots));
      assert UsedSlots(sorted) == UsedSlots(slots);
      slots := sorted;
    }
    r := inv.(slots := slots);
  }

  // ----- RemoveItem -----

  /**
   * The loop of `RemoveItem`: in slot order, while some of the amount
   * remains, take from each stack of `id` as much as it holds or as remains;
   * a stack brought to zero leaves its slot empty.
   */
  function RemoveFromSlots(slots: seq<Slot>, id: string, remaining: int): (r: (seq<Slot>, int))
    ensures |r.0| == |slots|
    decreases |slots|
  {
    if slots == [] || remaining <= 0 then (slots, remaining)
    else if slots[0].Some? && slots[0].value.itemId == id then
      var take := Min(remaining, slots[0].value.stackCount);
      var left := slots[0].value.stackCount - take;
      var rest := RemoveFromSlots(slots[1..], id, remaining - take);
      ([if left <= 0 then None else Some(slots[0].value.(stackCount := left))] + rest.0, rest.1)
    else
      var rest := RemoveFromSlots(slots[1..], id, remaining);
      ([slots[0]] + rest.0, rest.1)
  }

  lemma {:induction false} RemoveFromSlotsSpec(slots: seq<Slot>, id: string, remaining: int, other: string)
    requires ValidSlots(slots) && remaining >= 0
    ensures remaining - RemoveFromSlots(slots, id, remaining).1 == Min(remaining, GetItemCount(slots, id))
    ensures ValidSlots(RemoveFromSlots(slots, id, remaining).0)
    ensures GetItemCount(RemoveFromSlots(slots, id, remaining).0, other) ==
              GetItemCount(slots, other) - (if other == id then remaining - RemoveFromSlots(slots, id, remaining).1 else 0)
  {
    RemoveFromSlotsTakes(slots, id, remaining);
    RemoveFromSlotsValid(slots, id, remaining);
    if other != id {
      RemoveFromSlotsOthers(slots, id, remaining, other);
    }
  }

  /** The slot loop takes `min(remaining, count)` of the id, and the id's count drops by that much. */
  lemma {:induction false} RemoveFromSlotsTakes(slots: seq<Slot>, id: string, remaining: int)
    requires ValidSlots(slots) && remaining >= 0
    ensures remaining - RemoveFromSlots(slots, id, remaining).1 == Min(remaining, GetItemCount(slots, id))
    ensures GetItemCount(RemoveFromSlots(slots, id, remaining).0, id) ==
              GetItemCount(slots, id) - (remaining - RemoveFromSlots(slots, id, remaining).1)
    decreases |slots|
  {
    if slots != [] && remaining > 0 {
      var r := RemoveFromSlots(slots, id, remaining);
      var head := slots[0];
      assert slots == [head] + slots[1..];
      ValidCons(head, slots[1..]);
      CountCons(head, slots[1..], id);
      CountNonNegative(slots[1..], id);
      if head.Some? && head.value.itemId == id {
        var take := Min(remaining, head.value.stackCount);
        var rest := RemoveFromSlots(slots[1..], id, remaining - take);
        RemoveFromSlotsTakes(slots[1..], id, remaining - take);
        var newHead := if head.value.stackCount - take <= 0 then None
                       else Some(head.value.(stackCount := head.value.stackCount - take));
        assert r.0 == [newHead] + rest.0;
        CountCons(newHead, rest.0, id);
      } else {
        var rest := RemoveFromSlots(slots[1..], id, remaining);
        RemoveFromSlotsTakes(slots[1..], id, remaining);
        assert r.0 == [head] + rest.0;
        CountCons(head, rest.0, id);
      }
    } else {
      CountNonNegative(slots, id);
    }
  }

  /** The slot loop keeps every stack valid. */
  lemma {:induction false} RemoveFromSlotsValid(slots: seq<Slot>, id: string, remaining: int)
    requires ValidSlots(slots)
    ensures ValidSlots(RemoveFromSlots(slots, id, remaining).0)
    decreases |slots|
  {
    if slots != [] && remaining > 0 {
      var r := RemoveFromSlots(slots, id, remaining);
      var head := slots[0];
      assert slots == [head] + slots[1..];
      ValidCons(head, slots[1..]);
      if head.Some? && head.value.itemId == id {
        var take := Min(remaining, head.value.stackCount);
        var rest := RemoveFromSlots(slots[1..], id, remaining - take);
        RemoveFromSlotsValid(slots[1..], id, remaining - take);
        var newHead := if head.value.stackCount - take <= 0 then None
                       else Some(head.value.(stackCount := head.value.stackCount - take));
        assert r.0 == [newHead] + rest.0;
        ValidCons(newHead, rest.0);
      } else {
        var rest := RemoveFromSlots(slots[1..], id, remaining);
        RemoveFromSlotsValid(slots[1..], id, remaining);
        assert r.0 == [head] + rest.0;
        ValidCons(head, rest.0);
      }
    }
  }

  /** The slot loop leaves every other id's count alone. */
  lemma {:induction false} RemoveFromSlotsOthers(slots: seq<Slot>, id: string, remaining: int, other: string)
    requires other != id
    ensures GetItemCount(RemoveFromSlots(slots, id, remaining).0, other) == GetItemCount(slots, other)
    decreases |slots|
  {
    if slots != [] && remaining > 0 {
      var r := RemoveFromSlots(slots, id, remaining);
      var head := slots[0];
      assert slots == [head] + slots[1..];
      CountCons(head, slots[1..], other);
      if head.Some? && head.value.itemId == id {
        var take := Min(remaining, head.value.stackCount);
        var rest := RemoveFromSlots(slots[1..], id, remaining - take);
        RemoveFromSlotsOthers(slots[1..], id, remaining - take, other);
        var newHead := if head.value.stackCount - take <= 0 then None
                       else Some(head.value.(stackCount := head.value.stackCount - take));
        assert r.0 == [newHead] + rest.0;
        CountCons(newHead, rest.0, other);
      } else {
        var rest := RemoveFromSlots(slots[1..], id, remaining);
        RemoveFromSlotsOthers(slots[1..], id, remaining, other);
        assert r.0 == [head] + rest.0;
        CountCons(head, rest.0, other);
      }
    }
  }

  /**
   * `RemoveItem`: nothing for a missing item or a non-positive amount;
   * otherwise the slot loop from the start, and the amount actually removed.
   */
  function RemoveItem(slots: seq<Slot>, item: Option<Item>, amount: int): (r: (seq<Slot>, int))
    ensures |r.0| == |slots|
    ensures item.None? || amount <= 0 ==> r == (slots, 0)
  {
    if item.None? || amount <= 0 then (slots, 0)
    else
      var s := RemoveFromSlots(slots, item.value.itemId, amount);
      (s.0, amount - s.1)
  }

  /**
   * Removing takes, and reports, `min(amount, GetItemCount(id))` of the item's
   * id, changes no other id and keeps every stack valid.
   */
  lemma RemoveItemSpec(slots: seq<Slot>, item: Item, amount: int, id: string)
    requires ValidSlots(slots) && amount > 0
    ensures RemoveItem(slots, Some(item), amount).1 == Min(amount, GetItemCount(slots, item.itemId))
    ensures ValidSlots(RemoveItem(slots, Some(item), amount).0)
    ensures GetItemCount(RemoveItem(slots, Some(item), amount).0, id) ==
              GetItemCount(slots, id) - (if id == item.itemId then RemoveItem(slots, Some(item), amount).1 else 0)
  {
    RemoveFromSlotsSpec(slots, item.itemId, amount, id);
  }

  /** Removing `n` of an id removes all `n` exactly when `HasItem(id, n)`. */
  lemma HasItemIffRemovesAll(slots: seq<Slot>, item: Item, n: int)
    requires ValidSlots(slots) && n > 0
    ensures RemoveItem(slots, Some(item), n).1 == n <==> HasItem(slots, item.itemId, n)
  {
    RemoveItemSpec(slots, item, n, item.itemId);
  }

  // ----- UseItem -----

  /**
   * `UseItem`: false with nothing changed for an index out of range or an
   * empty slot; otherwise the item's `Use`.  A successful use of a consumable
   * takes one from its stack and empties the slot at zero; nothing else changes.
   */
  function UseItem<Node>(slots: seq<Slot>, index: int, user: Option<Node>): (r: (seq<Slot>, bool))
    ensures r.1 <==> 0 <= index < |slots| && slots[index].Some? && user.Some?
    ensures !r.1 ==> r.0 == slots
    ensures r.1 && !slots[index].value.consumable ==> r.0 == slots
    ensures r.1 && slots[index].value.consumable ==>
              r.0 == slots[index := if slots[index].value.stackCount - 1 <= 0 then None
                                    else Some(slots[index].value.(stackCount := slots[index].value.stackCount - 1))]
  {
    if index < 0 || index >= |slots| || slots[index].None? then (slots, false)
    else
      var it := slots[index].value;
      var ok := Use(it, user);
      if ok && it.consumable then
        var left := it.stackCount - 1;
        (slots[index := if left <= 0 then None else Some(it.(stackCount := left))], true)
      else
        (slots, ok)
  }

  /** Rewriting one slot changes the count by what it held and what it holds. */
  lemma {:induction false} CountUpdate(slots: seq<Slot>, i: int, s: Slot, id: string)
    requires 0 <= i < |slots|
    ensures GetItemCount(slots[i := s], id) ==
              GetItemCount(slots, id)
              - (if slots[i].Some? && slots[i].value.itemId == id then slots[i].value.stackCount else 0)
              + (if s.Some? && s.value.itemId == id then s.value.stackCount else 0)
    decreases |slots|
  {
    var u := slots[i := s];
    assert slots == [slots[0]] + slots[1..];
    assert u == [u[0]] + u[1..];
    CountCons(slots[0], slots[1..], id);
    CountCons(u[0], u[1..], id);
    if i > 0 {
      assert u[1..] == slots[1..][i - 1 := s];
      CountUpdate(slots[1..], i - 1, s, id);
    } else {
      assert u[1..] == slots[1..];
    }
  }

  /** A successful use of a consumable lowers its id's count by exactly one, keeping the stacks valid. */
  lemma UseItemConsumes<Node>(slots: seq<Slot>, index: int, user: Option<Node>)
    requires ValidSlots(slots) && UseItem(slots, index, user).1 && slots[index].value.consumable
    ensures GetItemCount(UseItem(slots, index, user).0, slots[index].value.itemId) ==
              GetItemCount(slots, slots[index].value.itemId) - 1
    ensures ValidSlots(UseItem(slots, index, user).0)
  {
    var it := slots[index].value;
    var s := if it.stackCount - 1 <= 0 then None else Some(it.(stackCount := it.stackCount - 1));
    CountUpdate(slots, index, s, it.itemId);
  }
}

=== FILE: item_order.dfy ===
/**
 * The order `InventorySystem.SortInventory` puts items in
 * (Scripts/Gameplay/Systems/InventorySystem.cs): by `Type`, then `Rarity`, then
 * `ItemName`, with LINQ's `OrderBy`/`ThenBy`, which is a stable sort.  Enum
 * values compare by declaration order; names compare ordinally, character by
 * character, a proper prefix first.
 *
 * The sort is an insertion sort that inserts each item after every item it
 * does not precede, which keeps items with equal keys in their input order.
 */
module ItemOrder {
  import opened Items

  function TypeRank(t: ItemType): nat {
    match t
    case Weapon => 0
    case Armor => 1
    case Accessory => 2
    case Consumable => 3
    case Material => 4
    case Quest => 5
    case Misc => 6
  }

  function RarityRank(r: ItemRarity): nat {
    match r
    case Common => 0
    case Uncommon => 1
    case Rare => 2
    case Epic => 3
    case Legendary => 4
  }

  /** Ordinal string order: the first differing character decides, and a proper prefix comes first. */
  predicate NameBefore(a: string, b: string)
    decreases |a|
  {
    if a == [] then b != []
    else if b == [] then false
    else if a[0] != b[0] then a[0] < b[0]
    else NameBefore(a[1..], b[1..])
  }

  lemma {:induction false} NameBeforeIrreflexive(a: string)
    ensures !NameBefore(a, a)
    decreases |a|
  {
    if a != [] {
      NameBeforeIrreflexive(a[1..]);
    }
  }

  lemma {:induction false} NameBeforeTransitive(a: string, b: string, c: string)
    requires NameBefore(a, b) && NameBefore(b, c)
    ensures NameBefore(a, c)
    decreases |a|
  {
    if a != [] && b != [] && c != [] && a[0] == b[0] && b[0] == c[0] {
      NameBeforeTransitive(a[1..], b[1..], c[1..]);
    }
  }

  /** Two different names are ordered one way or the other, and never both ways. */
  lemma {:induction false} NameBeforeTotal(a: string, b: string)
    ensures a == b || NameBefore(a, b) || NameBefore(b, a)
    ensures !(NameBefore(a, b) && NameBefore(b, a))
    decreases |a|
  {
    if a != [] && b != [] && a[0] == b[0] {
      NameBeforeTotal(a[1..], b[1..]);
      if a[1..] == b[1..] {
        assert a == [a[0]] + a[1..] && b == [b[0]] + b[1..];
      }
    }
  }

  /** The two items have the same sort key. */
  predicate SameKey(a: Item, b: Item) {
    a.itemType == b.itemType && a.rarity == b.rarity && a.itemName == b.itemName
  }

  /** `a` sorts strictly before `b`. */
  predicate Before(a: Item, b: Item) {
    || TypeRank(a.itemType) < TypeRank(b.itemType)
    || (a.itemType == b.itemType && RarityRank(a.rarity) < RarityRank(b.rarity))
    || (a.itemType == b.itemType && a.rarity == b.rarity && NameBefore(a.itemName, b.itemName))
  }

  /** `Before` is a strict order whose incomparable pairs are exactly the pairs with the same key. */
  lemma BeforeOrder(a: Item, b: Item, c: Item)
    ensures !Before(a, a)
    ensures Before(a, b) && Before(b, c) ==> Before(a, c)
    ensures SameKey(a, b) || Before(a, b) || Before(b, a)
    ensures SameKey(a, b) ==> !Before(a, b) && !Before(b, a)
    ensures !(Before(a, b) && Before(b, a))
  {
    NameBeforeIrreflexive(a.itemName);
    NameBeforeTotal(a.itemName, b.itemName);
    if NameBefore(a.itemName, b.itemName) && NameBefore(b.itemName, c.itemName) {
      NameBeforeTransitive(a.itemName, b.itemName, c.itemName);
    }
    assert TypeRank(a.itemType) == TypeRank(b.itemType) ==> a.itemType == b.itemType;
    assert RarityRank(a.rarity) == RarityRank(b.rarity) ==> a.rarity == b.rarity;
  }

  /** No item sorts before an earlier one. */
  ghost predicate Sorted(s: seq<Item>) {
    forall i, j :: 0 <= i < j < |s| ==> !Before(s[j], s[i])
  }

  /** Put `x` after every leading item it does not sort before. */
  function Insert(t: seq<Item>, x: Item): (r: seq<Item>)
    ensures |r| == |t| + 1
    decreases |t|
  {
    if t == [] then [x]
    else if Before(x, t[0]) then [x] + t
    else [t[0]] + Insert(t[1..], x)
  }

  /** `OrderBy(Type).ThenBy(Rarity).ThenBy(ItemName)`: insert the items one by one, in input order. */
  function Sort(s: seq<Item>): (r: seq<Item>)
    ensures |r| == |s|
    decreases |s|
  {
    if s == [] then [] else Insert(Sort(s[..|s| - 1]), s[|s| - 1])
  }

  lemma {:induction false} InsertPermutes(t: seq<Item>, x: Item)
    ensures multiset(Insert(t, x)) == multiset(t) + multiset{x}
    decreases |t|
  {
    if t != [] && !Before(x, t[0]) {
      InsertPermutes(t[1..], x);
      assert t == [t[0]] + t[1..];
    }
  }

  lemma {:induction false} InsertSorted(t: seq<Item>, x: Item)
    requires Sorted(t)
    ensures Sorted(Insert(t, x))
    decreases |t|
  {
    if t != [] {
      if Before(x, t[0]) {
        var r := [x] + t;
        forall i, j | 0 <= i < j < |r| ensures !Before(r[j], r[i]) {
          if i == 0 {
            BeforeOrder(t[j - 1], x, t[0]);
            BeforeOrder(t[0], x, t[0]);
            assert j - 1 > 0 ==> !Before(t[j - 1], t[0]);
          }
        }
      } else {
        var rest := Insert(t[1..], x);
        InsertSorted(t[1..], x);
        InsertPermutes(t[1..], x);
        var r := [t[0]] + rest;
        forall i, j | 0 <= i < j < |r| ensures !Before(r[j], r[i]) {
          if i == 0 {
            assert r[j] in multiset(rest);
            assert r[j] in multiset(t[1..]) || r[j] == x;
            if r[j] in multiset(t[1..]) {
              var k :| 0 <= k < |t[1..]| && t[1..][k] == r[j];
              assert t[k + 1] == r[j];
            }
          }
        }
      }
    }
  }

  /** The sort rearranges its input and nothing else. */
  lemma {:induction false} SortPermutes(s: seq<Item>)
    ensures multiset(Sort(s)) == multiset(s)
    decreases |s|
  {
    if s != [] {
      var init := s[..|s| - 1];
      SortPermutes(init);
      InsertPermutes(Sort(init), s[|s| - 1]);
      assert s == init + [s[|s| - 1]];
    }
  }

  /** The sort's output is ordered by (Type, Rarity, ItemName). */
  lemma {:induction false} SortSorted(s: seq<Item>)
    ensures Sorted(Sort(s))
    decreases |s|
  {
    if s != [] {
      SortSorted(s[..|s| - 1]);
      InsertSorted(Sort(s[..|s| - 1]), s[|s| - 1]);
    }
  }

  /** The items with the same key as `k`, in order. */
  function WithKey(s: seq<Item>, k: Item): (r: seq<Item>)
    ensures forall x :: x in r ==> x in s && SameKey(x, k)
    decreases |s|
  {
    if s == [] then [] else (if SameKey(s[0], k) then [s[0]] else []) + WithKey(s[1..], k)
  }

  lemma {:induction false} WithKeyAppend(a: seq<Item>, b: seq<Item>, k: Item)
    ensures WithKey(a + b, k) == WithKey(a, k) + WithKey(b, k)
    decreases |a|
  {
    if a == [] {
      assert a + b == b;
    } else {
      WithKeyAppend(a[1..], b, k);
      assert (a + b)[0] == a[0];
      assert (a + b)[1..] == a[1..] + b;
      assert WithKey(a + b, k) == (if SameKey(a[0], k) then [a[0]] else []) + WithKey(a[1..] + b, k);
    }
  }

  /** In a sorted list, nothing after an item that `x` sorts before has `x`'s key. */
  lemma NoKeyAfterGreater(t: seq<Item>, x: Item, k: Item)
    requires Sorted(t) && t != [] && Before(x, t[0]) && SameKey(x, k)
    ensures WithKey(t, k) == []
  {
    forall y | y in t ensures !SameKey(y, k) {
      var j :| 0 <= j < |t| && t[j] == y;
      BeforeOrder(t[0], t[0], t[0]);
      assert SameKey(y, k) ==> Before(y, t[0]);
    }
    if WithKey(t, k) != [] {
      assert WithKey(t, k)[0] in WithKey(t, k);
    }
  }

  lemma SortedTail(t: seq<Item>)
    requires Sorted(t) && t != []
    ensures Sorted(t[1..])
  {
    forall i, j | 0 <= i < j < |t| - 1 ensures !Before(t[1..][j], t[1..][i]) {
      assert t[1..][j] == t[j + 1] && t[1..][i] == t[i + 1];
    }
  }

  /** Inserting `x` in front of a sorted list it sorts before adds it last among its key, the only one of that key. */
  lemma InsertWithKeyFront(t: seq<Item>, x: Item, k: Item)
    requires Sorted(t) && t != [] && Before(x, t[0])
    ensures WithKey([x] + t, k) == WithKey(t, k) + (if SameKey(x, k) then [x] else [])
  {
    assert ([x] + t)[1..] == t;
    assert WithKey([x] + t, k) == (if SameKey(x, k) then [x] else []) + WithKey(t, k);
    if SameKey(x, k) {
      NoKeyAfterGreater(t, x, k);
    }
  }

  lemma AppendAssoc(a: seq<Item>, b: seq<Item>, c: seq<Item>)
    ensures a + (b + c) == (a + b) + c
  {
  }

  /** Inserting `x` behind the head keeps the head ahead of the tail's items of its key. */
  lemma InsertWithKeyBehind(t: seq<Item>, x: Item, k: Item)
    requires t != [] && !Before(x, t[0])
    requires WithKey(Insert(t[1..], x), k) == WithKey(t[1..], k) + (if SameKey(x, k) then [x] else [])
    ensures WithKey(Insert(t, x), k) == WithKey(t, k) + (if SameKey(x, k) then [x] else [])
  {
    var rest := Insert(t[1..], x);
    var head := if SameKey(t[0], k) then [t[0]] else [];
    var added := if SameKey(x, k) then [x] else [];
    assert Insert(t, x) == [t[0]] + rest;
    assert ([t[0]] + rest)[0] == t[0] && ([t[0]] + rest)[1..] == rest;
    assert WithKey(Insert(t, x), k) == head + WithKey(rest, k);
    assert WithKey(t, k) == head + WithKey(t[1..], k);
    AppendAssoc(head, WithKey(t[1..], k), added);
  }

  lemma {:induction false} InsertWithKey(t: seq<Item>, x: Item, k: Item)
    requires Sorted(t)
    ensures WithKey(Insert(t, x), k) == WithKey(t, k) + (if SameKey(x, k) then [x] else [])
    decreases |t|
  {
    if t == [] {
    } else if Before(x, t[0]) {
      InsertWithKeyFront(t, x, k);
    } else {
      SortedTail(t);
      InsertWithKey(t[1..], x, k);
      InsertWithKeyBehind(t, x, k);
    }
  }

  /** One insertion step keeps each key's items in input order. */
  lemma SortStableStep(init: seq<Item>, last: Item, k: Item)
    requires WithKey(Sort(init), k) == WithKey(init, k)
    ensures WithKey(Insert(Sort(init), last), k) == WithKey(init + [last], k)
  {
    SortSorted(init);
    InsertWithKey(Sort(init), last, k);
    WithKeyAppend(init, [last], k);
    assert [last][1..] == [];
  }

  /** Stability: the items of each key keep their input order. */
  lemma {:induction false} SortStable(s: seq<Item>, k: Item)
    ensures WithKey(Sort(s), k) == WithKey(s, k)
    decreases |s|
  {
    if s != [] {
      var init := s[..|s| - 1];
      var last := s[|s| - 1];
      SortStable(init, k);
      SortStableStep(init, last, k);
      assert s == init + [last];
    }
  }
}

=== FILE: items.dfy ===
/**
 * Scripts/Core/Abstract/BaseItem.cs: an item and its stack.  Items are values:
 * an operation that changes an item returns the changed copy.  The `ItemType`
 * and `ItemRarity` enumerations keep the declaration order of
 * Scripts/Core/Interfaces/IItem.cs, which is the order the inventory sorts by.
 * Sprites, sounds, animations and signals are engine side effects and are left
 * out; a Godot node argument that may be null is an `Option`.
 */
module Items {
  import opened Wrappers
  import opened Mathf

  datatype ItemType = Weapon | Armor | Accessory | Consumable | Material | Quest | Misc

  datatype ItemRarity = Common | Uncommon | Rare | Epic | Legendary

  /**
   * The stack settings an item's scene file exports (`IsStackable`,
   * `MaxStackSize`, by default false and 1): what a fresh instance of the
   * scene holds until its `_Ready` runs `InitializeItem`.
   */
  datatype ItemScene = ItemScene(stackable: bool, maxStackSize: int)

  /**
   * The fields of an item the core reads.  `consumable` says whether the item
   * implements `IConsumable`; `pickedUp` is the private `_isPickedUp` flag;
   * `scene` holds the exported stack settings of the scene it was made from.
   */
  datatype Item = Item(itemId: string, itemName: string, itemType: ItemType, rarity: ItemRarity,
                       stackable: bool, maxStackSize: int, stackCount: int,
                       consumable: bool, pickedUp: bool, scene: ItemScene)

  /** The stack of an item that sits in an inventory slot: at least one, at most the maximum. */
  predicate ValidStack(it: Item) {
    1 <= it.stackCount <= it.maxStackSize
  }

  /**
   * `InitializeItem`: a stackable item's count is clamped into
   * [1, MaxStackSize]; a non-stackable item gets count and maximum 1.
   * Nothing else changes.
   */
  function InitializeItem(it: Item): (r: Item)
    ensures r == it.(stackCount := r.stackCount, maxStackSize := r.maxStackSize)
    ensures !it.stackable ==> r.stackCount == 1 && r.maxStackSize == 1
    ensures it.stackable ==> r.maxStackSize == it.maxStackSize
    ensures it.stackable && it.maxStackSize >= 1 ==> ValidStack(r)
    ensures it.stackable && ValidStack(it) ==> r == it
  {
    if it.stackable then it.(stackCount := Clamp(it.stackCount, 1, it.maxStackSize))
    else it.(stackCount := 1, maxStackSize := 1)
  }

  /** Initialising twice is initialising once. */
  lemma InitializeItemIdempotent(it: Item)
    requires it.maxStackSize >= 1
    ensures InitializeItem(InitializeItem(it)) == InitializeItem(it)
  {
  }

  /**
   * `AddToStack`: nothing for a non-stackable item; otherwise the count grows
   * by, and the result is, `min(amount, MaxStackSize - StackCount)`.  With a
   * non-negative amount a count within the maximum stays within it.
   */
  function AddToStack(it: Item, amount: int): (r: (Item, int))
    ensures !it.stackable ==> r == (it, 0)
    ensures it.stackable ==> r.1 == Min(amount, it.maxStackSize - it.stackCount) &&
                             r.0 == it.(stackCount := it.stackCount + r.1)
    ensures amount >= 0 && 0 <= it.stackCount <= it.maxStackSize ==>
              0 <= r.1 <= amount && it.stackCount <= r.0.stackCount <= r.0.maxStackSize
  {
    if !it.stackable then (it, 0)
    else
      var actual := Min(amount, it.maxStackSize - it.stackCount);
      (it.(stackCount := it.stackCount + actual), actual)
  }

  /**
   * `RemoveFromStack`: the count drops by, and the result is,
   * `min(amount, StackCount)`; with a non-negative amount and count the count
   * stays non-negative.
   */
  function RemoveFromStack(it: Item, amount: int): (r: (Item, int))
    ensures r.1 == Min(amount, it.stackCount)
    ensures r.0 == it.(stackCount := it.stackCount - r.1)
    ensures amount >= 0 && it.stackCount >= 0 ==> 0 <= r.1 <= amount && 0 <= r.0.stackCount <= it.stackCount
  {
    var actual := Min(amount, it.stackCount);
    (it.(stackCount := it.stackCount - actual), actual)
  }

  /** Removing what was just added restores the item. */
  lemma RemoveUndoesAdd(it: Item, amount: int)
    requires amount >= 0 && 0 <= it.stackCount <= it.maxStackSize
    ensures RemoveFromStack(AddToStack(it, amount).0, AddToStack(it, amount).1) == (it, AddToStack(it, amount).1)
  {
  }

  /** `CanStackWith`: both stackable, the same id, and room left on this stack. */
  predicate CanStackWith(it: Item, other: Item) {
    it.stackable && other.stackable && it.itemId == other.itemId && it.stackCount < it.maxStackSize
  }

  /** A stack that `CanStackWith` accepts takes at least one more of a positive amount, and never goes past its maximum. */
  lemma CanStackWithAcceptsOne(it: Item, other: Item, amount: int)
    requires CanStackWith(it, other) && amount >= 1 && it.stackCount >= 0
    ensures AddToStack(it, amount).1 >= 1
    ensures AddToStack(it, amount).0.stackCount <= it.maxStackSize
  {
  }

  /**
   * `Pickup`: refused for a missing picker or an item already picked up;
   * otherwise the item is marked picked up.  `picker` is the node, or None for
   * null.
   */
  function Pickup<Node>(it: Item, picker: Option<Node>): (r: (Item, bool))
    ensures r.1 <==> !it.pickedUp && picker.Some?
    ensures r.0 == it.(pickedUp := it.pickedUp || r.1)
  {
    if it.pickedUp || picker.None? then (it, false) else (it.(pickedUp := true), true)
  }

  /** Once picked up, an item refuses every later pickup. */
  lemma PickupAtMostOnce<Node>(it: Item, first: Option<Node>, second: Option<Node>)
    requires Pickup(it, first).1
    ensures !Pickup(Pickup(it, first).0, second).1
  {
  }

  /** `Use` (the base behaviour): succeeds exactly when there is a user. */
  function Use<Node>(it: Item, user: Option<Node>): (ok: bool)
    ensures ok <==> user.Some?
  {
    user.Some?
  }

  /**
   * A fresh instance of the item's scene, never added to the scene tree: its
   * `_Ready`, and so `InitializeItem`, does not run, and it keeps the
   * scene's exported stack settings.  Id, name, kind and rarity are exported
   * and never changed afterwards, so they are the item's own.
   */
  function Fresh(it: Item): (r: Item)
    ensures r.stackable == it.scene.stackable && r.maxStackSize == it.scene.maxStackSize
    ensures !r.pickedUp && r.scene == it.scene
    ensures r == it.(stackable := r.stackable, maxStackSize := r.maxStackSize, pickedUp := false)
  {
    it.(stackable := it.scene.stackable, maxStackSize := it.scene.maxStackSize, pickedUp := false)
  }

  /**
   * `Clone`: a fresh instance of the item's scene with the stack count
   * copied; None when the scene does not load.  The stack limits are the
   * scene's, not the item's own, which `InitializeItem` may have changed.
   */
  function Clone(it: Item, sceneLoads: bool): (r: Option<Item>)
    ensures r.Some? <==> sceneLoads
    ensures r.Some? ==> r.value.stackable == it.scene.stackable && r.value.maxStackSize == it.scene.maxStackSize
    ensures r.Some? ==> r.value.stackCount == it.stackCount && !r.value.pickedUp
    ensures r.Some? ==> r.value == it.(stackable := r.value.stackable, maxStackSize := r.value.maxStackSize, pickedUp := false)
  {
    if sceneLoads then Some(Fresh(it).(stackCount := it.stackCount)) else None
  }

  /**
   * A non-stackable item whose scene exports a maximum of 5: initialising it
   * sets its own maximum to 1, while its clone keeps 5 and is not stackable.
   */
  lemma CloneSkipsInitialization(it: Item)
    requires !it.stackable && it.scene == ItemScene(false, 5)
    ensures InitializeItem(it).maxStackSize == 1
    ensures Clone(InitializeItem(it), true).value.maxStackSize == 5
    ensures !Clone(InitializeItem(it), true).value.stackable
  {
  }

  /** `GetRarityColorHex`. */
  function RarityColorHex(r: ItemRarity): string {
    match r
    case Common => "#FFFFFF"
    case Uncommon => "#90EE90"
    case Rare => "#ADD8E6"
    case Epic => "#800080"
    case Legendary => "#FFA500"
  }

  /** Every rarity has its own colour string, a seven-character `#RRGGBB`. */
  lemma RarityColorHexDistinct(a: ItemRarity, b: ItemRarity)
    ensures |RarityColorHex(a)| == 7 && RarityColorHex(a)[0] == '#'
    ensures RarityColorHex(a) == RarityColorHex(b) ==> a == b
  {
  }

  /** `GetTypeDisplayName`. */
  function TypeDisplayName(t: ItemType): string {
    match t
    case Weapon => "\U{6B66}\U{5668}"
    case Armor => "\U{62A4}\U{7532}"
    case Accessory => "\U{9970}\U{54C1}"
    case Consumable => "\U{6D88}\U{8017}\U{54C1}"
    case Material => "\U{6750}\U{6599}"
    case Quest => "\U{4EFB}\U{52A1}\U{7269}\U{54C1}"
    case Misc => "\U{6742}\U{9879}"
  }

  /** Every type has its own non-empty display name, none of them the "unknown" fallback. */
  lemma TypeDisplayNameDistinct(a: ItemType, b: ItemType)
    ensures |TypeDisplayName(a)| > 0 && TypeDisplayName(a) != "\U{672A}\U{77E5}"
    ensures TypeDisplayName(a) == TypeDisplayName(b) ==> a == b
  {
  }
}

=== FILE: level.dfy ===
/**
 * Scripts/Level/LevelGenerator.cs: building the BSP tree and collecting its
 * rooms, laying L-shaped corridors, rendering floors and walls, erasing 2x2
 * pillars, and picking a random cell of a room.
 *
 * The tile map is the set of cells that hold a tile (see LevelWalls).  Every
 * random draw is an argument: per-node draws for the tree, per-join draws for
 * the corridors, per-room draws for the pillars.
 */
module LevelGen {
  import opened Wrappers
  import opened Geometry
  import opened Bsp
  import opened LevelWalls
  import Random

  // ----- FillCells -----

  /** `FillCells`: sets exactly the cells of [left, left + width) x [top, top + height) and nothing else. */
  method FillCells(g: Cells, left: int, top: int, width: int, height: int) returns (r: Cells)
    ensures forall c :: c in r <==> c in g || (left <= c.0 < left + width && top <= c.1 < top + height)
  {
    r := g;
    var y := top;
    while y < top + height
      invariant top <= y && (y <= top + height || y == top)
      invariant forall c :: c in r <==> c in g || (left <= c.0 < left + width && top <= c.1 < y)
    {
      var x := left;
      while x < left + width
        invariant left <= x && (x <= left + width || x == left)
        invariant forall c :: c in r <==>
                    c in g || (left <= c.0 < left + width && top <= c.1 < y) || (c.1 == y && left <= c.0 < x)
      {
        r := r + {(x, y)};
        x := x + 1;
      }
      y := y + 1;
    }
  }

  // ----- Corridors -----

  /** `(int)(pointB.X - pointA.X)`: the length of the horizontal run, truncated toward zero. */
  function RunX(a: Room, b: Room): int { TruncHalf(b.CenterX2() - a.CenterX2()) }

  /** `(int)(pointB.Y - pointA.Y)`: the length of the vertical run, truncated toward zero. */
  function RunY(a: Room, b: Room): int { TruncHalf(b.CenterY2() - a.CenterY2()) }

  /**
   * `CreateCorridor`: an L-shaped corridor of width 1 from the centre of `a`.
   * Horizontal first: along A's row, then down B's column; otherwise down A's
   * column, then along B's row.  Each leg is drawn from A's coordinate for the
   * truncated length of its run, so a run toward smaller coordinates (a
   * non-positive length) draws nothing on that leg.
   */
  function CorridorCells(a: Room, b: Room, horizontalFirst: bool): (r: Cells)
    ensures horizontalFirst ==> forall c :: c in r <==>
              || (c.1 == a.CenterCell().1 && a.CenterCell().0 <= c.0 < a.CenterCell().0 + RunX(a, b))
              || (c.0 == b.CenterCell().0 && a.CenterCell().1 <= c.1 < a.CenterCell().1 + RunY(a, b))
    ensures !horizontalFirst ==> forall c :: c in r <==>
              || (c.0 == a.CenterCell().0 && a.CenterCell().1 <= c.1 < a.CenterCell().1 + RunY(a, b))
              || (c.1 == b.CenterCell().1 && a.CenterCell().0 <= c.0 < a.CenterCell().0 + RunX(a, b))
  {
    var (ax, ay) := a.CenterCell();
    var (tx, ty) := b.CenterCell();
    if horizontalFirst then
      RectSet(ax, ay, RunX(a, b), 1) + RectSet(tx, ay, 1, RunY(a, b))
    else
      RectSet(ax, ay, 1, RunY(a, b)) + RectSet(ax, ty, RunX(a, b), 1)
  }

  /** Cell (x, y) holds a tile. */
  predicate Drawn(r: Cells, x: int, y: int) { (x, y) in r }

  /**
   * When both centres are whole cells and B lies to the lower right of A, the
   * corridor is an unbroken L: A's centre row runs up to the corner cell, and
   * the corner column runs down to the cell just above B's centre (which lies
   * in B).  Neither leg reaches outside the box the two centres span.
   */
  lemma CorridorJoinsWholeCentres(a: Room, b: Room, horizontalFirst: bool)
    requires a.CenterX2() % 2 == 0 && a.CenterY2() % 2 == 0 && b.CenterX2() % 2 == 0 && b.CenterY2() % 2 == 0
    requires a.CenterCell().0 < b.CenterCell().0 && a.CenterCell().1 < b.CenterCell().1
    ensures var (ax, ay, tx, ty) := (a.CenterCell().0, a.CenterCell().1, b.CenterCell().0, b.CenterCell().1);
            var r := CorridorCells(a, b, horizontalFirst);
            && (horizontalFirst ==> (forall x :: ax <= x < tx ==> Drawn(r, x, ay)) && (forall y :: ay <= y < ty ==> Drawn(r, tx, y)))
            && (!horizontalFirst ==> (forall y :: ay <= y < ty ==> Drawn(r, ax, y)) && (forall x :: ax <= x < tx ==> Drawn(r, x, ty)))
            && (forall c :: c in r ==> ax <= c.0 <= tx && ay <= c.1 <= ty)
  {
    assert RunX(a, b) == b.CenterCell().0 - a.CenterCell().0;
    assert RunY(a, b) == b.CenterCell().1 - a.CenterCell().1;
  }

  /**
   * Two disjoint rooms with centres (7.5, 7) and (25, 25): the horizontal run
   * stops at column 23 while the vertical run is drawn at column 25, so the
   * two legs of the L do not meet.
   */
  lemma CorridorLegsCanMiss(a: Room, b: Room)
    requires a == Room(2, 2, 11, 10) && b == Room(20, 20, 10, 10)
    ensures !a.Intersects(b)
    ensures (23, 7) in CorridorCells(a, b, true) && (25, 7) in CorridorCells(a, b, true)
    ensures (24, 7) !in CorridorCells(a, b, true)
  {
    assert a.CenterCell() == (7, 7) && b.CenterCell() == (25, 25);
    assert RunX(a, b) == 17 && RunY(a, b) == 18;
  }

  /** The draws `GenerateCorridors` makes at one internal node: the two `GetRoom` coins and the corridor shape. */
  datatype CorridorDraw = CorridorDraw(pickLeft: Node -> bool, pickRight: Node -> bool, horizontalFirst: bool)

  /** One `CreateCorridor` call. */
  datatype Join = Join(from: Room, to: Room, horizontalFirst: bool)

  /** The node itself when it is internal and both its subtrees own a leaf room; otherwise nothing. */
  function JoinsHere(n: Node): seq<Node> {
    match n.children
    case NoChildren => []
    case Children(a, b) => if LeafRooms(a) != [] && LeafRooms(b) != [] then [n] else []
  }

  /** The internal nodes, in pre-order, whose two subtrees both own a leaf room. */
  function JoinNodes(n: Node): seq<Node>
    decreases n
  {
    match n.children
    case NoChildren => []
    case Children(a, b) => JoinsHere(n) + JoinNodes(a) + JoinNodes(b)
  }

  /** A join made at internal node `m`: one room from each subtree, shaped by that node's draw. */
  predicate JoinAt(j: Join, m: Node, draws: Node -> CorridorDraw) {
    && m.children.Children?
    && j.from in LeafRooms(m.children.leftChild)
    && j.to in LeafRooms(m.children.rightChild)
    && j.horizontalFirst == draws(m).horizontalFirst
  }

  /** Each corridor of `joins` is made at the node in the same position of `nodes`. */
  predicate JoinsMatch(joins: seq<Join>, nodes: seq<Node>, draws: Node -> CorridorDraw) {
    |joins| == |nodes| && forall i :: 0 <= i < |joins| ==> JoinAt(joins[i], nodes[i], draws)
  }

  lemma JoinsMatchAppend(j1: seq<Join>, n1: seq<Node>, j2: seq<Join>, n2: seq<Node>, draws: Node -> CorridorDraw)
    requires JoinsMatch(j1, n1, draws) && JoinsMatch(j2, n2, draws)
    ensures JoinsMatch(j1 + j2, n1 + n2, draws)
  {
    forall i | 0 <= i < |j1 + j2| ensures JoinAt((j1 + j2)[i], (n1 + n2)[i], draws) {
      if i < |j1| {
        assert (j1 + j2)[i] == j1[i] && (n1 + n2)[i] == n1[i];
      } else {
        assert (j1 + j2)[i] == j2[i - |j1|] && (n1 + n2)[i] == n2[i - |n1|];
      }
    }
  }

  /** The cells of a list of corridors. */
  function JoinCells(joins: seq<Join>): Cells
  {
    if joins == [] then {} else CorridorCells(joins[0].from, joins[0].to, joins[0].horizontalFirst) + JoinCells(joins[1..])
  }

  lemma {:induction false} JoinCellsAppend(x: seq<Join>, y: seq<Join>)
    ensures JoinCells(x + y) == JoinCells(x) + JoinCells(y)
  {
    if x != [] {
      assert (x + y)[0] == x[0];
      assert (x + y)[1..] == x[1..] + y;
      JoinCellsAppend(x[1..], y);
    } else {
      assert x + y == y;
    }
  }

  /**
   * `GenerateCorridors`: nothing at a leaf; at an internal node one corridor
   * exactly when both children's `GetRoom` return a room, then the two
   * subtrees.  The i-th corridor made is made at the i-th node, in pre-order,
   * whose two subtrees both own a room, and joins a room of the left subtree
   * to a room of the right one; the map gains exactly the corridors' cells.
   */
  method GenerateCorridors(n: Node, g: Cells, draws: Node -> CorridorDraw) returns (joins: seq<Join>, r: Cells)
    ensures JoinsMatch(joins, JoinNodes(n), draws)
    ensures r == g + JoinCells(joins)
    decreases n
  {
    match n.children
    case NoChildren =>
      joins, r := [], g;
    case Children(a, b) =>
      var here := JoinAtNode(n, draws);
      var ja, ga := GenerateCorridors(a, g + JoinCells(here), draws);
      var jb, gb := GenerateCorridors(b, ga, draws);
      JoinsMatchAppend(here, JoinsHere(n), ja, JoinNodes(a), draws);
      JoinsMatchAppend(here + ja, JoinsHere(n) + JoinNodes(a), jb, JoinNodes(b), draws);
      JoinCellsAppend(here, ja);
      JoinCellsAppend(here + ja, jb);
      joins, r := here + ja + jb, gb;
  }

  /** The corridor `GenerateCorridors` makes at one internal node: one exactly when both `GetRoom` calls return a room. */
  method JoinAtNode(n: Node, draws: Node -> CorridorDraw) returns (here: seq<Join>)
    requires n.children.Children?
    ensures JoinsMatch(here, JoinsHere(n), draws)
  {
    var d := draws(n);
    var ra := GetRoom(n.children.leftChild, d.pickLeft);
    var rb := GetRoom(n.children.rightChild, d.pickRight);
    here := if ra.Some? && rb.Some? then [Join(ra.value, rb.value, d.horizontalFirst)] else [];
  }

  // ----- Building the tree -----

  /** The draws one BSP node makes: its split and, if it stays a leaf, its room. */
  datatype NodeDraws = NodeDraws(split: SplitDraw, room: RoomDraw)

  /** The preconditions of `GenerateRooms`: a fresh leaf with non-negative sides. */
  predicate Growable(n: Node, cfg: Config) {
    ValidConfig(cfg) && IsLeaf(n) && n.room.None? && n.area.width >= 0 && n.area.height >= 0
  }

  /**
   * `GenerateRooms`: split the node and recurse into both children, or, when
   * it refuses, carve its room and append it to the room list.  The tree it
   * builds is well formed over the node's own rectangle and depth, and the
   * rooms appended are exactly the leaf rooms of that tree, left to right.
   */
  method GenerateRooms(n: Node, cfg: Config, draws: Node -> NodeDraws, rooms: seq<Room>)
    returns (t: Node, all: seq<Room>)
    requires Growable(n, cfg)
    ensures t.area == n.area && t.depth == n.depth
    ensures WellFormed(t)
    ensures all == rooms + LeafRooms(t)
    decreases cfg.maxDepth - n.depth
  {
    var split := Split(n, cfg, draws(n).split);
    if split.0 {
      var s := split.1;
      var a, ra := GenerateRooms(s.children.leftChild, cfg, draws, rooms);
      var b, rb := GenerateRooms(s.children.rightChild, cfg, draws, ra);
      t := s.(children := Children(a, b));
      all := rb;
    } else {
      t := CreateRoom(n, draws(n).room);
      all := if t.room.Some? then rooms + [t.room.value] else rooms;
    }
  }

  // ----- Rendering -----

  /** A cell of one of the rooms. */
  predicate InSomeRoom(rooms: seq<Room>, c: Cell) {
    exists i :: 0 <= i < |rooms| && rooms[i].Contains(c.0, c.1)
  }

  /**
   * The floor loop of `RenderMap`: on a cleared map, fill every room.  The
   * floors are exactly the cells of the rooms, whatever the map held before
   * (corridors included).
   */
  method FillRooms(rooms: seq<Room>) returns (floors: Cells)
    ensures forall c :: c in floors <==> InSomeRoom(rooms, c)
  {
    floors := {};
    var i := 0;
    while i < |rooms|
      invariant 0 <= i <= |rooms|
      invariant forall c :: c in floors <==> InSomeRoom(rooms[..i], c)
    {
      var next := FillCells(floors, rooms[i].left, rooms[i].top, rooms[i].width, rooms[i].height);
      forall c ensures c in next <==> InSomeRoom(rooms[..i + 1], c) {
        assert rooms[..i + 1][..i] == rooms[..i] && rooms[..i + 1][i] == rooms[i];
        if InSomeRoom(rooms[..i + 1], c) && !rooms[i].Contains(c.0, c.1) {
          var j :| 0 <= j < i + 1 && rooms[..i + 1][j].Contains(c.0, c.1);
          assert rooms[..i][j].Contains(c.0, c.1);
        }
      }
      floors := next;
      i := i + 1;
    }
    assert rooms[..|rooms|] == rooms;
  }

  /** Every window cell from a room's top-left cell rightward and along the diagonal below it. */
  predicate Flooded(room: Room, c: Cell) {
    c.1 >= room.top && c.0 >= room.left - (c.1 - room.top)
  }

  /**
   * `RenderMap` as written: clear the map, fill every room, then run the wall
   * pass on the live map.  The floors are exactly the room cells and all of
   * them survive; the walls lie in the window.  Because each new wall counts
   * as a floor for the next cell, a room whose top-left cell lies in the window
   * floods it: every window cell in or below the room's top row, from the
   * diagonal through its top-left cell rightward, holds a tile.
   */
  method RenderMap(rooms: seq<Room>, mapSize: int) returns (floors: Cells, r: Cells)
    ensures forall c :: c in floors <==> InSomeRoom(rooms, c)
    ensures floors <= r
    ensures forall c :: c in r - floors ==> InWindow(mapSize, c)
    ensures forall i, c ::
              (0 <= i < |rooms| && rooms[i].NonEmpty() && InWindow(mapSize, (rooms[i].left, rooms[i].top)) &&
               InWindow(mapSize, c) && Flooded(rooms[i], c)) ==> c in r
    ensures rooms == [] ==> floors == {} && r == {}
  {
    floors := FillRooms(rooms);
    r := AddWalls(floors, mapSize);
    forall i, c | 0 <= i < |rooms| && rooms[i].NonEmpty() && InWindow(mapSize, (rooms[i].left, rooms[i].top)) &&
                  InWindow(mapSize, c) && Flooded(rooms[i], c)
      ensures c in r
    {
      assert rooms[i].Contains(rooms[i].left, rooms[i].top);
      AddWallsFloods(floors, mapSize, rooms[i].left, rooms[i].top, c);
    }
    if rooms == [] {
      assert floors == {};
      AddWallsEmpty(mapSize);
    }
  }

  /**
   * `RenderMap` with the wall pass reading the floors from before the pass:
   * the result is the floors plus exactly the window cells next to a floor.
   */
  method RenderMapIntended(rooms: seq<Room>, mapSize: int) returns (floors: Cells, r: Cells)
    ensures forall c :: c in floors <==> InSomeRoom(rooms, c)
    ensures forall c :: c in r <==> c in floors || (InWindow(mapSize, c) && IsAdjacentToFloor(floors, c.0, c.1))
  {
    floors := FillRooms(rooms);
    r := AddWallsAroundFloors(floors, mapSize);
  }

  // ----- Pillars -----

  /** The draws for one room's pillars: the count, and each pillar's offsets. */
  datatype PillarDraws = PillarDraws(countRaw: int, leftRaw: nat -> int, topRaw: nat -> int)

  /** The rooms `AddDecorations` puts pillars into. */
  predicate Decorated(room: Room) {
    room.width * room.height > 15 && room.width > 4 && room.height > 4
  }

  /** The offset of one pillar: column in [1, Width - 3], row in [1, Height - 3]. */
  function PillarAt(room: Room, d: PillarDraws, k: nat): (o: Cell)
    requires Decorated(room)
    ensures 1 <= o.0 <= room.width - 3 && 1 <= o.1 <= room.height - 3
  {
    (Random.RandiRange(1, room.width - 3, d.leftRaw(k)), Random.RandiRange(1, room.height - 3, d.topRaw(k)))
  }

  /** The offsets (from the room's top-left cell) of the 2x2 pillars of one room: 3 to 8 of them, off the border. */
  function PillarOffsets(room: Room, d: PillarDraws): (s: seq<Cell>)
    ensures !Decorated(room) ==> s == []
    ensures Decorated(room) ==> 3 <= |s| <= 8
    ensures forall k :: 0 <= k < |s| ==> 1 <= s[k].0 <= room.width - 3 && 1 <= s[k].1 <= room.height - 3
  {
    if !Decorated(room) then []
    else
      var count := Random.RandiRange(3, 8, d.countRaw);
      var s := seq(count, k requires 0 <= k < count => PillarAt(room, d, k));
      assert forall k :: 0 <= k < count ==> s[k] == PillarAt(room, d, k);
      s
  }

  /** Cell `c` lies in the 2x2 block at offset `o` of the room. */
  predicate InBlock(room: Room, o: Cell, c: Cell) {
    room.left + o.0 <= c.0 <= room.left + o.0 + 1 && room.top + o.1 <= c.1 <= room.top + o.1 + 1
  }

  /** The cells the 2x2 blocks at the given offsets cover. */
  function BlockCells(room: Room, offsets: seq<Cell>): Cells
    decreases |offsets|
  {
    if offsets == [] then {}
    else RectSet(room.left + offsets[0].0, room.top + offsets[0].1, 2, 2) + BlockCells(room, offsets[1..])
  }

  /** A cell is covered exactly when it lies in one of the blocks. */
  lemma {:induction false} BlockCellsMember(room: Room, offsets: seq<Cell>, c: Cell)
    ensures c in BlockCells(room, offsets) <==> exists k :: 0 <= k < |offsets| && InBlock(room, offsets[k], c)
    decreases |offsets|
  {
    if offsets != [] {
      BlockCellsMember(room, offsets[1..], c);
      if exists k :: 0 <= k < |offsets| && InBlock(room, offsets[k], c) {
        var k :| 0 <= k < |offsets| && InBlock(room, offsets[k], c);
        if k > 0 {
          assert InBlock(room, offsets[1..][k - 1], c);
        }
      }
      if c in BlockCells(room, offsets[1..]) {
        var k :| 0 <= k < |offsets[1..]| && InBlock(room, offsets[1..][k], c);
        assert InBlock(room, offsets[k + 1], c);
      }
    }
  }

  /** The cells `AddDecorations` erases in one room. */
  function PillarCells(room: Room, d: PillarDraws): Cells {
    BlockCells(room, PillarOffsets(room, d))
  }

  /** A cell neither on the border rows and columns of the room nor outside it. */
  predicate StrictlyInside(room: Room, c: Cell) {
    room.left < c.0 < room.Right() - 1 && room.top < c.1 < room.Bottom() - 1
  }

  /** Every erased cell lies strictly inside its room, and only decorated rooms lose cells. */
  lemma PillarCellsInside(room: Room, d: PillarDraws, c: Cell)
    requires c in PillarCells(room, d)
    ensures Decorated(room) && StrictlyInside(room, c)
  {
    var offs := PillarOffsets(room, d);
    BlockCellsMember(room, offs, c);
    var k :| 0 <= k < |offs| && InBlock(room, offs[k], c);
  }

  /** The union of a list of cell sets. */
  function Union(parts: seq<Cells>): Cells {
    if parts == [] then {} else Union(parts[..|parts| - 1]) + parts[|parts| - 1]
  }

  lemma {:induction false} UnionMember(parts: seq<Cells>, c: Cell)
    ensures c in Union(parts) <==> exists j :: 0 <= j < |parts| && c in parts[j]
  {
    if parts != [] {
      var init := parts[..|parts| - 1];
      UnionMember(init, c);
      if exists j :: 0 <= j < |init| && c in init[j] {
        var j :| 0 <= j < |init| && c in init[j];
        assert c in parts[j];
      }
      if exists j :: 0 <= j < |parts| && c in parts[j] {
        var j :| 0 <= j < |parts| && c in parts[j];
        if j < |init| {
          assert c in init[j];
        }
      }
    }
  }

  /** A cell some room's pillars erase. */
  predicate Erased(rooms: seq<Room>, pillarDraws: nat -> PillarDraws, c: Cell) {
    exists i :: 0 <= i < |rooms| && c in PillarCells(rooms[i], pillarDraws(i))
  }

  /** An erased cell lies strictly inside a decorated room. */
  lemma ErasedInside(rooms: seq<Room>, draws: nat -> PillarDraws, c: Cell)
    requires Erased(rooms, draws, c)
    ensures exists i :: 0 <= i < |rooms| && Decorated(rooms[i]) && StrictlyInside(rooms[i], c)
  {
    var j :| 0 <= j < |rooms| && c in PillarCells(rooms[j], draws(j));
    PillarCellsInside(rooms[j], draws(j), c);
  }

  /** The pillar cells of each room, listed room by room. */
  function PillarParts(rooms: seq<Room>, draws: nat -> PillarDraws): (parts: seq<Cells>)
    ensures |parts| == |rooms|
    ensures forall i :: 0 <= i < |rooms| ==> parts[i] == PillarCells(rooms[i], draws(i))
  {
    seq(|rooms|, j requires 0 <= j < |rooms| => PillarCells(rooms[j], draws(j)))
  }

  lemma PillarPartsUnion(rooms: seq<Room>, draws: nat -> PillarDraws, c: Cell)
    ensures c in Union(PillarParts(rooms, draws)) <==> Erased(rooms, draws, c)
  {
    UnionMember(PillarParts(rooms, draws), c);
  }

  /**
   * `AddDecorations`: erase the pillar blocks of every decorated room.  A cell
   * disappears exactly when it lies in one of the blocks; cells are only ever
   * erased, and never outside the strict interior of a decorated room.
   */
  method AddDecorations(g: Cells, rooms: seq<Room>, draws: nat -> PillarDraws) returns (r: Cells)
    ensures forall c :: c in r <==> c in g && !Erased(rooms, draws, c)
    ensures forall c :: c in g - r ==> exists i :: 0 <= i < |rooms| && Decorated(rooms[i]) && StrictlyInside(rooms[i], c)
  {
    var parts := PillarParts(rooms, draws);
    r := g;
    var i := 0;
    while i < |rooms|
      invariant 0 <= i <= |rooms|
      invariant r == g - Union(parts[..i])
    {
      assert parts[..i + 1][..i] == parts[..i];
      r := r - parts[i];
      i := i + 1;
    }
    assert parts[..|rooms|] == parts;
    forall c ensures c in r <==> c in g && !Erased(rooms, draws, c) {
      PillarPartsUnion(rooms, draws, c);
    }
    forall c | c in g - r
      ensures exists i :: 0 <= i < |rooms| && Decorated(rooms[i]) && StrictlyInside(rooms[i], c)
    {
      ErasedInside(rooms, draws, c);
    }
  }

  // ----- GetRandomFloorCell -----

  /**
   * `GetRandomFloorCell`: a drawn cell of the room's rectangle,
   * without looking at the tile map; `(Left, Top)` when the rectangle is empty.
   */
  function GetRandomFloorCell(room: Room, raw: int): (c: Cell)
    ensures room.NonEmpty() ==> room.Contains(c.0, c.1)
    ensures !room.NonEmpty() ==> c == (room.left, room.top)
  {
    var cells := RectCells(room.left, room.top, room.width, room.height);
    if |cells| > 0 then
      var c := cells[Random.RandiRange(0, |cells| - 1, raw)];
      assert c in cells;
      c
    else
      (room.left, room.top)
  }

  /** Every cell of a room is a possible result. */
  lemma GetRandomFloorCellReachesEveryCell(room: Room, x: int, y: int)
    requires room.Contains(x, y)
    ensures exists raw :: GetRandomFloorCell(room, raw) == (x, y)
  {
    var cells := RectCells(room.left, room.top, room.width, room.height);
    assert (x, y) in cells;
    var i :| 0 <= i < |cells| && cells[i] == (x, y);
    assert GetRandomFloorCell(room, i) == (x, y);
  }

  // ----- GenerateLevel -----

  /**
   * The first half of `GenerateLevel`: build the tree over [0, mapSize)^2,
   * collect its rooms and lay the corridors.  The rooms are pairwise
   * disjoint, inside the map, and at least 10 cells on a side.  The corridor
   * cells are returned but the render that follows clears them.
   */
  method PlanLevel(cfg: Config, roomDraws: Node -> NodeDraws, corridorDraws: Node -> CorridorDraw, g: Cells)
    returns (rooms: seq<Room>, withCorridors: Cells)
    requires ValidConfig(cfg) && cfg.mapSize >= 0
    ensures forall i, j :: 0 <= i < j < |rooms| ==> !rooms[i].Intersects(rooms[j])
    ensures forall i :: 0 <= i < |rooms| ==>
              Within(rooms[i], Room(0, 0, cfg.mapSize, cfg.mapSize)) &&
              rooms[i].width >= MinRoomSize && rooms[i].height >= MinRoomSize
  {
    var root := NewNode(0, 0, cfg.mapSize, cfg.mapSize, 0);
    var tree;
    tree, rooms := GenerateRooms(root, cfg, roomDraws, []);
    LeafRoomsDisjoint(tree);
    LeafRoomsInside(tree);
    assert rooms == LeafRooms(tree);
    var joins;
    joins, withCorridors := GenerateCorridors(tree, g, corridorDraws);
    forall i | 0 <= i < |rooms| ensures rooms[i] in LeafRooms(tree) { }
  }

  /**
   * `GenerateLevel` as written: plan, render with the live wall pass, and
   * erase the pillars.  The floors are exactly the room cells, and each
   * survives unless a pillar erased it; every other tile lies in the window.
   * The window is flooded from each room's top-left cell (see `RenderMap`),
   * pillar cells excepted; the pillar cells are holes, and with no rooms the
   * map ends empty.
   */
  method GenerateLevel(cfg: Config, roomDraws: Node -> NodeDraws, corridorDraws: Node -> CorridorDraw,
                       pillarDraws: nat -> PillarDraws, g: Cells)
    returns (rooms: seq<Room>, floors: Cells, r: Cells)
    requires ValidConfig(cfg) && cfg.mapSize >= 0
    ensures forall i, j :: 0 <= i < j < |rooms| ==> !rooms[i].Intersects(rooms[j])
    ensures forall i :: 0 <= i < |rooms| ==>
              Within(rooms[i], Room(0, 0, cfg.mapSize, cfg.mapSize)) &&
              rooms[i].width >= MinRoomSize && rooms[i].height >= MinRoomSize
    ensures forall c :: c in floors <==> InSomeRoom(rooms, c)
    ensures forall c :: c in floors && !Erased(rooms, pillarDraws, c) ==> c in r
    ensures forall c :: Erased(rooms, pillarDraws, c) ==> c !in r
    ensures forall c :: c in r - floors ==> InWindow(cfg.mapSize, c)
    ensures forall i, c ::
              (0 <= i < |rooms| && InWindow(cfg.mapSize, c) && Flooded(rooms[i], c) && !Erased(rooms, pillarDraws, c)) ==> c in r
    ensures rooms == [] ==> r == {}
  {
    var withCorridors;
    rooms, withCorridors := PlanLevel(cfg, roomDraws, corridorDraws, g);
    var rendered;
    floors, rendered := RenderMap(rooms, cfg.mapSize);
    r := AddDecorations(rendered, rooms, pillarDraws);
    forall i | 0 <= i < |rooms| ensures rooms[i].NonEmpty() && InWindow(cfg.mapSize, (rooms[i].left, rooms[i].top)) {
      assert Within(rooms[i], Room(0, 0, cfg.mapSize, cfg.mapSize));
    }
  }

  /**
   * `GenerateLevel` with the intended wall pass: the tiles are exactly the room
   * cells and the window cells next to one, less the pillar holes, so no
   * corridor cell survives the render.
   */
  method GenerateLevelIntended(cfg: Config, roomDraws: Node -> NodeDraws, corridorDraws: Node -> CorridorDraw,
                               pillarDraws: nat -> PillarDraws, g: Cells)
    returns (rooms: seq<Room>, floors: Cells, r: Cells)
    requires ValidConfig(cfg) && cfg.mapSize >= 0
    ensures forall i, j :: 0 <= i < j < |rooms| ==> !rooms[i].Intersects(rooms[j])
    ensures forall i :: 0 <= i < |rooms| ==>
              Within(rooms[i], Room(0, 0, cfg.mapSize, cfg.mapSize)) &&
              rooms[i].width >= MinRoomSize && rooms[i].height >= MinRoomSize
    ensures forall c :: c in floors <==> InSomeRoom(rooms, c)
    ensures forall c :: c in r <==>
              (c in floors || (InWindow(cfg.mapSize, c) && IsAdjacentToFloor(floors, c.0, c.1))) &&
              !Erased(rooms, pillarDraws, c)
  {
    var withCorridors;
    rooms, withCorridors := PlanLevel(cfg, roomDraws, corridorDraws, g);
    var rendered;
    floors, rendered := RenderMapIntended(rooms, cfg.mapSize);
    r := AddDecorations(rendered, rooms, pillarDraws);
  }
}

=== FILE: level_walls.dfy ===
/**
 * The wall pass of Scripts/Level/LevelGenerator.cs (`AddWalls` and
 * `IsAdjacentToFloor`).  The LevelGenerator tile map is modelled as the set of
 * cells that hold a tile: every tile it places has source id 0 and every test
 * is `!= -1`, so the atlas coordinates (presentation only) are dropped.
 *
 * The pass visits the window [-2, size + 2)^2 in row-major order and sets each
 * empty cell that has a set 8-neighbour.  As written, the neighbour test reads
 * the map as it is at visit time, so a wall placed a moment earlier counts as a
 * "floor" for the next cell.  `Frozen` reads the floor set from before the pass
 * instead, which is what the pass is for.
 */
module LevelWalls {
  import opened Geometry

  /** The cells of the tile map that hold a tile. */
  type Cells = set<Cell>

  /** The padded window the pass visits. */
  predicate InWindow(size: int, c: Cell) {
    -2 <= c.0 < size + 2 && -2 <= c.1 < size + 2
  }

  /** `IsAdjacentToFloor`: one of the eight neighbours holds a tile. */
  predicate IsAdjacentToFloor(g: Cells, x: int, y: int) {
    || (x, y + 1) in g || (x, y - 1) in g || (x + 1, y) in g || (x - 1, y) in g
    || (x + 1, y + 1) in g || (x + 1, y - 1) in g || (x - 1, y + 1) in g || (x - 1, y - 1) in g
  }

  /** Where the neighbour test reads: the live map (as written) or the floors from before the pass. */
  datatype Reading = Live | Frozen(floors: Cells)

  function Source(g: Cells, rd: Reading): Cells {
    match rd
    case Live => g
    case Frozen(floors) => floors
  }

  /** One visit: an empty cell with a neighbour becomes set. */
  function Visit(g: Cells, rd: Reading, x: int, y: int): Cells {
    if (x, y) !in g && IsAdjacentToFloor(Source(g, rd), x, y) then g + {(x, y)} else g
  }

  /** The map after visiting cells (-2, y) .. (x - 1, y) of row y. */
  function RowPrefix(g: Cells, rd: Reading, y: int, x: int): Cells
    decreases x + 2
  {
    if x <= -2 then g else Visit(RowPrefix(g, rd, y, x - 1), rd, x - 1, y)
  }

  /** The map after visiting whole rows -2 .. y - 1. */
  function RowsBefore(g: Cells, size: int, rd: Reading, y: int): Cells
    decreases y + 2
  {
    if y <= -2 then g else RowPrefix(RowsBefore(g, size, rd, y - 1), rd, y - 1, size + 2)
  }

  /** The map as the pass finds it when it reaches (x, y). */
  function BeforeVisit(g: Cells, size: int, rd: Reading, x: int, y: int): Cells {
    RowPrefix(RowsBefore(g, size, rd, y), rd, y, x)
  }

  function Pass(g: Cells, size: int, rd: Reading): Cells {
    RowsBefore(g, size, rd, size + 2)
  }

  /** Visiting cells of row y only adds cells of row y at the visited columns. */
  lemma {:induction false} RowPrefixFrame(g: Cells, rd: Reading, y: int, x1: int, x2: int)
    requires -2 <= x1 <= x2
    ensures RowPrefix(g, rd, y, x1) <= RowPrefix(g, rd, y, x2)
    ensures forall c :: c in RowPrefix(g, rd, y, x2) - RowPrefix(g, rd, y, x1) ==> c.1 == y && x1 <= c.0 < x2
    decreases x2 - x1
  {
    if x2 > x1 {
      RowPrefixFrame(g, rd, y, x1, x2 - 1);
    }
  }

  /** Visiting whole rows only adds window cells of those rows. */
  lemma {:induction false} RowsBeforeFrame(g: Cells, size: int, rd: Reading, y1: int, y2: int)
    requires -2 <= y1 <= y2
    ensures RowsBefore(g, size, rd, y1) <= RowsBefore(g, size, rd, y2)
    ensures forall c :: c in RowsBefore(g, size, rd, y2) - RowsBefore(g, size, rd, y1) ==>
              y1 <= c.1 < y2 && -2 <= c.0 < size + 2
    decreases y2 - y1
  {
    if y2 > y1 {
      RowsBeforeFrame(g, size, rd, y1, y2 - 1);
      var h := RowsBefore(g, size, rd, y2 - 1);
      if size + 2 >= -2 {
        RowPrefixFrame(h, rd, y2 - 1, -2, size + 2);
      }
    }
  }

  /** A window cell keeps, to the end of the pass, the value its own visit gave it. */
  lemma SettledAtVisit(g: Cells, size: int, rd: Reading, x: int, y: int)
    requires InWindow(size, (x, y))
    ensures (x, y) in Pass(g, size, rd) <==> (x, y) in Visit(BeforeVisit(g, size, rd, x, y), rd, x, y)
    ensures (x, y) in BeforeVisit(g, size, rd, x, y) <==> (x, y) in g
  {
    var h := RowsBefore(g, size, rd, y);
    RowsBeforeFrame(g, size, rd, y + 1, size + 2);
    RowsBeforeFrame(g, size, rd, -2, y);
    RowPrefixFrame(h, rd, y, x + 1, size + 2);
    RowPrefixFrame(h, rd, y, -2, x);
    assert RowsBefore(g, size, rd, y + 1) == RowPrefix(h, rd, y, size + 2);
    assert RowPrefix(h, rd, y, x + 1) == Visit(BeforeVisit(g, size, rd, x, y), rd, x, y);
  }

  /** The pass never clears a cell and only sets window cells. */
  lemma PassFrame(g: Cells, size: int, rd: Reading)
    ensures g <= Pass(g, size, rd)
    ensures forall c :: c in Pass(g, size, rd) - g ==> InWindow(size, c)
  {
    if size + 2 >= -2 {
      RowsBeforeFrame(g, size, rd, -2, size + 2);
    }
  }

  /**
   * `AddWalls` as written: set cells stay set, only empty cells of the window
   * change, and an empty window cell becomes set exactly when one of its eight
   * neighbours is set at the moment the row-major pass visits it.
   */
  function AddWalls(g: Cells, size: int): (r: Cells)
    ensures g <= r
    ensures forall c :: c in r - g ==> InWindow(size, c)
    ensures forall x, y :: InWindow(size, (x, y)) && (x, y) !in g ==>
              ((x, y) in r <==> IsAdjacentToFloor(BeforeVisit(g, size, Live, x, y), x, y))
  {
    PassFrame(g, size, Live);
    forall x, y | InWindow(size, (x, y)) && (x, y) !in g
      ensures (x, y) in Pass(g, size, Live) <==> IsAdjacentToFloor(BeforeVisit(g, size, Live, x, y), x, y)
    {
      SettledAtVisit(g, size, Live, x, y);
    }
    Pass(g, size, Live)
  }

  /**
   * The wall pass with the neighbour test reading the floors from before the
   * pass: the result is the floors plus exactly the empty window cells that
   * touch a floor cell, so every wall has a floor neighbour and every window
   * cell left empty has none.
   */
  function AddWallsAroundFloors(floors: Cells, size: int): (r: Cells)
    ensures forall c :: c in r <==> c in floors || (InWindow(size, c) && IsAdjacentToFloor(floors, c.0, c.1))
  {
    var r := Pass(floors, size, Frozen(floors));
    PassFrame(floors, size, Frozen(floors));
    forall c | InWindow(size, c) && c !in floors
      ensures c in r <==> IsAdjacentToFloor(floors, c.0, c.1)
    {
      SettledAtVisit(floors, size, Frozen(floors), c.0, c.1);
    }
    r
  }

  /** As written, once a window cell is set the next cell of its row is set too. */
  lemma {:induction false} AddWallsCascades(g: Cells, size: int, x: int, y: int)
    requires InWindow(size, (x, y)) && InWindow(size, (x + 1, y))
    requires (x, y) in AddWalls(g, size)
    ensures (x + 1, y) in AddWalls(g, size)
  {
    SettledAtVisit(g, size, Live, x, y);
    SettledAtVisit(g, size, Live, x + 1, y);
    PassFrame(g, size, Live);
    var b := BeforeVisit(g, size, Live, x, y);
    var b' := BeforeVisit(g, size, Live, x + 1, y);
    assert b' == Visit(b, Live, x, y);
    assert (x, y) in b';
    if (x + 1, y) !in b' {
      assert IsAdjacentToFloor(b', x + 1, y);
      assert (x + 1, y) in Visit(b', Live, x + 1, y);
    }
  }

  /**
   * The cascade in action: with map size 4 and a single floor cell (0, 0), the
   * pass as written sets (5, -1), whose neighbours hold no floor at all.
   */
  lemma AddWallsSetsCellAwayFromFloor(g: Cells, size: int)
    requires g == {(0, 0)} && size == 4
    ensures !IsAdjacentToFloor(g, 5, -1)
    ensures (5, -1) in AddWalls(g, size)
  {
    SettledAtVisit(g, size, Live, -1, -1);
    RowsBeforeFrame(g, size, Live, -2, -1);
    RowPrefixFrame(RowsBefore(g, size, Live, -1), Live, -1, -2, -1);
    var b := BeforeVisit(g, size, Live, -1, -1);
    assert (0, 0) in b && (-1, -1) !in b;
    assert (-1, -1) in Visit(b, Live, -1, -1);
    AddWallsCascades(g, size, -1, -1);
    AddWallsCascades(g, size, 0, -1);
    AddWallsCascades(g, size, 1, -1);
    AddWallsCascades(g, size, 2, -1);
    AddWallsCascades(g, size, 3, -1);
    AddWallsCascades(g, size, 4, -1);
  }

  /** A cell the pass sets in an earlier row is already set when the pass visits (x, y). */
  lemma EarlierRowSeen(g: Cells, size: int, x: int, y: int, c: Cell)
    requires InWindow(size, (x, y)) && c.1 < y
    requires c in Pass(g, size, Live)
    ensures c in BeforeVisit(g, size, Live, x, y)
  {
    var h := RowsBefore(g, size, Live, y);
    RowsBeforeFrame(g, size, Live, y, size + 2);
    assert c in h;
    RowPrefixFrame(h, Live, y, -2, x);
  }

  /** A set cell sets the three window cells below it, stated on the live pass itself. */
  lemma PassCascadesDown(g: Cells, size: int, x: int, y: int, dx: int)
    requires -1 <= dx <= 1 && InWindow(size, (x + dx, y + 1))
    requires (x, y) in Pass(g, size, Live)
    ensures (x + dx, y + 1) in Pass(g, size, Live)
  {
    var x', y' := x + dx, y + 1;
    EarlierRowSeen(g, size, x', y', (x, y));
    var b := BeforeVisit(g, size, Live, x', y');
    assert IsAdjacentToFloor(b, x', y') by {
      if dx == -1 {
        assert (x' + 1, y' - 1) in b;
      } else if dx == 0 {
        assert (x', y' - 1) in b;
      } else {
        assert (x' - 1, y' - 1) in b;
      }
    }
    SettledAtVisit(g, size, Live, x', y');
  }

  /** As written, a set cell also sets the three window cells below it. */
  lemma AddWallsCascadesDown(g: Cells, size: int, x: int, y: int, dx: int)
    requires -1 <= dx <= 1 && InWindow(size, (x + dx, y + 1))
    requires (x, y) in AddWalls(g, size)
    ensures (x + dx, y + 1) in AddWalls(g, size)
  {
    PassCascadesDown(g, size, x, y, dx);
  }

  /** As written, a set window cell sets the rest of its row to the right edge of the window. */
  lemma {:induction false} AddWallsFillsRow(g: Cells, size: int, x: int, y: int, x2: int)
    requires InWindow(size, (x, y)) && InWindow(size, (x2, y)) && x <= x2
    requires (x, y) in AddWalls(g, size)
    ensures (x2, y) in AddWalls(g, size)
    decreases x2 - x
  {
    if x < x2 {
      AddWallsCascades(g, size, x, y);
      AddWallsFillsRow(g, size, x + 1, y, x2);
    }
  }

  /**
   * As written, one set window cell (x, y) floods the window: every window
   * cell of a row y' >= y at column x - (y' - y) or further right is set.
   */
  lemma {:induction false} AddWallsFloods(g: Cells, size: int, x: int, y: int, c: Cell)
    requires InWindow(size, (x, y)) && InWindow(size, c)
    requires (x, y) in AddWalls(g, size)
    requires c.1 >= y && c.0 >= x - (c.1 - y)
    ensures c in AddWalls(g, size)
    decreases c.1 - y
  {
    if c.1 == y {
      AddWallsFillsRow(g, size, x, y, c.0);
    } else {
      var above := if x - (c.1 - 1 - y) >= -2 then x - (c.1 - 1 - y) else -2;
      AddWallsFloods(g, size, x, y, (above, c.1 - 1));
      var below := if above - 1 >= -2 then above - 1 else -2;
      AddWallsCascadesDown(g, size, above, c.1 - 1, below - above);
      AddWallsFillsRow(g, size, below, c.1, c.0);
    }
  }

  lemma {:induction false} RowPrefixEmpty(y: int, x: int)
    ensures RowPrefix({}, Live, y, x) == {}
    decreases x + 2
  {
    if x > -2 {
      RowPrefixEmpty(y, x - 1);
    }
  }

  lemma {:induction false} RowsBeforeEmpty(size: int, y: int)
    ensures RowsBefore({}, size, Live, y) == {}
    decreases y + 2
  {
    if y > -2 {
      RowsBeforeEmpty(size, y - 1);
      RowPrefixEmpty(y - 1, size + 2);
    }
  }

  /** With no tile anywhere there is nothing to wall: the pass leaves the map empty. */
  lemma AddWallsEmpty(size: int)
    ensures AddWalls({}, size) == {}
  {
    RowsBeforeEmpty(size, size + 2);
  }
}

=== FILE: mathf.dfy ===
/**
 * The integer helpers of Godot's `Mathf` that the game uses: `Min`, `Max` and
 * `Clamp`, each defined once and shared by the modules that need them.
 */
module Mathf {
  function Min(a: int, b: int): (r: int)
    ensures r <= a && r <= b && (r == a || r == b)
  {
    if a <= b then a else b
  }

  function Max(a: int, b: int): (r: int)
    ensures r >= a && r >= b && (r == a || r == b)
  {
    if a >= b then a else b
  }

  /** `Mathf.Clamp(value, lo, hi)` on integers: `lo` below it, `hi` above it, `value` otherwise. */
  function Clamp(value: int, lo: int, hi: int): (r: int)
    ensures lo <= hi ==> lo <= r <= hi
    ensures lo <= value <= hi ==> r == value
  {
    if value < lo then lo else if value > hi then hi else value
  }
}

=== FILE: random.dfy ===
/**
 * Godot's random draws, made explicit.  `RandomNumberGenerator.RandiRange(lo, hi)`
 * returns an integer of the closed range [lo, hi].  The model takes the value
 * the generator returned as an argument; an argument outside the range is
 * clamped into it, so every integer is a valid draw, every value of the range
 * is produced by some draw, and nothing outside the range is.  No claim is made
 * about the distribution.
 */
module Random {

  /** The value `RandiRange(lo, hi)` returns for the draw `raw`. */
  function RandiRange(lo: int, hi: int, raw: int): (r: int)
    requires lo <= hi
    ensures lo <= r <= hi
    ensures lo <= raw <= hi ==> r == raw
  {
    if raw < lo then lo else if raw > hi then hi else raw
  }
}

=== FILE: spawner.dfy ===
/**
 * Scripts/Core/EnemySpawner.cs: how many enemies a level gets, which kinds,
 * and where they appear.  The generator's draws are parameters: `Randf` is a
 * real roll, `RandiRange` a raw value clamped into its range.  Instantiating
 * the enemy scene is a parameter too (`sceneLoads`), standing for a missing
 * `EnemyScene` or a failed `Instantiate`; adding the enemy to the scene tree
 * and to the enemies group is engine plumbing and is left out.
 */
module Spawner {
  import opened Wrappers
  import opened Geometry
  import Random

  /** `EnemyType`, in declaration order. */
  datatype EnemyType = Goblin | Skeleton | Slime | Orc

  /** The pixel size of a grid cell. */
  const GridSize: int := 16

  /** A spawned enemy: its kind and its pixel position. */
  datatype Enemy = Enemy(kind: EnemyType, x: int, y: int)

  /** `EnemySpawnConfig`. */
  datatype SpawnConfig = SpawnConfig(kind: EnemyType, useSpecificPosition: bool, x: int, y: int)

  /** `SpawnEnemy`: the enemy at the position, or None when the scene cannot be instantiated. */
  function SpawnEnemy(x: int, y: int, kind: EnemyType, sceneLoads: bool): (r: Option<Enemy>)
    ensures r.Some? <==> sceneLoads
    ensures r.Some? ==> r.value == Enemy(kind, x, y)
  {
    if sceneLoads then Some(Enemy(kind, x, y)) else None
  }

  /** The room's centre in pixels: `Left*16 + Width*16/2`, and likewise down. */
  function RoomCenterPixel(room: Room): (p: (int, int))
    ensures p.0 == GridSize * room.left + 8 * room.width && p.1 == GridSize * room.top + 8 * room.height
  {
    (room.left * GridSize + TruncHalf(room.width * GridSize), room.top * GridSize + TruncHalf(room.height * GridSize))
  }

  /** For a room of positive size the centre pixel lies inside the room's pixel rectangle. */
  lemma RoomCenterPixelInside(room: Room)
    requires room.NonEmpty()
    ensures GridSize * room.left <= RoomCenterPixel(room).0 < GridSize * room.Right()
    ensures GridSize * room.top <= RoomCenterPixel(room).1 < GridSize * room.Bottom()
  {
  }

  /** `SpawnEnemyInRandomRoom`: None without rooms; otherwise the enemy at the centre of the drawn room. */
  function SpawnEnemyInRandomRoom(rooms: seq<Room>, kind: EnemyType, roomRaw: int, sceneLoads: bool): (r: Option<Enemy>)
    ensures r.Some? ==> r.value.kind == kind &&
                        exists i :: 0 <= i < |rooms| && (r.value.x, r.value.y) == RoomCenterPixel(rooms[i])
    ensures r.Some? <==> rooms != [] && sceneLoads
  {
    if |rooms| == 0 then None
    else
      var i := Random.RandiRange(0, |rooms| - 1, roomRaw);
      var p := RoomCenterPixel(rooms[i]);
      SpawnEnemy(p.0, p.1, kind, sceneLoads)
  }

  /** Every room can be drawn: its raw index spawns at its centre. */
  lemma SpawnEnemyInRandomRoomReachesEveryRoom(rooms: seq<Room>, kind: EnemyType, i: int)
    requires 0 <= i < |rooms|
    ensures SpawnEnemyInRandomRoom(rooms, kind, i, true) ==
              Some(Enemy(kind, RoomCenterPixel(rooms[i]).0, RoomCenterPixel(rooms[i]).1))
  {
  }

  /** The draws one config consumes: the room index (when it has no position) and whether the scene loads. */
  datatype SpawnDraw = SpawnDraw(roomRaw: int, sceneLoads: bool)

  /** One config of `SpawnEnemies`: at its own position, or in a random room. */
  function SpawnFromConfig(rooms: seq<Room>, c: SpawnConfig, d: SpawnDraw): (r: Option<Enemy>)
    ensures r.Some? ==> r.value.kind == c.kind
    ensures c.useSpecificPosition ==> r == SpawnEnemy(c.x, c.y, c.kind, d.sceneLoads)
    ensures !c.useSpecificPosition ==> r == SpawnEnemyInRandomRoom(rooms, c.kind, d.roomRaw, d.sceneLoads)
  {
    if c.useSpecificPosition then SpawnEnemy(c.x, c.y, c.kind, d.sceneLoads)
    else SpawnEnemyInRandomRoom(rooms, c.kind, d.roomRaw, d.sceneLoads)
  }

  /**
   * `SpawnEnemies`: the enemies the configs produced, in config order.  The
   * ghost `from` gives, for each enemy, the config it came from: the indices
   * strictly increase and every config that produced an enemy is among them,
   * so there is at most one enemy per config.
   */
  method SpawnEnemies(rooms: seq<Room>, configs: seq<SpawnConfig>, draws: seq<SpawnDraw>)
    returns (enemies: seq<Enemy>, ghost from: seq<nat>)
    requires |draws| == |configs|
    ensures |enemies| == |from| <= |configs|
    ensures forall k :: 0 <= k < |from| ==> from[k] < |configs|
    ensures forall k, l :: 0 <= k < l < |from| ==> from[k] < from[l]
    ensures forall k :: 0 <= k < |from| ==> Some(enemies[k]) == SpawnFromConfig(rooms, configs[from[k]], draws[from[k]])
    ensures forall i :: 0 <= i < |configs| && SpawnFromConfig(rooms, configs[i], draws[i]).Some? ==> i in from
    ensures (forall i :: 0 <= i < |configs| ==> SpawnFromConfig(rooms, configs[i], draws[i]).Some?) ==> |enemies| == |configs|
    ensures (forall i :: 0 <= i < |configs| ==> SpawnFromConfig(rooms, configs[i], draws[i]).None?) ==> enemies == []
    ensures forall k :: 0 <= k < |enemies| ==>
              exists i :: 0 <= i < |configs| && Some(enemies[k]) == SpawnFromConfig(rooms, configs[i], draws[i])
  {
    var outs := seq(|configs|, j requires 0 <= j < |configs| => SpawnFromConfig(rooms, configs[j], draws[j]));
    assert forall j :: 0 <= j < |configs| ==> outs[j] == SpawnFromConfig(rooms, configs[j], draws[j]);
    enemies, from := Collect(outs);
    forall k | 0 <= k < |enemies|
      ensures exists i :: 0 <= i < |configs| && Some(enemies[k]) == SpawnFromConfig(rooms, configs[i], draws[i])
    {
      assert Some(enemies[k]) == outs[from[k]];
    }
  }

  /** The loop of `SpawnEnemies` over the outcomes of its configs: keep the enemies, in order. */
  method Collect(outs: seq<Option<Enemy>>) returns (enemies: seq<Enemy>, ghost from: seq<nat>)
    ensures |enemies| == |from| <= |outs|
    ensures forall k :: 0 <= k < |from| ==> from[k] < |outs|
    ensures forall k, l :: 0 <= k < l < |from| ==> from[k] < from[l]
    ensures forall k :: 0 <= k < |from| ==> Some(enemies[k]) == outs[from[k]]
    ensures forall i :: 0 <= i < |outs| && outs[i].Some? ==> i in from
    ensures (forall i :: 0 <= i < |outs| ==> outs[i].Some?) ==> |enemies| == |outs|
    ensures (forall i :: 0 <= i < |outs| ==> outs[i].None?) ==> enemies == []
  {
    enemies, from := [], [];
    var i := 0;
    while i < |outs|
      invariant 0 <= i <= |outs|
      invariant |enemies| == |from| <= i
      invariant (forall j :: 0 <= j < i ==> outs[j].Some?) ==> |enemies| == i
      invariant forall k :: 0 <= k < |from| ==> from[k] < i
      invariant forall k, l :: 0 <= k < l < |from| ==> from[k] < from[l]
      invariant forall k :: 0 <= k < |from| ==> Some(enemies[k]) == outs[from[k]]
      invariant forall j :: 0 <= j < i && outs[j].Some? ==> j in from
    {
      if outs[i].Some? {
        enemies := enemies + [outs[i].value];
        from := from + [i];
      }
      i := i + 1;
    }
    if enemies != [] {
      assert outs[from[0]].Some?;
    }
  }

  /** `GetRandomEnemyTypeForLevel`: the kind a roll in `[0, 1)` picks at a depth. */
  function EnemyTypeForLevel(depth: int, roll: real): (t: EnemyType)
    ensures depth <= 2 ==> t == Goblin || t == Slime
    ensures depth <= 5 ==> t != Orc
    ensures t == Orc ==> depth > 5 && roll >= 0.7
    ensures t == Goblin <==> roll < (if depth <= 2 then 0.6 else if depth <= 5 then 0.4 else 0.3)
  {
    if depth <= 2 then
      if roll < 0.6 then Goblin else Slime
    else if depth <= 5 then
      if roll < 0.4 then Goblin else if roll < 0.7 then Skeleton else Slime
    else
      if roll < 0.3 then Goblin else if roll < 0.5 then Skeleton else if roll < 0.7 then Slime else Orc
  }

  /** The kinds each depth band can pick: Goblin and Slime early, Skeleton from depth 3, Orc after depth 5. */
  lemma EnemyTypeForLevelBands(depth: int)
    ensures depth <= 2 ==> EnemyTypeForLevel(depth, 0.0) == Goblin && EnemyTypeForLevel(depth, 0.8) == Slime
    ensures 2 < depth <= 5 ==> EnemyTypeForLevel(depth, 0.5) == Skeleton && EnemyTypeForLevel(depth, 0.8) == Slime
    ensures depth > 5 ==> EnemyTypeForLevel(depth, 0.4) == Skeleton && EnemyTypeForLevel(depth, 0.6) == Slime &&
                          EnemyTypeForLevel(depth, 0.9) == Orc
  {
  }

  /** The number of enemies: `min(2 + depth, 8)` when none is given (-1), else the given number. */
  function EnemyCount(depth: int, enemyCount: int): (n: int)
    ensures enemyCount != -1 ==> n == enemyCount
    ensures enemyCount == -1 ==> n <= 8 && n <= 2 + depth && (n == 8 || n == 2 + depth)
    ensures enemyCount == -1 && depth >= 0 ==> 2 <= n <= 8
  {
    if enemyCount == -1 then (if 2 + depth <= 8 then 2 + depth else 8) else enemyCount
  }

  /** The configs built for a level: one per enemy, each in a random room, of the rolled kind. */
  function LevelConfigs(depth: int, count: int, rolls: seq<real>): (cs: seq<SpawnConfig>)
    requires |rolls| == if count > 0 then count else 0
    ensures |cs| == |rolls|
    ensures forall i :: 0 <= i < |cs| ==> !cs[i].useSpecificPosition && cs[i].kind == EnemyTypeForLevel(depth, rolls[i])
  {
    seq(|rolls|, i requires 0 <= i < |rolls| => SpawnConfig(EnemyTypeForLevel(depth, rolls[i]), false, 0, 0))
  }

  /**
   * `SpawnRandomEnemiesForLevel`: one config per enemy of the count, then
   * `SpawnEnemies`.  The ghost `from` gives the roll each enemy came from:
   * the rolls are used in order, a roll spawns exactly when there are rooms
   * and its scene loads, and its enemy has the kind the roll picks and sits
   * at a room centre.
   */
  method SpawnRandomEnemiesForLevel(rooms: seq<Room>, depth: int, enemyCount: int, rolls: seq<real>, draws: seq<SpawnDraw>)
    returns (enemies: seq<Enemy>, ghost from: seq<nat>)
    requires |rolls| == |draws| == (var n := EnemyCount(depth, enemyCount); if n > 0 then n else 0)
    ensures |enemies| == |from| <= |rolls|
    ensures enemyCount == -1 && depth >= 0 ==> |enemies| <= 8
    ensures forall k, l :: 0 <= k < l < |from| ==> from[k] < from[l]
    ensures forall k :: 0 <= k < |from| ==> from[k] < |rolls| && enemies[k].kind == EnemyTypeForLevel(depth, rolls[from[k]])
    ensures forall i :: 0 <= i < |rolls| ==> (i in from <==> rooms != [] && draws[i].sceneLoads)
    ensures rooms == [] ==> enemies == []
    ensures rooms != [] && (forall i :: 0 <= i < |draws| ==> draws[i].sceneLoads) ==> |enemies| == |rolls|
    ensures forall k :: 0 <= k < |enemies| ==> exists i :: 0 <= i < |rooms| && (enemies[k].x, enemies[k].y) == RoomCenterPixel(rooms[i])
    ensures depth <= 2 ==> forall k :: 0 <= k < |enemies| ==> enemies[k].kind == Goblin || enemies[k].kind == Slime
    ensures depth <= 5 ==> forall k :: 0 <= k < |enemies| ==> enemies[k].kind != Orc
  {
    var configs := LevelConfigs(depth, EnemyCount(depth, enemyCount), rolls);
    enemies, from := SpawnEnemies(rooms, configs, draws);
    forall k | 0 <= k < |enemies|
      ensures exists i :: 0 <= i < |rooms| && (enemies[k].x, enemies[k].y) == RoomCenterPixel(rooms[i])
      ensures enemies[k].kind == EnemyTypeForLevel(depth, rolls[from[k]])
    {
      LevelEnemyAtRoomCentre(rooms, depth, rolls, configs, draws, from[k], enemies[k]);
    }
    forall i | 0 <= i < |rolls|
      ensures i in from <==> rooms != [] && draws[i].sceneLoads
    {
      assert SpawnFromConfig(rooms, configs[i], draws[i]) == SpawnEnemyInRandomRoom(rooms, configs[i].kind, draws[i].roomRaw, draws[i].sceneLoads);
      if i in from {
        var k :| 0 <= k < |from| && from[k] == i;
        assert Some(enemies[k]) == SpawnFromConfig(rooms, configs[i], draws[i]);
      }
    }
  }

  /** An enemy spawned from a level config stands at some room's centre and has the kind its roll picked. */
  lemma LevelEnemyAtRoomCentre(rooms: seq<Room>, depth: int, rolls: seq<real>, configs: seq<SpawnConfig>,
                               draws: seq<SpawnDraw>, i: nat, e: Enemy)
    requires |configs| == |rolls| == |draws| && i < |configs|
    requires !configs[i].useSpecificPosition && configs[i].kind == EnemyTypeForLevel(depth, rolls[i])
    requires Some(e) == SpawnFromConfig(rooms, configs[i], draws[i])
    ensures exists j :: 0 <= j < |rooms| && (e.x, e.y) == RoomCenterPixel(rooms[j])
    ensures e.kind == EnemyTypeForLevel(depth, rolls[i])
  {
    assert Some(e) == SpawnEnemyInRandomRoom(rooms, configs[i].kind, draws[i].roomRaw, draws[i].sceneLoads);
  }
}

=== FILE: wrappers.dfy ===
/** The optional value that stands in for a C# reference that may be null. */
module Wrappers {

  datatype Option<+T> = None | Some(value: T) {

    /** The wrapped value, or `default` when there is none. */
    function GetOr(default: T): T {
      match this
      case Some(v) => v
      case None => default
    }
  }
}
